=== FILE: README.md ===
# H12 component engine — a Dafny model

H12 is a small client-side component library. A component class supplies
`render`, `main` and `finally` hooks. `render` builds the component's DOM
with `node(type, children, attributes, keys)`, and `node` records every
placeholder key (such as `{name}`) it is told about in a private binding
store. `set(key, value)` later rewrites every place the key occurs in: a
text node, an element anchor that accumulates elements, or an attribute
whose template mixes several keys. `get(key)` answers the key's last
attribute data. `init` runs the hooks and the `#unique("id")` capture in a
fixed order, and `component` creates, registers and initialises a child
component.

The project models `public/library/h12.js`, one module per concern:

| module | file | models |
|---|---|---|
| `JsString` | jsstring.dfy | `String.prototype.indexOf` and `replace` with a string pattern (first occurrence only) |
| `Marker` | marker.dfy | the `++` marker of `set`: position of the first marker, removal of that marker only |
| `Template` | template.dfy | the token regex `/\{[^{}\s]*\}/gm` and the sequence of first-occurrence replacements on an attribute template |
| `Dom` | dom.dfy | an abstract node store with the DOM operations the engine calls, including their move semantics and the two exceptions `replaceChild` and `insertAdjacentElement` can throw (name checks are left out) |
| `Binding` | binding.dfy | `#bind` and `get` |
| `Update` | update.dfy | `#isValidType` and `set` |
| `Builder` | builder.dfy | `node` |
| `Unique` | unique.dfy | `H12.raid` and `#unique` |
| `Lifecycle` | lifecycle.dfy | the constructor's fields, `init` and `component` |
| `Scenarios` | scenarios.dfy | consequences of `set` for the documented uses (text placeholder, accumulation with `++`, attribute template) |
| `Wrappers` | wrappers.dfy | `Option` and `Result` |

Everything is a pure function on immutable values. The DOM is a map from
node ids to text nodes and elements, each element carrying its tag,
attributes and ordered child list. A node's parent is the element listing it
among its children. A DOM exception is an `Err` result. `set` keeps what the
occurrences before a throwing one did, because the source has no rollback.
The `render`, `main` and `finally` hooks are function-valued fields of a
`Class` value. `Math.random` becomes a counter (see "Left out").

The source's `init` returns `undefined` after any throw, because the `catch`
block has no `return`. Its doc comment promises the element or `null`
instead. The model follows the code.

## Model

| member | source | states |
|---|---|---|
| JsString.IndexOf | public/library/h12.js:317 | `indexOf` gives -1 exactly when the pattern does not occur, and otherwise an occurrence with none before it |
| JsString.ReplaceAbsent | public/library/h12.js:318 | `replace` with a pattern that does not occur returns the string unchanged |
| JsString.ReplaceFirstAt | public/library/h12.js:318 | `replace` substitutes exactly the first occurrence and keeps the text on both sides |
| Marker.ParseKey | public/library/h12.js:317-318 | no `++` means replace with the key as given; a leading `++` means prepend, with the two characters removed; a later first `++` means append, with exactly that occurrence removed |
| Marker.ParseMark | public/library/h12.js:299-318 | parsing a marker-free key spelled as `{k}`, `++{k}` or `{k}++` gives back that mode and key (round trip), except for the append marker after "" or "+" |
| Marker.AppendMarkerOnShortKeys | public/library/h12.js:317-318 | the exception to the round trip: `"" + "++"` and `"+" + "++"` are read as prepend |
| Marker.OnlyFirstMarkerRemoved | public/library/h12.js:318 | a key marked on both sides prepends and keeps its trailing `++` |
| Template.SegmentsSpell | public/library/h12.js:377 | the left-to-right scan of the token regex loses nothing (its pieces spell the template), and every match is a token `{...}` without braces or white space inside |
| Template.ScanConcat | public/library/h12.js:377 | scanning the text of canonical segments gives those segments back (the inverse of `SegmentsSpell`) |
| Template.ApplyTemplateInPlace | public/library/h12.js:376-391 | when every brace of the template belongs to a token and no substituted value holds a brace, the source's chain of first-occurrence replacements equals the in-place rendering: each token becomes its resolution and the text between tokens is kept |
| Template.ApplyTemplateOfSegments | public/library/h12.js:376-391 | the same equality stated for canonical segments |
| Template.OneTokenTemplate | public/library/h12.js:376-391 | a template with one token in brace-free text keeps the text and replaces the token by its resolution |
| Template.TwoTokenTemplate | public/library/h12.js:376-391 | the same for two tokens |
| Template.ColorTemplateExample | public/library/h12.js:376-391 | `bg-{color}-500` with `{color}` set to `red` becomes `bg-red-500` |
| Template.UnboundTokenExample | public/library/h12.js:384-387 | a token whose key was never bound is left as written next to the replaced one |
| Template.QuirkTokens | public/library/h12.js:377 | an unclosed `{` before a token is passed over, so the regex finds the key's token and the later token |
| Template.ReplacementHitsEarlierCopy | public/library/h12.js:379-389 | replacements work on the string rewritten so far: a value can close a brace pair around itself, and the next replacement then hits that new, earlier copy, so the output differs from the in-place rendering |
| Dom.ReplaceChild | public/library/h12.js:333-366 | `replaceChild` throws exactly when the old node is not a child or the new node is an inclusive ancestor of the parent; otherwise the new node moves in and the old node leaves, no other child changes, and validity is kept |
| Dom.ReplaceChildInPlace | public/library/h12.js:333-359 | a node not among the children takes exactly the replaced child's position |
| Dom.InsertChild | public/library/h12.js:349-355 | `insertAdjacentElement`/`append` throws exactly on an ancestry cycle; otherwise the node moves to the front or the end of the anchor's children |
| Dom.RemoveAll | public/library/h12.js:367-369 | every listed node leaves its parent, no other node moves, no content changes |
| Dom.RemoveAllAt | public/library/h12.js:367-369 | after the removals, a node's children are exactly its former children that were not removed |
| Binding.Bind | public/library/h12.js:82-87 | `#bind` adds the key, appends the occurrence to the end of its list, starts a new key with data "", and leaves every other key alone |
| Binding.DataOf | public/library/h12.js:384-388 | the data attribute templates resolve other keys to is what `get` answers for each bound key |
| Binding.BindAllOrder | public/library/h12.js:82-87 | binding a run of registrations keeps each key's earlier occurrences and data and appends its new occurrences in registration order |
| Binding.BindKeepsData | public/library/h12.js:82-87 | `#bind` never changes what `get` answers, except "" for a key seen for the first time |
| Binding.BindAllAppend | public/library/h12.js:82-87 | binding two runs one after the other is binding their concatenation |
| Update.IsValidType | public/library/h12.js:292-294 | a value has text exactly when its `typeof` is string, number, boolean or function |
| Update.StepPreserves | public/library/h12.js:328-395 | one pass of the loop only grows the store and keeps it valid, keeps each occurrence well formed and its kind of target, and can throw only on a text or element occurrence given an element, or on an element occurrence given text |
| Update.StepTextToElement | public/library/h12.js:333-338 | a text occurrence given an element: `replaceChild` throws exactly as the DOM says, and otherwise the element takes the text node's place and the occurrence becomes an element occurrence |
| Update.StepTextValue | public/library/h12.js:339-346 | a text occurrence given text: the node's text is replaced, prefixed or suffixed by the value as the marker says, and nothing else changes |
| Update.StepTextIgnored | public/library/h12.js:333-347 | a text occurrence given a value without text and not an element is left alone |
| Update.StepAccumulate | public/library/h12.js:349-355 | an element occurrence given an element with a marker: the element becomes the anchor's first child (prepend) or last child (append) and joins the clone list |
| Update.StepDropsClones | public/library/h12.js:356-370 | in every other element case the clone list ends empty and every former clone is out of the tree |
| Update.StepReplaceAnchor | public/library/h12.js:356-359 | an element occurrence given an element without a marker: the element takes the anchor's place and becomes the anchor |
| Update.StepAnchorToText | public/library/h12.js:361-366 | an element occurrence given text: a new text node with the value takes the anchor's place and the occurrence becomes a text occurrence |
| Update.StepAnchorIgnored | public/library/h12.js:348-371 | an element occurrence given a value without text keeps its anchor but still drops its clones |
| Update.StepAttribute | public/library/h12.js:372-392 | an attribute occurrence given text: the attribute becomes the template with its tokens resolved, the template is kept, and no other attribute or node changes; a value without text changes nothing |
| Update.WalkStops | public/library/h12.js:328-395 | the loop handles a prefix of the occurrences, and all of them exactly when nothing throws |
| Update.WalkKeepsRest | public/library/h12.js:328-395 | the occurrence records from the throwing one on are unchanged |
| Update.WalkError | public/library/h12.js:328-395 | a throw is the one the next occurrence's step raises on the document the earlier steps left |
| Update.WalkExtends | public/library/h12.js:328-395 | the loop leaves a valid document that only grew |
| Update.WalkWrote | public/library/h12.js:372-392 | the key's data is written exactly when the value has text and an attribute occurrence was among the handled ones |
| Update.WalkRecords | public/library/h12.js:328-395 | every occurrence record keeps its kind of target and its parent |
| Update.WalkKeepsOccOk | public/library/h12.js:328-395 | a well-formed occurrence record stays well formed |
| Update.WalkAttributes | public/library/h12.js:372-392 | over attribute occurrences only: nothing throws, no node is added, each attribute ends as the template of the last record naming it resolves to, and attributes no record names keep their values |
| Update.SetUnbound | public/library/h12.js:320-323 | a key that is unbound after marker removal leaves the document and bindings as they were, and `get` still answers `null` |
| Update.SetKeepsBindings | public/library/h12.js:315-397 | `set` keeps the set of bound keys and every other key's entry, and keeps the number of the key's records and what each one points at |
| Update.SetData | public/library/h12.js:315-408 | without a throw, `get` afterwards answers the value's text exactly when the value (with a missing value read as the default `""`) has text and the key occurs in an attribute, and the former data otherwise |
| Update.SetDefault | public/library/h12.js:315 | `set(key)` and `set(key, undefined)` behave exactly as `set(key, "")`, the parameter's default |
| Update.SetPreserves | public/library/h12.js:315-397 | `set` leaves a valid document that only grew, and keeps every record well formed |
| Update.SetSingle | public/library/h12.js:315-397 | for a key with one record, `set` is one step: a throw leaves everything as it was, otherwise the document and record are the step's |
| Update.SetAttributes | public/library/h12.js:372-392 | a key that occurs only in attributes, set to text or to no value (read as `""`): nothing throws, the data becomes the value's text, and every named attribute holds its resolved template |
| Scenarios.SetOnText | public/library/h12.js:339-346 | a key with one text record set to a string: the text node takes it, or gets it before or after its text, and the bindings do not change |
| Scenarios.SetOnTextGives | public/library/h12.js:339-346 | the same with the new text given whole: the node holds it and the document stays valid |
| Scenarios.SetWithoutValueClears | public/library/h12.js:315-346 | `set(k)` without a value on a key with one text record empties the text node |
| Scenarios.SetWithoutValueOnAnchor | public/library/h12.js:315-370 | `set(k)` without a value on a key with one element record puts an empty text node in the anchor's place and detaches the accumulated elements |
| Scenarios.ReplaceAppendPrepend | public/library/h12.js:308-312 | the documented `set("{item}", "Red")`, `set("{item}++", "Apple")`, `set("++{item}", "Fresh")` leaves "Fresh" + "Red" + "Apple", joined without spaces |
| Scenarios.SetElementOnText | public/library/h12.js:333-338 | a key with one text record set to an element: the element takes the text node's place |
| Scenarios.SetTextOnAnchor | public/library/h12.js:361-370 | a key with one element record set to text: a new text node takes the anchor's place and every accumulated element leaves the tree |
| Scenarios.SetElementInAnchor | public/library/h12.js:349-355 | an element set with a marker becomes the anchor's first or last child and joins the accumulated ones |
| Scenarios.TextToElementAndBack | public/library/h12.js:333-366 | a text placeholder set to an element and then to a string ends as a new text node under the same parent |
| Scenarios.AppendThenPrepend | public/library/h12.js:349-355 | `{k}++` with one element and then `++{k}` with another: neither throws, the prepended one is the anchor's first child, the appended one stays a child, and both are in the record's clone list |
| Scenarios.FirstAppend | public/library/h12.js:349-355 | the first `{k}++` with an element cannot throw: the element joins the anchor's children and the clone list, and the record is ready for the next accumulation |
| Scenarios.ReplaceWithOwnClone | public/library/h12.js:356-370 | setting, without a marker, an element that was accumulated in the anchor moves it into the anchor's place, and the clone clean-up then removes it, so it ends in no child list while the record points at it; every later `set` with text on the key then throws |
| Scenarios.DetachedAnchorThrows | public/library/h12.js:361-366 | an element record whose anchor is no longer a child of the record's parent makes every `set` with text throw (`replaceChild` finds no such child) |
| Scenarios.SetOnAttribute | public/library/h12.js:372-392 | a key with one attribute record set to brace-free text: the attribute becomes the in-place rendering of its template |
| Scenarios.SetFillsTemplate | public/library/h12.js:372-392 | a template `pre{k}post` set to a brace-free string becomes `pre` + string + `post` |
| Scenarios.AccumulationKeepsShape | public/library/h12.js:352 | a successful insertion keeps the store and every element an element |
| Builder.AppendTo | public/library/h12.js:196-220 | appending to an element without a parent cannot throw, puts the node last, and keeps the element without a parent |
| Builder.AppendOne | public/library/h12.js:196-220 | one child: a node child is moved in, any other child becomes a new text node; a string child named in `keys` is bound to its text node under the element |
| Builder.AppendChildrenDoc | public/library/h12.js:196-220 | the children loop keeps the document valid and the element without a parent, only adds nodes, and changes no node's content |
| Builder.AppendChildrenPlaced | public/library/h12.js:196-220 | each child puts one node in the element, in order: node children themselves, every other child a new text node holding its text |
| Builder.AppendChildrenBinds | public/library/h12.js:204-208 | the string children named in `keys` are bound, in order, to their text nodes with the element as parent, and nothing else is bound |
| Builder.AppendChildrenOrder | public/library/h12.js:196-220 | with no node passed twice, the element's children are its old ones followed by the placed nodes |
| Builder.EventNameDrop | public/library/h12.js:234-236 | a name is an event exactly when it starts with "on", and the event is the rest of the name |
| Builder.AttributesDoc | public/library/h12.js:222-246 | the attributes loop changes only the element's attribute map |
| Builder.AttributesEvents | public/library/h12.js:233-237 | event handlers add their listeners in attribute order |
| Builder.AttributesBinds | public/library/h12.js:227-231 | every attribute's keys are bound, attribute after attribute |
| Builder.AttributesKeep | public/library/h12.js:222-246 | an attribute name that no attribute writes keeps its value |
| Builder.AttributesSet | public/library/h12.js:238-244 | with distinct names, every written attribute holds its value or its callable's result |
| Builder.NewElement | public/library/h12.js:194 | `createElement` gives a new element without parent, children or attributes, and nothing else changes |
| Builder.NodeElement | public/library/h12.js:192-250 | `node` returns a new element without a parent, with the given tag, and the document stays valid |
| Builder.NodeKeepsContent | public/library/h12.js:192-250 | no node that existed before `node` changes its kind, tag, attributes or text |
| Builder.NodeChildren | public/library/h12.js:196-220 | the element's children are, in order, the node children and a new text node for each other child |
| Builder.NodeAttributes | public/library/h12.js:222-246 | with distinct names, each written attribute holds its text, the element has no other attribute, and event handlers are added in order with "on" dropped |
| Builder.NodeBindings | public/library/h12.js:192-250 | `node` binds the keyed string children first, then every attribute key, in order |
| Builder.OrphanOnlyItself | public/library/h12.js:196-220 | a node without a parent is an ancestor of nothing but itself, so appending to it cannot form a cycle |
| Unique.Base36RoundTrip | public/library/h12.js:433-435 | reading back the base-36 numeral gives the number written |
| Unique.RaidInjective | public/library/h12.js:433-435 | two draws give the same identifier exactly when they are the same draw |
| Unique.FreshIdInjective | public/library/h12.js:425 | the same for the `"x"`-prefixed values `#unique` writes |
| Unique.Select | public/library/h12.js:423 | a node is selected exactly when it lies below the root and carries the attribute |
| Unique.Carrying | public/library/h12.js:423 | a node is kept exactly when it is listed and carries the attribute |
| Unique.RewriteFrame | public/library/h12.js:423-426 | the rewriting loop keeps validity, every kind and child list and every other attribute, and draws one identifier per element |
| Unique.RewriteIds | public/library/h12.js:425 | with no element selected twice, the i-th element gets the i-th fresh identifier |
| Unique.RewriteStoreKeys | public/library/h12.js:424 | the store gains exactly the values the elements carried |
| Unique.RewriteStoreLast | public/library/h12.js:424 | each value maps to the last element carrying it |
| Unique.RewriteStoreKeeps | public/library/h12.js:424 | a store entry whose key no element carried is kept |
| Unique.UniquePassFrame | public/library/h12.js:422-427 | `#unique` touches no node outside the selection, no child list and no other attribute, and keeps the document valid |
| Unique.UniquePassIds | public/library/h12.js:422-427 | the selected elements get, in document order, the next fresh identifiers |
| Unique.UniquePassDistinct | public/library/h12.js:422-427 | afterwards no two selected elements share a value |
| Unique.DrawnDisjoint | public/library/h12.js:425 | draws from disjoint stretches of the supply give disjoint values |
| Unique.UniquePassDrawn | public/library/h12.js:422-427 | every value `#unique` writes comes from the stretch of the supply the pass consumed |
| Unique.UniquePassStore | public/library/h12.js:422-427 | the store maps each former value to the last element carrying it, and keeps its other entries |
| Lifecycle.Capture | public/library/h12.js:152 | the capture changes only the component's `element` map among its fields |
| Lifecycle.CaptureKeepsChild | public/library/h12.js:152-156 | the capture does not change whether `args.child` is an element, so the child set is decided by `render` alone |
| Lifecycle.InitTrace | public/library/h12.js:147-172 | `init` starts its steps in the order render, capture, child set, main, mount, finally; it skips the child set when `args.child` is not an element, and skips mount and `finally` without a target; the steps started are a prefix of that plan, and `this.root` is returned only after the whole plan ran (the lemmas below state where each throw ends it) |
| Lifecycle.InitRenderThrows | public/library/h12.js:149-170 | a throw in `render` ends `init` at once with `undefined` |
| Lifecycle.InitBadRoot | public/library/h12.js:149-170 | a render returning `null` or a text node makes the capture throw: `this.root` is set, nothing else runs, `undefined` is returned |
| Lifecycle.Mount | public/library/h12.js:160-161 | `appendChild` of the root to the matched node fails exactly when there is no root, the root is not a node, or the insertion is refused; otherwise the root becomes the node's last child in a valid document |
| Lifecycle.InitAfterRender | public/library/h12.js:150-155 | after a render with an element root, `init` goes on with the capture and then the `{child}` set, which runs exactly when the rendered `args.child` is an element |
| Lifecycle.InitReachesMain | public/library/h12.js:150-158 | when render and the `{child}` set do not throw, `init` calls `main` in the state they left, after exactly the steps started before it |
| Lifecycle.InitChildSetThrows | public/library/h12.js:153-170 | a throw in the `{child}` set ends `init` with `undefined` in the state the set left; `main`, the mount and `finally` never run |
| Lifecycle.InitMainThrows | public/library/h12.js:158-170 | a throw in `main` ends `init` with `undefined` in the state `main` left; the mount and `finally` never run |
| Lifecycle.InitMountThrows | public/library/h12.js:160-170 | a selector matching nothing, a missing root or a refused insertion ends `init` with `undefined` after `main`; `finally` never runs |
| Lifecycle.InitMounted | public/library/h12.js:160-170 | once the root is mounted, `finally` runs in the mounted document, and `init` returns `this.root` as `finally` left it, or `undefined` when `finally` throws |
| Lifecycle.InitUnmounted | public/library/h12.js:158-165 | without a target, once `main` returns, `init` returns `this.root` as `main` left it, after every planned step |
| Lifecycle.NoTargetNoMount | public/library/h12.js:160-163 | without a target `init` never mounts and never runs `finally` |
| Lifecycle.InitSupply | public/library/h12.js:147-172 | with hooks that cannot rewind the identifier supply, `init` never leaves it smaller |
| Lifecycle.CaptureWithin | public/library/h12.js:150-151 | the capture draws its identifiers after the supply `init` started with and before the supply `init` leaves |
| Lifecycle.CaptureWritesIds | public/library/h12.js:151 | every element the capture selects carries one of the identifiers the capture drew |
| Lifecycle.TwoMountsDistinctIds | public/library/h12.js:147-172 | two instances initialised one after the other never give two elements the same rewritten `id` |
| Lifecycle.ComponentSupply | public/library/h12.js:260-272 | creating a component leaves the supply strictly past where it was, so instances created in turn draw disjoint identifiers |
| Lifecycle.ComponentNotObject | public/library/h12.js:260-274 | without a class nothing changes and `undefined` is returned |
| Lifecycle.ComponentRegisters | public/library/h12.js:260-272 | the child gets its id, the parent and `args` with `child` set to the first child; it is registered under its id in the state its `init` left; the parent's other entries and fields are kept |
| Lifecycle.ComponentInit | public/library/h12.js:271 | `component` returns what the child's `init` returned, and that `init` never mounts and never runs `finally` |

## Left out

- `$` replacement patterns of `String.prototype.replace` (`$&`, `$1`, …) are not interpreted. A value or data containing `$` is substituted literally.
- A number, boolean or callable value given to `set` is represented by its text: `Value.Num` and `Value.Bool` by what `String(value)` gives, `Value.Func` by the text its call `value()` at line 325 returns. The call itself is not modelled.
- Update.Set: the source stores the raw `value` as the key's data (line 392), so `get` returns the number, the boolean or the function itself. The model stores `TextOf(value)`, so `get` answers the value's text. A function stored as data is also called by a later `replace` with the match as its arguments (line 388); the model substitutes the text of its call without arguments.
- Update.SetData: states that `get` answers the value's text, where the source answers the raw value (see the `Update.Set` line above).
- `main` and `finally` are called without `await` in the source. Async hooks and their promises are not modelled.
- `console.error` in the `catch` of `init` is I/O and has no effect in the model.
- `H12.raid` draws from `Math.random`. The model draws the n-th identifier from a counter written in base 36. Its one property, that distinct draws differ, is what the source hopes for and cannot guarantee.
- Object keys follow insertion order in the model. JavaScript's own ordering of integer-like keys is not modelled, and neither are keys inherited from `Object.prototype` (for example `#binding["constructor"]`).
- Builder.AppendChildren: callable children are given as the result of their call (a node or a text). The call itself, with `this` bound, is not modelled.
- Builder.ApplyAttributes: an attribute whose value is a callable is never given `keys` (`KeysOk`). In the source, such keys would bind a function as the template, and `set` would then fail on `map.match`.
- Builder.ApplyAttributes: a plain attribute value is text. The source binds the raw value as the template (line 229), so a number or boolean value with `keys` makes a later `set` of that key throw a `TypeError` at `map.match` (line 377); the model binds its text and `set` goes through.
- Builder.ApplyAttributes: attribute names are compared as written. In an HTML document `setAttribute` and `getAttribute` lowercase the name, so `Class` and `class` name one attribute there and two in the model (`DistinctNames`, `AttributesSet`, `NodeAttributes`).
- Builder.NewElement: the name check of `createElement` is not modelled. The DOM throws `InvalidCharacterError` for a tag that is not a valid element name, and that includes `node`'s own default `type` of `""` (lines 192-194). So in the source `node()` without a type throws, while the model creates an element with an empty tag.
- Builder.NodeElement: states an element with the given tag for every tag. The source throws instead for `""` and any other invalid element name (see the `Builder.NewElement` line above).
- Builder.AttributesSet: the name check of `setAttribute` is not modelled. The DOM throws `InvalidCharacterError` for an invalid attribute name such as `""` or `"a b"` (lines 239 and 244). The model writes the attribute under that name.
- Lifecycle.TwoMountsDistinctIds: requires hooks that never give back a smaller supply (`KeepsSupply`). A `Class` value could return any `Env`; the source's hooks cannot rewind `Math.random`. It also has the no-duplicate-selection precondition of `UniquePassIds` for both captures.
- Unique.Select: the depth of the tree walk is bounded by the number of nodes, which holds for any tree the store can form.
- Unique.UniquePassIds: requires that no element is selected twice. `querySelectorAll` guarantees this for a tree. The model does not derive it from the store's shape.
- Unique.UniquePassDistinct: has the same precondition as `UniquePassIds`.
- Unique.UniquePassStore: has the same precondition as `UniquePassIds`.
- When `replaceChild` throws after `createTextNode` in `set` (lines 362-363), the source's new text node is left unreachable. The model discards it: the store and its next node id are those from before the step.
- The `querySelector(element)` lookup of `init` is the `Target` parameter: no target, a selector that matches nothing, or the matched node.
- `render`, `main` and `finally` are parameters of a `Class` value. What a particular component's hooks do is not modelled.
- A component names its parent by id and holds its children by value. A child's hooks therefore cannot change the parent's state.
- `init` does not assign `this.args` from its `args` parameter (the source does not either). `component` sets `args` before `init`, and `init` passes its own `args` to `main`.
- The sample applications, `vite.config.js` and the JSX transform are not part of this model.

=== FILE: binding.dfy ===
/** The binding store of a component (public/library/h12.js:60-87,
    407-408): for every placeholder key, the ordered list of places the key
    occurs in and the last data stored for it. */
module Binding {
  import opened Wrappers
  import opened Dom

  /** One place a key occurs in: a text node with the element it was built
      under (`T`), an element anchor with the same parent and the elements
      accumulated inside it (`E`), or an attribute with its template (`A`).
      A text occurrence's clone list is always empty, so it has none. */
  datatype Occurrence =
    | TextOcc(node: NodeId, parent: NodeId)
    | ElemOcc(node: NodeId, parent: NodeId, clones: seq<NodeId>)
    | AttrOcc(node: NodeId, name: string, template: string)

  datatype Entry = Entry(occs: seq<Occurrence>, data: string)

  type Bindings = map<string, Entry>

  /** `#bind(key, occ)`: the occurrence goes to the end of the key's list;
      a key seen for the first time starts with no occurrences and data "". */
  function Bind(b: Bindings, key: string, occ: Occurrence): (r: Bindings)
    ensures r.Keys == b.Keys + {key}
    ensures key in b ==> r[key] == b[key].(occs := b[key].occs + [occ])
    ensures key !in b ==> r[key] == Entry([occ], "")
    ensures forall k :: k in b && k != key ==> r[k] == b[k]
  {
    var entry := if key in b then b[key] else Entry([], "");
    b[key := entry.(occs := entry.occs + [occ])]
  }

  /** `get(key)`: the key's data, or `None` (the source's `null`) when the
      key was never bound. */
  function Get(b: Bindings, key: string): (r: Option<string>)
    ensures r.None? <==> key !in b
    ensures r.Some? ==> r.value == b[key].data
  {
    if key in b then Some(b[key].data) else None
  }

  /** The data of every bound key: what attribute templates resolve
      other keys' tokens to. */
  function DataOf(b: Bindings): (r: map<string, string>)
    ensures r.Keys == b.Keys
    ensures forall k :: k in b ==> Get(b, k) == Some(r[k])
  {
    map k | k in b :: b[k].data
  }

  /** A sequence of registrations, in the order they were made. */
  type Registrations = seq<(string, Occurrence)>

  /** The occurrences registered for `key`, in order. */
  function OccsFor(regs: Registrations, key: string): seq<Occurrence> {
    if regs == [] then []
    else (if regs[0].0 == key then [regs[0].1] else []) + OccsFor(regs[1..], key)
  }

  /** The keys registered. */
  function KeysOf(regs: Registrations): set<string> {
    if regs == [] then {} else {regs[0].0} + KeysOf(regs[1..])
  }

  /** `#bind` applied to every registration in order. */
  function BindAll(b: Bindings, regs: Registrations): Bindings
    decreases |regs|
  {
    if regs == [] then b else BindAll(Bind(b, regs[0].0, regs[0].1), regs[1..])
  }

  /** Binding a sequence of registrations keeps every key's earlier
      occurrences and data, appends the key's new occurrences in
      registration order, and starts new keys with data "". */
  lemma {:induction false} BindAllOrder(b: Bindings, regs: Registrations)
    ensures BindAll(b, regs).Keys == b.Keys + KeysOf(regs)
    ensures forall k :: k in BindAll(b, regs) ==>
      BindAll(b, regs)[k] == if k in b then b[k].(occs := b[k].occs + OccsFor(regs, k))
                             else Entry(OccsFor(regs, k), "")
    decreases |regs|
  {
    if regs != [] {
      var (key, occ) := regs[0];
      var b1 := Bind(b, key, occ);
      BindAllOrder(b1, regs[1..]);
      forall k | k in BindAll(b, regs)
        ensures BindAll(b, regs)[k] == if k in b then b[k].(occs := b[k].occs + OccsFor(regs, k))
                                       else Entry(OccsFor(regs, k), "")
      {
        if k in b || k == key {
          BindStep(b, regs, k);
        } else {
          assert OccsFor(regs, k) == [] + OccsFor(regs[1..], k);
        }
      }
    }
  }

  lemma BindStep(b: Bindings, regs: Registrations, k: string)
    requires regs != [] && (k in b || k == regs[0].0)
    ensures Bind(b, regs[0].0, regs[0].1)[k].occs + OccsFor(regs[1..], k)
         == (if k in b then b[k].occs else []) + OccsFor(regs, k)
  {
    OccsHead(regs, k);
    if k == regs[0].0 {
      BindStepSame(b, regs, k);
    } else {
      assert [] + OccsFor(regs[1..], k) == OccsFor(regs[1..], k);
    }
  }

  lemma OccsHead(regs: Registrations, k: string)
    requires regs != []
    ensures OccsFor(regs, k) == (if regs[0].0 == k then [regs[0].1] else []) + OccsFor(regs[1..], k)
  {
  }

  lemma AppendAssoc<T>(pre: seq<T>, x: T, post: seq<T>)
    ensures pre + [x] + post == pre + ([x] + post)
  {
  }

  lemma BindStepSame(b: Bindings, regs: Registrations, k: string)
    requires regs != [] && k == regs[0].0
    ensures Bind(b, regs[0].0, regs[0].1)[k].occs + OccsFor(regs[1..], k)
         == (if k in b then b[k].occs else []) + OccsFor(regs, k)
  {
    var occ := regs[0].1;
    var pre := if k in b then b[k].occs else [];
    OccsHead(regs, k);
    assert Bind(b, k, occ)[k].occs == pre + [occ];
    AppendAssoc(pre, occ, OccsFor(regs[1..], k));
  }

  /** Binding never changes the data already stored: `get` after `#bind`
      answers as before for a key already bound, and "" for a new one. */
  lemma BindKeepsData(b: Bindings, key: string, occ: Occurrence, k: string)
    ensures Get(Bind(b, key, occ), k) == if k == key && key !in b then Some("") else Get(b, k)
  {
  }

  /** Binding two runs of registrations one after the other is binding
      their concatenation. */
  lemma {:induction false} BindAllAppend(b: Bindings, r1: Registrations, r2: Registrations)
    ensures BindAll(b, r1 + r2) == BindAll(BindAll(b, r1), r2)
    decreases |r1|
  {
    if r1 != [] {
      assert (r1 + r2)[0] == r1[0];
      assert (r1 + r2)[1..] == r1[1..] + r2;
      BindAllAppend(Bind(b, r1[0].0, r1[0].1), r1[1..], r2);
    } else {
      assert r1 + r2 == r2;
    }
  }
}

=== FILE: builder.dfy ===
/** `node(type, children, attributes, keys)` (public/library/h12.js:192-250):
    a new element with its children appended in order, the string children
    named in `keys` bound as text occurrences, and its attributes set,
    bound or turned into event listeners. */
module Builder {
  import opened Wrappers
  import opened JsString
  import opened Dom
  import opened Binding

  /** A child passed to `node`, by what `append` receives for it. */
  datatype Child =
    | StrChild(text: string)     // a string: a new text node, bound when it is one of the keys
    | NodeChild(id: NodeId)      // a node: moved into the element
    | FuncNode(id: NodeId)       // a callable whose call returns a node
    | FuncText(text: string)     // a callable whose call returns anything else, as text
    | OtherChild(text: string)   // any other value, as its string form

  predicate IsNodeChild(c: Child) {
    c.NodeChild? || c.FuncNode?
  }

  /** An attribute's value: text, or a callable, which is either an event
      handler or called once for the attribute's text. */
  datatype AttrValue = Plain(text: string) | Callable(result: string)

  /** One entry of the attribute object: its name, value and keys. */
  datatype AttrSpec = AttrSpec(name: string, value: AttrValue, keys: seq<string>)

  /** No node lists `x` among its children. */
  predicate Orphan(d: Document, x: NodeId) {
    forall p :: p in d.nodes ==> x !in Kids(d.nodes[p])
  }

  /** A node without a parent is an inclusive ancestor of nothing but itself. */
  lemma OrphanOnlyItself(d: Document, v: NodeId, x: NodeId, fuel: nat)
    requires Orphan(d, x)
    ensures IsInclusiveAncestor(d.nodes, v, x, fuel) <==> v == x
  {
  }

  /** `element.append(v)` on an element without a parent: it cannot throw,
      `v` becomes the last child, and the element stays without a parent. */
  function AppendTo(d: Document, el: NodeId, v: NodeId): (r: Document)
    requires Valid(d) && IsElement(d, el) && Orphan(d, el) && v != el && v in d.nodes
    ensures InsertChild(d, el, v, false) == Ok(r)
    ensures Valid(r) && r.nodes.Keys == d.nodes.Keys && r.next == d.next
    ensures forall x :: x in d.nodes ==> Shape(r.nodes[x]) == Shape(d.nodes[x])
    ensures IsElement(r, el) && Orphan(r, el)
    ensures ChildrenOf(r, el) == Without(ChildrenOf(d, el), v) + [v]
  {
    OrphanOnlyItself(d, v, el, |d.nodes|);
    var r := InsertChild(d, el, v, false).value;
    assert Orphan(r, el) by {
      forall p | p in r.nodes ensures el !in Kids(r.nodes[p]) {
        assert el !in ChildrenOf(d, p);
        assert el !in ChildrenOf(r, p);
      }
    }
    r
  }

  /** What appending the children left: the document, the bindings and the
      node each child put in the element. */
  datatype Appended = Appended(doc: Document, bindings: Bindings, placed: seq<NodeId>)

  /** `x` is a text node holding `t`. */
  predicate HoldsText(d: Document, x: NodeId, t: string) {
    x in d.nodes && d.nodes[x] == Text(t)
  }

  /** A node child names a stored node other than the element. */
  predicate ChildOk(d: Document, el: NodeId, c: Child) {
    IsNodeChild(c) ==> c.id in d.nodes && c.id != el
  }

  /** The loop over `children` (lines 196-220). */
  function AppendChildren(d: Document, b: Bindings, el: NodeId, children: seq<Child>, keys: seq<string>): Appended
    requires Valid(d) && IsElement(d, el) && Orphan(d, el)
    requires forall i :: 0 <= i < |children| ==> ChildOk(d, el, children[i])
    decreases |children|
  {
    if children == [] then Appended(d, b, [])
    else
      var (d1, b1, v) := AppendOne(d, b, el, children[0], keys);
      RestOk(d, d1, el, children);
      var rest := AppendChildren(d1, b1, el, children[1..], keys);
      Appended(rest.doc, rest.bindings, [v] + rest.placed)
  }

  /** One pass of the loop: the child's node is appended, and a string
      child named in `keys` is bound to its new text node. */
  function AppendOne(d: Document, b: Bindings, el: NodeId, c: Child, keys: seq<string>): (r: (Document, Bindings, NodeId))
    requires Valid(d) && IsElement(d, el) && Orphan(d, el) && ChildOk(d, el, c)
    ensures Valid(r.0) && IsElement(r.0, el) && Orphan(r.0, el)
    ensures d.nodes.Keys <= r.0.nodes.Keys && r.0.listeners == d.listeners
    ensures forall x :: x in d.nodes ==> Shape(r.0.nodes[x]) == Shape(d.nodes[x])
    ensures IsNodeChild(c) ==> r.2 == c.id
    ensures !IsNodeChild(c) ==> r.2 !in d.nodes && HoldsText(r.0, r.2, c.text)
    ensures ChildrenOf(r.0, el) == Without(ChildrenOf(d, el), r.2) + [r.2]
    ensures r.1 == if c.StrChild? && c.text in keys then Bind(b, c.text, TextOcc(r.2, el)) else b
  {
    var (d1, v) := Place(d, el, c);
    var d2 := AppendTo(d1, el, v);
    var b1 := if c.StrChild? && c.text in keys then Bind(b, c.text, TextOcc(v, el)) else b;
    (d2, b1, v)
  }

  lemma RestOk(d: Document, d1: Document, el: NodeId, children: seq<Child>)
    requires children != [] && d.nodes.Keys <= d1.nodes.Keys
    requires forall i :: 0 <= i < |children| ==> ChildOk(d, el, children[i])
    ensures forall i :: 0 <= i < |children[1..]| ==> ChildOk(d1, el, children[1..][i])
  {
    forall i | 0 <= i < |children[1..]| ensures ChildOk(d1, el, children[1..][i]) {
      assert children[1..][i] == children[i + 1];
    }
  }

  /** The node a child puts in the element: the node itself, or a new text
      node with the child's text. */
  function Place(d: Document, el: NodeId, c: Child): (r: (Document, NodeId))
    requires Valid(d) && IsElement(d, el) && Orphan(d, el) && ChildOk(d, el, c)
    ensures IsNodeChild(c) ==> r == (d, c.id)
    ensures !IsNodeChild(c) ==> r == CreateText(d, c.text)
    ensures Valid(r.0) && r.1 in r.0.nodes && r.1 != el && IsElement(r.0, el) && Orphan(r.0, el)
    ensures d.nodes.Keys <= r.0.nodes.Keys && d.next <= r.0.next
    ensures forall x :: x in d.nodes ==> r.0.nodes[x] == d.nodes[x]
  {
    if IsNodeChild(c) then (d, c.id) else CreateText(d, c.text)
  }

  /** The text bindings the children register, in order: each string child
      named in `keys`, with the text node it became. */
  function TextRegs(children: seq<Child>, placed: seq<NodeId>, keys: seq<string>, el: NodeId): Registrations
    requires |placed| == |children|
  {
    if children == [] then []
    else
      var c := children[0];
      (if c.StrChild? && c.text in keys then [(c.text, TextOcc(placed[0], el))] else [])
        + TextRegs(children[1..], placed[1..], keys, el)
  }

  /** Every child is valid for `d`. */
  predicate ChildrenOk(d: Document, el: NodeId, children: seq<Child>) {
    forall i :: 0 <= i < |children| ==> ChildOk(d, el, children[i])
  }

  /** No node is passed twice and none is already a child of the element. */
  predicate FreshNodes(d: Document, el: NodeId, children: seq<Child>) {
    && (forall i :: 0 <= i < |children| && IsNodeChild(children[i]) ==> children[i].id !in ChildrenOf(d, el))
    && (forall i, j :: 0 <= i < j < |children| && IsNodeChild(children[i]) && IsNodeChild(children[j]) ==>
          children[i].id != children[j].id)
  }

  /** The loop keeps the document valid and the element without a parent,
      only adds nodes, changes no node's content and gives one node per
      child. */
  lemma {:induction false} AppendChildrenDoc(d: Document, b: Bindings, el: NodeId, children: seq<Child>, keys: seq<string>)
    requires Valid(d) && IsElement(d, el) && Orphan(d, el) && ChildrenOk(d, el, children)
    ensures var r := AppendChildren(d, b, el, children, keys);
      && Valid(r.doc) && IsElement(r.doc, el) && Orphan(r.doc, el)
      && d.nodes.Keys <= r.doc.nodes.Keys && r.doc.listeners == d.listeners
      && (forall x :: x in d.nodes ==> Shape(r.doc.nodes[x]) == Shape(d.nodes[x]))
      && |r.placed| == |children|
    decreases |children|
  {
    if children != [] {
      var (d1, b1, v) := AppendOne(d, b, el, children[0], keys);
      RestOk(d, d1, el, children);
      AppendChildrenDoc(d1, b1, el, children[1..], keys);
    }
  }

  /** Each child puts one node in the element, in order: a node child the
      node itself, every other child a new text node holding its text. */
  lemma {:induction false} AppendChildrenPlaced(d: Document, b: Bindings, el: NodeId, children: seq<Child>, keys: seq<string>)
    requires Valid(d) && IsElement(d, el) && Orphan(d, el) && ChildrenOk(d, el, children)
    ensures var r := AppendChildren(d, b, el, children, keys);
      && |r.placed| == |children|
      && (forall i :: 0 <= i < |children| && IsNodeChild(children[i]) ==> r.placed[i] == children[i].id)
      && (forall i :: 0 <= i < |children| && !IsNodeChild(children[i]) ==>
            r.placed[i] !in d.nodes && HoldsText(r.doc, r.placed[i], children[i].text))
    decreases |children|
  {
    if children != [] {
      var (d1, b1, v) := AppendOne(d, b, el, children[0], keys);
      RestOk(d, d1, el, children);
      var rest := AppendChildren(d1, b1, el, children[1..], keys);
      AppendChildrenDoc(d1, b1, el, children[1..], keys);
      AppendChildrenPlaced(d1, b1, el, children[1..], keys);
      PlacedFacts(d, d1, rest.doc, children, v, rest.placed);
      assert AppendChildren(d, b, el, children, keys) == Appended(rest.doc, rest.bindings, [v] + rest.placed);
    }
  }

  /** The string children named in `keys` are bound, in order, to their
      text nodes, with the element as parent; nothing else is bound. */
  lemma {:induction false} AppendChildrenBinds(d: Document, b: Bindings, el: NodeId, children: seq<Child>, keys: seq<string>)
    requires Valid(d) && IsElement(d, el) && Orphan(d, el) && ChildrenOk(d, el, children)
    ensures var r := AppendChildren(d, b, el, children, keys);
      |r.placed| == |children| && r.bindings == BindAll(b, TextRegs(children, r.placed, keys, el))
    decreases |children|
  {
    AppendChildrenDoc(d, b, el, children, keys);
    if children != [] {
      var c := children[0];
      var (d1, b1, v) := AppendOne(d, b, el, c, keys);
      RestOk(d, d1, el, children);
      var rest := AppendChildren(d1, b1, el, children[1..], keys);
      AppendChildrenBinds(d1, b1, el, children[1..], keys);
      assert ([v] + rest.placed)[1..] == rest.placed;
      TextRegsCons(children, [v] + rest.placed, keys, el);
      OneRegs(b, c, v, keys, el);
      BindAllAppend(b, TextRegs([c], [v], keys, el), TextRegs(children[1..], rest.placed, keys, el));
    }
  }

  /** When no node is passed twice or is already in the element, the
      element's children are its old ones followed by the placed nodes. */
  lemma {:induction false} AppendChildrenOrder(d: Document, b: Bindings, el: NodeId, children: seq<Child>, keys: seq<string>)
    requires Valid(d) && IsElement(d, el) && Orphan(d, el) && ChildrenOk(d, el, children)
    requires FreshNodes(d, el, children)
    ensures var r := AppendChildren(d, b, el, children, keys);
      ChildrenOf(r.doc, el) == ChildrenOf(d, el) + r.placed
    decreases |children|
  {
    if children != [] {
      var (d1, b1, v) := AppendOne(d, b, el, children[0], keys);
      RestOk(d, d1, el, children);
      var rest := AppendChildren(d1, b1, el, children[1..], keys);
      FreshRest(d, d1, el, children, v);
      AppendChildrenOrder(d1, b1, el, children[1..], keys);
      Assoc(ChildrenOf(d, el), [v], rest.placed);
    }
  }

  lemma TextRegsCons(children: seq<Child>, placed: seq<NodeId>, keys: seq<string>, el: NodeId)
    requires children != [] && |placed| == |children|
    ensures TextRegs(children, placed, keys, el)
         == TextRegs([children[0]], [placed[0]], keys, el) + TextRegs(children[1..], placed[1..], keys, el)
  {
    assert [children[0]][1..] == [] && [placed[0]][1..] == [];
  }

  /** The per-child facts of the first step and of the rest, combined. */
  lemma PlacedFacts(d: Document, d1: Document, rd: Document, children: seq<Child>, v: NodeId, placed: seq<NodeId>)
    requires children != [] && |placed| == |children| - 1
    requires d.nodes.Keys <= d1.nodes.Keys && d1.nodes.Keys <= rd.nodes.Keys
    requires IsNodeChild(children[0]) ==> v == children[0].id
    requires !IsNodeChild(children[0]) ==> v !in d.nodes && HoldsText(d1, v, children[0].text)
    requires v in d1.nodes
    requires forall x :: x in d1.nodes ==> Shape(rd.nodes[x]) == Shape(d1.nodes[x])
    requires forall i :: 0 <= i < |placed| && IsNodeChild(children[1..][i]) ==> placed[i] == children[1..][i].id
    requires forall i :: 0 <= i < |placed| && !IsNodeChild(children[1..][i]) ==>
      placed[i] !in d1.nodes && HoldsText(rd, placed[i], children[1..][i].text)
    ensures forall i :: 0 <= i < |children| && IsNodeChild(children[i]) ==> ([v] + placed)[i] == children[i].id
    ensures forall i :: 0 <= i < |children| && !IsNodeChild(children[i]) ==>
      ([v] + placed)[i] !in d.nodes && HoldsText(rd, ([v] + placed)[i], children[i].text)
  {
    forall i | 0 <= i < |children| && !IsNodeChild(children[i])
      ensures ([v] + placed)[i] !in d.nodes && HoldsText(rd, ([v] + placed)[i], children[i].text)
    {
      if i == 0 {
        assert Shape(rd.nodes[v]) == Text(children[0].text);
      } else {
        assert ([v] + placed)[i] == placed[i - 1] && children[i] == children[1..][i - 1];
      }
    }
    forall i | 0 <= i < |children| && IsNodeChild(children[i]) ensures ([v] + placed)[i] == children[i].id {
      if i > 0 {
        assert ([v] + placed)[i] == placed[i - 1] && children[i] == children[1..][i - 1];
      }
    }
  }

  /** After the first append, the rest of the children are still fresh. */
  lemma FreshRest(d: Document, d1: Document, el: NodeId, children: seq<Child>, v: NodeId)
    requires Valid(d) && el in d.nodes && children != [] && ChildrenOk(d, el, children)
    requires FreshNodes(d, el, children)
    requires IsNodeChild(children[0]) ==> v == children[0].id
    requires !IsNodeChild(children[0]) ==> v !in d.nodes
    requires ChildrenOf(d1, el) == Without(ChildrenOf(d, el), v) + [v]
    ensures ChildrenOf(d1, el) == ChildrenOf(d, el) + [v]
    ensures FreshNodes(d1, el, children[1..])
  {
    var rest := children[1..];
    forall i | 0 <= i < |rest| && IsNodeChild(rest[i]) ensures rest[i].id !in ChildrenOf(d1, el) {
      assert rest[i] == children[i + 1];
      assert ChildOk(d, el, children[i + 1]);
    }
    forall i, j | 0 <= i < j < |rest| && IsNodeChild(rest[i]) && IsNodeChild(rest[j])
      ensures rest[i].id != rest[j].id
    {
      assert rest[i] == children[i + 1] && rest[j] == children[j + 1];
    }
  }

  lemma OneRegs(b: Bindings, c: Child, v: NodeId, keys: seq<string>, el: NodeId)
    ensures BindAll(b, TextRegs([c], [v], keys, el))
         == if c.StrChild? && c.text in keys then Bind(b, c.text, TextOcc(v, el)) else b
  {
    assert [c][1..] == [] && [v][1..] == [];
    var regs := if c.StrChild? && c.text in keys then [(c.text, TextOcc(v, el))] else [];
    assert TextRegs([c], [v], keys, el) == regs + [];
  }

  lemma Assoc<T>(a: seq<T>, b: seq<T>, c: seq<T>)
    ensures a + b + c == a + (b + c)
  {
  }

  /** An attribute whose name starts with "on" and whose value is callable
      is an event handler (`attribute.indexOf("on") == 0`). */
  predicate IsEvent(name: string) {
    IndexOf(name, "on") == 0
  }

  /** The event a handler is added for: the name with its first "on"
      removed. */
  function EventName(name: string): string {
    ReplaceFirst(name, "on", "")
  }

  /** An attribute name counts as an event exactly when it starts with
      "on", and the event is then the rest of the name. */
  lemma EventNameDrop(name: string)
    ensures IsEvent(name) <==> StartsWith(name, "on")
    ensures IsEvent(name) ==> EventName(name) == name[2..]
  {
    if StartsWith(name, "on") {
      assert OccursAt(name, "on", 0);
    }
    if IsEvent(name) {
      assert name[..0] == [];
    }
  }

  /** The attribute is written with `setAttribute`: a plain value, or a
      callable that is not an event handler. */
  predicate SetsAttr(a: AttrSpec) {
    a.value.Plain? || !IsEvent(a.name)
  }

  /** The text `setAttribute` receives: the plain value or the callable's
      result. */
  function AttrText(a: AttrSpec): string {
    match a.value
    case Plain(t) => t
    case Callable(res) => res
  }

  /** A callable attribute is never given keys. */
  predicate KeysOk(a: AttrSpec) {
    a.value.Plain? || a.keys == []
  }

  /** The registrations one attribute makes: an attribute occurrence per key,
      in order, carrying the attribute's value as template. */
  function AttrRegs(el: NodeId, a: AttrSpec): (r: Registrations)
    requires KeysOk(a)
    ensures |r| == |a.keys|
    ensures forall i :: 0 <= i < |r| ==> r[i] == (a.keys[i], AttrOcc(el, a.name, a.value.text))
  {
    if a.keys == [] then []
    else seq(|a.keys|, i requires 0 <= i < |a.keys| => (a.keys[i], AttrOcc(el, a.name, a.value.text)))
  }

  /** One pass of the loop over the attributes (lines 222-246). */
  function ApplyAttribute(d: Document, b: Bindings, el: NodeId, a: AttrSpec): (r: (Document, Bindings))
    requires KeysOk(a)
  {
    var b1 := BindAll(b, AttrRegs(el, a));
    if a.value.Callable? && IsEvent(a.name) then (AddListener(d, el, EventName(a.name)), b1)
    else (SetAttr(d, el, a.name, AttrText(a)), b1)
  }

  /** The loop over the attributes, in the object's order. */
  function ApplyAttributes(d: Document, b: Bindings, el: NodeId, attrs: seq<AttrSpec>): (Document, Bindings)
    requires forall i :: 0 <= i < |attrs| ==> KeysOk(attrs[i])
    decreases |attrs|
  {
    if attrs == [] then (d, b)
    else
      var (d1, b1) := ApplyAttribute(d, b, el, attrs[0]);
      ApplyAttributes(d1, b1, el, attrs[1..])
  }

  /** The registrations of all attributes, in order. */
  function AllAttrRegs(el: NodeId, attrs: seq<AttrSpec>): Registrations
    requires forall i :: 0 <= i < |attrs| ==> KeysOk(attrs[i])
    decreases |attrs|
  {
    if attrs == [] then [] else AttrRegs(el, attrs[0]) + AllAttrRegs(el, attrs[1..])
  }

  /** The listeners the event handlers add, in order. */
  function Events(el: NodeId, attrs: seq<AttrSpec>): seq<Listener>
    decreases |attrs|
  {
    if attrs == [] then []
    else
      var a := attrs[0];
      (if a.value.Callable? && IsEvent(a.name) then [Listener(el, EventName(a.name))] else [])
        + Events(el, attrs[1..])
  }

  /** No attribute name appears twice, as in an object literal. */
  predicate DistinctNames(attrs: seq<AttrSpec>) {
    forall i, j :: 0 <= i < j < |attrs| ==> attrs[i].name != attrs[j].name
  }

  predicate AllKeysOk(attrs: seq<AttrSpec>) {
    forall i :: 0 <= i < |attrs| ==> KeysOk(attrs[i])
  }

  lemma RestKeysOk(attrs: seq<AttrSpec>)
    requires attrs != [] && AllKeysOk(attrs)
    ensures AllKeysOk(attrs[1..])
  {
    forall i | 0 <= i < |attrs[1..]| ensures KeysOk(attrs[1..][i]) {
      assert attrs[1..][i] == attrs[i + 1];
    }
  }

  /** Setting the attributes touches only the element's attribute map:
      every other node, the element's tag and children, the node ids and
      validity stay as they were. */
  lemma {:induction false} AttributesDoc(d: Document, b: Bindings, el: NodeId, attrs: seq<AttrSpec>)
    requires AllKeysOk(attrs)
    ensures var r := ApplyAttributes(d, b, el, attrs).0;
      && r.nodes.Keys == d.nodes.Keys && r.next == d.next
      && (forall x :: x in d.nodes && x != el ==> r.nodes[x] == d.nodes[x])
      && (forall x :: x in d.nodes ==> Kids(r.nodes[x]) == Kids(d.nodes[x]))
      && (IsElement(d, el) ==> IsElement(r, el) && r.nodes[el].tag == d.nodes[el].tag)
      && (Valid(d) ==> Valid(r))
    decreases |attrs|
  {
    if attrs != [] {
      RestKeysOk(attrs);
      var (d1, b1) := ApplyAttribute(d, b, el, attrs[0]);
      AttributesDoc(d1, b1, el, attrs[1..]);
    }
  }

  /** The event handlers add their listeners in the attributes' order. */
  lemma {:induction false} AttributesEvents(d: Document, b: Bindings, el: NodeId, attrs: seq<AttrSpec>)
    requires AllKeysOk(attrs)
    ensures ApplyAttributes(d, b, el, attrs).0.listeners == d.listeners + Events(el, attrs)
    decreases |attrs|
  {
    if attrs == [] {
      assert d.listeners + [] == d.listeners;
    } else {
      RestKeysOk(attrs);
      var a := attrs[0];
      var (d1, b1) := ApplyAttribute(d, b, el, a);
      AttributesEvents(d1, b1, el, attrs[1..]);
      var e := if a.value.Callable? && IsEvent(a.name) then [Listener(el, EventName(a.name))] else [];
      assert d1.listeners == d.listeners + e;
      Assoc(d.listeners, e, Events(el, attrs[1..]));
    }
  }

  /** The keys of every attribute are bound, attribute after attribute. */
  lemma {:induction false} AttributesBinds(d: Document, b: Bindings, el: NodeId, attrs: seq<AttrSpec>)
    requires AllKeysOk(attrs)
    ensures ApplyAttributes(d, b, el, attrs).1 == BindAll(b, AllAttrRegs(el, attrs))
    decreases |attrs|
  {
    if attrs != [] {
      RestKeysOk(attrs);
      var a := attrs[0];
      var (d1, b1) := ApplyAttribute(d, b, el, a);
      AttributesBinds(d1, b1, el, attrs[1..]);
      BindAllAppend(b, AttrRegs(el, a), AllAttrRegs(el, attrs[1..]));
    }
  }

  /** An attribute name no setting attribute uses keeps its value. */
  lemma {:induction false} AttributesKeep(d: Document, b: Bindings, el: NodeId, attrs: seq<AttrSpec>, n: string)
    requires AllKeysOk(attrs)
    requires forall i :: 0 <= i < |attrs| && attrs[i].name == n ==> !SetsAttr(attrs[i])
    ensures GetAttr(ApplyAttributes(d, b, el, attrs).0, el, n) == GetAttr(d, el, n)
    decreases |attrs|
  {
    if attrs != [] {
      RestKeysOk(attrs);
      var (d1, b1) := ApplyAttribute(d, b, el, attrs[0]);
      forall i | 0 <= i < |attrs[1..]| && attrs[1..][i].name == n ensures !SetsAttr(attrs[1..][i]) {
        assert attrs[1..][i] == attrs[i + 1];
      }
      AttributesKeep(d1, b1, el, attrs[1..], n);
    }
  }

  /** With distinct names, every written attribute ends up holding its
      value or its callable's result. */
  lemma {:induction false} AttributesSet(d: Document, b: Bindings, el: NodeId, attrs: seq<AttrSpec>, i: nat)
    requires AllKeysOk(attrs) && DistinctNames(attrs) && IsElement(d, el)
    requires i < |attrs| && SetsAttr(attrs[i])
    ensures GetAttr(ApplyAttributes(d, b, el, attrs).0, el, attrs[i].name) == Some(AttrText(attrs[i]))
    decreases |attrs|
  {
    RestKeysOk(attrs);
    var (d1, b1) := ApplyAttribute(d, b, el, attrs[0]);
    var rest := attrs[1..];
    if i == 0 {
      assert GetAttr(d1, el, attrs[0].name) == Some(AttrText(attrs[0]));
      forall j | 0 <= j < |rest| ensures rest[j].name != attrs[0].name {
        assert rest[j] == attrs[j + 1];
      }
      AttributesKeep(d1, b1, el, rest, attrs[0].name);
    } else {
      assert rest[i - 1] == attrs[i];
      forall j, k | 0 <= j < k < |rest| ensures rest[j].name != rest[k].name {
        assert rest[j] == attrs[j + 1] && rest[k] == attrs[k + 1];
      }
      AttributesSet(d1, b1, el, rest, i - 1);
    }
  }

  /** Every node child names a stored node. */
  predicate NodesStored(d: Document, children: seq<Child>) {
    forall i :: 0 <= i < |children| && IsNodeChild(children[i]) ==> children[i].id in d.nodes
  }

  /** No node is passed twice. */
  predicate DistinctNodes(children: seq<Child>) {
    forall i, j :: 0 <= i < j < |children| && IsNodeChild(children[i]) && IsNodeChild(children[j]) ==>
      children[i].id != children[j].id
  }

  /** A new element has no parent, no children, and every stored node
      child differs from it. */
  lemma NewElement(d: Document, tag: string, children: seq<Child>)
    requires Valid(d) && NodesStored(d, children)
    ensures var (d1, el) := CreateElement(d, tag);
      && Valid(d1) && IsElement(d1, el) && Orphan(d1, el) && ChildrenOf(d1, el) == []
      && ChildrenOk(d1, el, children)
      && (DistinctNodes(children) ==> FreshNodes(d1, el, children))
      && el !in d.nodes && (forall x :: x in d.nodes ==> x in d1.nodes && d1.nodes[x] == d.nodes[x])
  {
    var (d1, el) := CreateElement(d, tag);
    forall p | p in d1.nodes ensures el !in Kids(d1.nodes[p]) {
      if p != el {
        assert Kids(d1.nodes[p]) == Kids(d.nodes[p]);
      }
    }
  }

  /** What `node` leaves: the document, the bindings and the new element. */
  datatype Built = Built(doc: Document, bindings: Bindings, element: NodeId)

  /** `node(type, children, attributes, keys)` (lines 192-250). */
  function Build(d: Document, b: Bindings, tag: string, children: seq<Child>, attrs: seq<AttrSpec>, keys: seq<string>): (r: Built)
    requires Valid(d) && NodesStored(d, children) && AllKeysOk(attrs)
  {
    var (d1, el) := CreateElement(d, tag);
    NewElement(d, tag, children);
    var app := AppendChildren(d1, b, el, children, keys);
    var (d2, b2) := ApplyAttributes(app.doc, app.bindings, el, attrs);
    Built(d2, b2, el)
  }

  /** `node` returns a new element without a parent and with the given
      tag, and the document stays valid. */
  lemma NodeElement(d: Document, b: Bindings, tag: string, children: seq<Child>, attrs: seq<AttrSpec>, keys: seq<string>)
    requires Valid(d) && NodesStored(d, children) && AllKeysOk(attrs)
    ensures var r := Build(d, b, tag, children, attrs, keys);
      && r.element !in d.nodes && IsElement(r.doc, r.element) && r.doc.nodes[r.element].tag == tag
      && Orphan(r.doc, r.element) && Valid(r.doc) && d.nodes.Keys <= r.doc.nodes.Keys
  {
    var (d1, el) := CreateElement(d, tag);
    NewElement(d, tag, children);
    var app := AppendChildren(d1, b, el, children, keys);
    AppendChildrenDoc(d1, b, el, children, keys);
    AttributesDoc(app.doc, app.bindings, el, attrs);
    var r := Build(d, b, tag, children, attrs, keys);
    assert r.doc == ApplyAttributes(app.doc, app.bindings, el, attrs).0;
    assert Orphan(r.doc, el) by {
      forall p | p in r.doc.nodes ensures el !in Kids(r.doc.nodes[p]) {
        assert Kids(r.doc.nodes[p]) == Kids(app.doc.nodes[p]);
      }
    }
  }

  /** No node that existed before `node` changes its kind, tag, attributes
      or text; node children only move. */
  lemma NodeKeepsContent(d: Document, b: Bindings, tag: string, children: seq<Child>, attrs: seq<AttrSpec>, keys: seq<string>)
    requires Valid(d) && NodesStored(d, children) && AllKeysOk(attrs)
    ensures var r := Build(d, b, tag, children, attrs, keys);
      forall x :: x in d.nodes ==> x in r.doc.nodes && Shape(r.doc.nodes[x]) == Shape(d.nodes[x])
  {
    var (d1, el) := CreateElement(d, tag);
    NewElement(d, tag, children);
    var app := AppendChildren(d1, b, el, children, keys);
    AppendChildrenDoc(d1, b, el, children, keys);
    AttributesDoc(app.doc, app.bindings, el, attrs);
    var r := Build(d, b, tag, children, attrs, keys);
    assert r.doc == ApplyAttributes(app.doc, app.bindings, el, attrs).0;
    ContentChain(d, d1, app.doc, r.doc, el);
  }

  lemma ContentChain(d: Document, d1: Document, a: Document, r: Document, el: NodeId)
    requires el !in d.nodes
    requires forall x :: x in d.nodes ==> x in d1.nodes && d1.nodes[x] == d.nodes[x]
    requires forall x :: x in d1.nodes ==> x in a.nodes && Shape(a.nodes[x]) == Shape(d1.nodes[x])
    requires forall x :: x in a.nodes && x != el ==> x in r.nodes && r.nodes[x] == a.nodes[x]
    ensures forall x :: x in d.nodes ==> x in r.nodes && Shape(r.nodes[x]) == Shape(d.nodes[x])
  {
  }

  /** The element's children are, in order, the node children themselves
      and a new text node for each other child. */
  lemma NodeChildren(d: Document, b: Bindings, tag: string, children: seq<Child>, attrs: seq<AttrSpec>, keys: seq<string>)
    requires Valid(d) && NodesStored(d, children) && AllKeysOk(attrs) && DistinctNodes(children)
    ensures var r := Build(d, b, tag, children, attrs, keys);
      var kids := ChildrenOf(r.doc, r.element);
      && |kids| == |children|
      && (forall i :: 0 <= i < |children| && IsNodeChild(children[i]) ==> kids[i] == children[i].id)
      && (forall i :: 0 <= i < |children| && !IsNodeChild(children[i]) ==>
            kids[i] !in d.nodes && HoldsText(r.doc, kids[i], children[i].text))
  {
    var (d1, el) := CreateElement(d, tag);
    NewElement(d, tag, children);
    var app := AppendChildren(d1, b, el, children, keys);
    AppendChildrenDoc(d1, b, el, children, keys);
    AppendChildrenPlaced(d1, b, el, children, keys);
    AppendChildrenOrder(d1, b, el, children, keys);
    AttributesDoc(app.doc, app.bindings, el, attrs);
    var r := Build(d, b, tag, children, attrs, keys);
    assert r.doc == ApplyAttributes(app.doc, app.bindings, el, attrs).0;
    assert ChildrenOf(r.doc, el) == app.placed;
    forall i | 0 <= i < |children| && !IsNodeChild(children[i])
      ensures app.placed[i] !in d.nodes && HoldsText(r.doc, app.placed[i], children[i].text)
    {
      assert app.placed[i] != el;
    }
  }

  /** With distinct attribute names, each written attribute holds its value
      or its callable's result, the element has no other attribute, and the
      event handlers are added in order with "on" dropped from the name. */
  lemma NodeAttributes(d: Document, b: Bindings, tag: string, children: seq<Child>, attrs: seq<AttrSpec>, keys: seq<string>)
    requires Valid(d) && NodesStored(d, children) && AllKeysOk(attrs) && DistinctNames(attrs)
    ensures var r := Build(d, b, tag, children, attrs, keys);
      && (forall i :: 0 <= i < |attrs| && SetsAttr(attrs[i]) ==>
            GetAttr(r.doc, r.element, attrs[i].name) == Some(AttrText(attrs[i])))
      && (forall n :: (forall i :: 0 <= i < |attrs| && attrs[i].name == n ==> !SetsAttr(attrs[i])) ==>
            GetAttr(r.doc, r.element, n) == None)
      && r.doc.listeners == d.listeners + Events(r.element, attrs)
  {
    var (d1, el) := CreateElement(d, tag);
    NewElement(d, tag, children);
    var app := AppendChildren(d1, b, el, children, keys);
    AppendChildrenDoc(d1, b, el, children, keys);
    assert Shape(app.doc.nodes[el]) == Shape(d1.nodes[el]);
    assert app.doc.nodes[el].attrs == map[];
    var r := Build(d, b, tag, children, attrs, keys);
    assert r.doc == ApplyAttributes(app.doc, app.bindings, el, attrs).0;
    forall i | 0 <= i < |attrs| && SetsAttr(attrs[i])
      ensures GetAttr(r.doc, el, attrs[i].name) == Some(AttrText(attrs[i]))
    {
      AttributesSet(app.doc, app.bindings, el, attrs, i);
    }
    forall n | forall i :: 0 <= i < |attrs| && attrs[i].name == n ==> !SetsAttr(attrs[i])
      ensures GetAttr(r.doc, el, n) == None
    {
      AttributesKeep(app.doc, app.bindings, el, attrs, n);
    }
    AttributesEvents(app.doc, app.bindings, el, attrs);
  }

  /** `node` binds, in this order, the string children named in `keys` to
      their text nodes under the element, then every attribute key to the
      element's attribute and its template. */
  lemma NodeBindings(d: Document, b: Bindings, tag: string, children: seq<Child>, attrs: seq<AttrSpec>, keys: seq<string>)
    requires Valid(d) && NodesStored(d, children) && AllKeysOk(attrs) && DistinctNodes(children)
    ensures var r := Build(d, b, tag, children, attrs, keys);
      && |ChildrenOf(r.doc, r.element)| == |children|
      && r.bindings == BindAll(b, TextRegs(children, ChildrenOf(r.doc, r.element), keys, r.element)
                                  + AllAttrRegs(r.element, attrs))
  {
    var (d1, el) := CreateElement(d, tag);
    NewElement(d, tag, children);
    var app := AppendChildren(d1, b, el, children, keys);
    AppendChildrenDoc(d1, b, el, children, keys);
    AppendChildrenBinds(d1, b, el, children, keys);
    AppendChildrenOrder(d1, b, el, children, keys);
    AttributesDoc(app.doc, app.bindings, el, attrs);
    AttributesBinds(app.doc, app.bindings, el, attrs);
    var r := Build(d, b, tag, children, attrs, keys);
    assert r == Built(ApplyAttributes(app.doc, app.bindings, el, attrs).0, ApplyAttributes(app.doc, app.bindings, el, attrs).1, el);
    assert ChildrenOf(r.doc, el) == app.placed;
    BindAllAppend(b, TextRegs(children, app.placed, keys, el), AllAttrRegs(el, attrs));
  }
}

=== FILE: dom.dfy ===
/** The part of the DOM the engine touches, as an immutable node store.
    Element identity is a `NodeId`; a node's parent is the element whose
    child list holds it. Inserting a node that already has a parent moves
    it (the "pre-insert" and "replace a child" algorithms of the DOM
    Standard, section 4.2.3), and the two exceptions those algorithms throw
    here are `HierarchyRequest` (the target cannot take the node, or the
    node is an inclusive ancestor of the target) and `NotFound` (the node
    to replace is not a child of the target). */
module Dom {
  import opened Wrappers

  type NodeId = nat

  datatype Node =
    | Text(content: string)
    | Elem(tag: string, attrs: map<string, string>, children: seq<NodeId>)

  /** A listener added with `addEventListener`; events are never dispatched. */
  datatype Listener = Listener(target: NodeId, event: string)

  /** The node store, the next fresh id and the listeners added so far. */
  datatype Document = Document(nodes: map<NodeId, Node>, next: NodeId, listeners: seq<Listener>)

  datatype DomError = NotFound | HierarchyRequest

  /** Fresh ids are above every stored id, and child lists name stored nodes. */
  predicate Valid(d: Document) {
    && (forall x :: x in d.nodes ==> x < d.next)
    && (forall p, c :: p in d.nodes && c in Kids(d.nodes[p]) ==> c in d.nodes)
  }

  /** The child list of a node; a text node has none. */
  function Kids(n: Node): seq<NodeId> {
    if n.Elem? then n.children else []
  }

  function ChildrenOf(d: Document, p: NodeId): seq<NodeId> {
    if p in d.nodes then Kids(d.nodes[p]) else []
  }

  predicate IsElement(d: Document, x: NodeId) {
    x in d.nodes && d.nodes[x].Elem?
  }

  predicate IsText(d: Document, x: NodeId) {
    x in d.nodes && d.nodes[x].Text?
  }

  /** A node with its child list dropped: what a move leaves alone. */
  function Shape(n: Node): Node {
    if n.Elem? then n.(children := []) else n
  }

  /** The same nodes with the same kinds, tags, attributes and text. */
  predicate SameContent(a: map<NodeId, Node>, b: map<NodeId, Node>) {
    a.Keys == b.Keys && forall x :: x in a ==> Shape(a[x]) == Shape(b[x])
  }

  /** `s` with every `x` removed. */
  function Without(s: seq<NodeId>, x: NodeId): (r: seq<NodeId>)
    ensures forall y :: y in r <==> y in s && y != x
    ensures x !in s ==> r == s
  {
    if s == [] then [] else (if s[0] == x then [] else [s[0]]) + Without(s[1..], x)
  }

  /** Every occurrence of `child` in `s` replaced by `v`. */
  function Swap(s: seq<NodeId>, child: NodeId, v: NodeId): (r: seq<NodeId>)
    ensures |r| == |s|
    ensures forall i :: 0 <= i < |s| ==> r[i] == if s[i] == child then v else s[i]
  {
    seq(|s|, i requires 0 <= i < |s| => if s[i] == child then v else s[i])
  }

  /** `x` taken out of every child list. */
  function Detach(nodes: map<NodeId, Node>, x: NodeId): (r: map<NodeId, Node>)
    ensures SameContent(nodes, r)
    ensures forall p :: p in r ==> Kids(r[p]) == Without(Kids(nodes[p]), x)
  {
    map p | p in nodes :: if nodes[p].Elem? then nodes[p].(children := Without(nodes[p].children, x)) else nodes[p]
  }

  /** `a` is `x` or an ancestor of `x`, following at most `fuel` parent links. */
  predicate IsInclusiveAncestor(nodes: map<NodeId, Node>, a: NodeId, x: NodeId, fuel: nat)
    decreases fuel
  {
    a == x || (fuel > 0 && exists p :: p in nodes && x in Kids(nodes[p]) && IsInclusiveAncestor(nodes, a, p, fuel - 1))
  }

  /** A childless node is an inclusive ancestor of nothing but itself. */
  lemma {:induction false} LeafNotAncestor(nodes: map<NodeId, Node>, a: NodeId, x: NodeId, fuel: nat)
    requires a != x && (a in nodes ==> Kids(nodes[a]) == [])
    ensures !IsInclusiveAncestor(nodes, a, x, fuel)
    decreases fuel
  {
    if fuel > 0 {
      forall p | p in nodes && x in Kids(nodes[p]) ensures !IsInclusiveAncestor(nodes, a, p, fuel - 1) {
        LeafNotAncestor(nodes, a, p, fuel - 1);
      }
    }
  }

  /** Every child list except `parent`'s lost `v`, and nothing else changed. */
  predicate MovedOut(d: Document, r: Document, parent: NodeId, v: NodeId) {
    && SameContent(d.nodes, r.nodes)
    && r.next == d.next && r.listeners == d.listeners
    && forall q :: q in d.nodes && q != parent ==> ChildrenOf(r, q) == Without(ChildrenOf(d, q), v)
  }

  /** `parent` cannot take `v` as a child. */
  predicate InsertFails(d: Document, parent: NodeId, v: NodeId) {
    !IsElement(d, parent) || IsInclusiveAncestor(d.nodes, v, parent, |d.nodes|)
  }

  /** `parent.replaceChild(v, child)` throws. */
  predicate ReplaceFails(d: Document, parent: NodeId, v: NodeId, child: NodeId) {
    InsertFails(d, parent, v) || child !in ChildrenOf(d, parent)
  }

  /** The store only grew: every node keeps its kind and fresh ids stay fresh. */
  predicate Extends(d: Document, r: Document) {
    && d.nodes.Keys <= r.nodes.Keys && d.next <= r.next
    && forall x :: x in d.nodes ==> r.nodes[x].Elem? == d.nodes[x].Elem?
  }

  /** `parent.replaceChild(v, child)`: `v` leaves its old place and takes the
      place of `child`, which is left without a parent. */
  function ReplaceChild(d: Document, parent: NodeId, v: NodeId, child: NodeId): (r: Result<Document, DomError>)
    ensures r.Err? <==> ReplaceFails(d, parent, v, child)
    ensures r == Err(HierarchyRequest) <==> InsertFails(d, parent, v)
    ensures r.Ok? && v == child ==> r.value == d
    ensures r.Ok? && v != child ==>
      && MovedOut(d, r.value, parent, v)
      && v in ChildrenOf(r.value, parent) && child !in ChildrenOf(r.value, parent)
      && forall y :: y != v && y != child ==> (y in ChildrenOf(r.value, parent) <==> y in ChildrenOf(d, parent))
    ensures r.Ok? && Valid(d) && v in d.nodes ==> Valid(r.value)
  {
    if !IsElement(d, parent) || IsInclusiveAncestor(d.nodes, v, parent, |d.nodes|) then Err(HierarchyRequest)
    else if child !in d.nodes[parent].children then Err(NotFound)
    else if v == child then Ok(d)
    else
      var detached := Detach(d.nodes, v);
      var n := detached[parent];
      var kids := Swap(n.children, child, v);
      assert child in n.children;
      var r := d.(nodes := detached[parent := n.(children := kids)]);
      assert v in kids;
      ReplaceChildKeepsValid(d, r, parent, v);
      Ok(r)
  }

  lemma ReplaceChildKeepsValid(d: Document, r: Document, parent: NodeId, v: NodeId)
    requires MovedOut(d, r, parent, v) && parent in d.nodes
    requires forall y :: y in ChildrenOf(r, parent) ==> y == v || y in ChildrenOf(d, parent)
    ensures Valid(d) && v in d.nodes ==> Valid(r)
  {
    if Valid(d) && v in d.nodes {
      forall p, c | p in r.nodes && c in Kids(r.nodes[p]) ensures c in r.nodes {
        assert c in ChildrenOf(r, p);
      }
    }
  }

  lemma ExtendsTrans(a: Document, b: Document, c: Document)
    requires Extends(a, b) && Extends(b, c)
    ensures Extends(a, c)
  {
  }

  /** A successful `replaceChild` keeps the store and every node's kind. */
  lemma ReplaceChildPreserves(d: Document, parent: NodeId, v: NodeId, child: NodeId)
    requires ReplaceChild(d, parent, v, child).Ok?
    ensures var r := ReplaceChild(d, parent, v, child).value;
      && Extends(d, r)
      && (forall x :: IsElement(d, x) ==> IsElement(r, x))
      && (forall x :: IsText(d, x) ==> IsText(r, x))
  {
    var r := ReplaceChild(d, parent, v, child).value;
    forall x | x in d.nodes ensures r.nodes[x].Elem? == d.nodes[x].Elem? {
      if v != child { assert Shape(d.nodes[x]) == Shape(r.nodes[x]); }
    }
  }

  /** `parent.replaceChild(v, child)` where `child` sits between `pre` and
      `post` and `v` is not among the children: `v` takes exactly the
      place of `child`. */
  lemma ReplaceChildInPlace(d: Document, parent: NodeId, v: NodeId, child: NodeId,
                            pre: seq<NodeId>, post: seq<NodeId>)
    requires IsElement(d, parent) && !IsInclusiveAncestor(d.nodes, v, parent, |d.nodes|)
    requires ChildrenOf(d, parent) == pre + [child] + post
    requires child !in pre && child !in post && v !in pre && v !in post && v != child
    ensures ReplaceChild(d, parent, v, child).Ok?
    ensures ChildrenOf(ReplaceChild(d, parent, v, child).value, parent) == pre + [v] + post
  {
    var cs := pre + [child] + post;
    assert child in cs;
    assert v !in cs;
    var kids := Swap(cs, child, v);
    assert kids == pre + [v] + post by {
      forall i | 0 <= i < |kids| ensures kids[i] == (pre + [v] + post)[i] {
        if i < |pre| {
          assert cs[i] == pre[i];
          assert pre[i] in pre;
        } else if i > |pre| {
          assert cs[i] == post[i - |pre| - 1];
          assert post[i - |pre| - 1] in post;
        }
      }
    }
  }

  /** `anchor.insertAdjacentElement("afterbegin" | "beforeend", v)`, and
      `anchor.append(v)` / `anchor.appendChild(v)` with `atStart` false:
      `v` leaves its old place and becomes the first or last child. */
  function InsertChild(d: Document, anchor: NodeId, v: NodeId, atStart: bool): (r: Result<Document, DomError>)
    ensures r.Err? <==> InsertFails(d, anchor, v)
    ensures r.Err? ==> r.error == HierarchyRequest
    ensures r.Ok? ==>
      && MovedOut(d, r.value, anchor, v)
      && ChildrenOf(r.value, anchor)
         == if atStart then [v] + Without(ChildrenOf(d, anchor), v) else Without(ChildrenOf(d, anchor), v) + [v]
    ensures r.Ok? && Valid(d) && v in d.nodes ==> Valid(r.value)
  {
    if !IsElement(d, anchor) || IsInclusiveAncestor(d.nodes, v, anchor, |d.nodes|) then Err(HierarchyRequest)
    else
      var detached := Detach(d.nodes, v);
      var n := detached[anchor];
      var kids := if atStart then [v] + n.children else n.children + [v];
      var r := d.(nodes := detached[anchor := n.(children := kids)]);
      ReplaceChildKeepsValid(d, r, anchor, v);
      Ok(r)
  }

  /** `x.remove()`: `x` leaves its parent; without a parent nothing changes. */
  function Remove(d: Document, x: NodeId): (r: Document)
    ensures SameContent(d.nodes, r.nodes) && r.next == d.next && r.listeners == d.listeners
    ensures forall q :: q in d.nodes ==> ChildrenOf(r, q) == Without(ChildrenOf(d, q), x)
    ensures forall q :: q in r.nodes ==> x !in ChildrenOf(r, q)
    ensures Valid(d) ==> Valid(r)
  {
    var r := d.(nodes := Detach(d.nodes, x));
    assert Valid(d) ==> Valid(r) by {
      if Valid(d) {
        forall p, c | p in r.nodes && c in Kids(r.nodes[p]) ensures c in r.nodes {
          assert c in ChildrenOf(r, p);
        }
      }
    }
    r
  }

  /** `xs.forEach(x => x.remove())`: every listed node leaves its parent,
      and no other node moves. */
  function RemoveAll(d: Document, xs: seq<NodeId>): (r: Document)
    decreases |xs|
    ensures SameContent(d.nodes, r.nodes) && r.next == d.next && r.listeners == d.listeners
    ensures forall q, x :: q in r.nodes && x in xs ==> x !in ChildrenOf(r, q)
    ensures forall q, y :: q in d.nodes && y !in xs ==> (y in ChildrenOf(r, q) <==> y in ChildrenOf(d, q))
    ensures Valid(d) ==> Valid(r)
  {
    if xs == [] then d
    else
      var d1 := Remove(d, xs[0]);
      var r := RemoveAll(d1, xs[1..]);
      assert SameContent(d.nodes, r.nodes) by {
        forall x | x in d.nodes ensures Shape(d.nodes[x]) == Shape(r.nodes[x]) {
          assert Shape(d.nodes[x]) == Shape(d1.nodes[x]);
        }
      }
      forall q, x | q in r.nodes && x in xs ensures x !in ChildrenOf(r, q) {
        if x !in xs[1..] {
          assert x == xs[0];
        }
      }
      forall q, y | q in d.nodes && y !in xs ensures y in ChildrenOf(r, q) <==> y in ChildrenOf(d, q) {
        assert y !in xs[1..];
      }
      r
  }

  /** After `RemoveAll`, a stored node's children are its former children
      that were not removed. */
  lemma RemoveAllAt(d: Document, xs: seq<NodeId>, q: NodeId, y: NodeId)
    requires q in d.nodes
    ensures y in ChildrenOf(RemoveAll(d, xs), q) <==> y !in xs && y in ChildrenOf(d, q)
  {
  }

  /** `document.createTextNode(text)`: a new text node without a parent. */
  function CreateText(d: Document, text: string): (r: (Document, NodeId))
    ensures r.1 == d.next && r.0.next == d.next + 1 && r.0.listeners == d.listeners
    ensures r.0.nodes == d.nodes[r.1 := Text(text)]
    ensures Valid(d) ==> r.1 !in d.nodes && Valid(r.0)
  {
    (d.(nodes := d.nodes[d.next := Text(text)], next := d.next + 1), d.next)
  }

  /** Creating a node in a valid store only adds to it. */
  lemma CreateTextExtends(d: Document, text: string)
    requires Valid(d)
    ensures Extends(d, CreateText(d, text).0)
  {
  }

  /** `document.createElement(tag)`: a new, empty element without a parent. */
  function CreateElement(d: Document, tag: string): (r: (Document, NodeId))
    ensures r.1 == d.next && r.0.next == d.next + 1 && r.0.listeners == d.listeners
    ensures r.0.nodes == d.nodes[r.1 := Elem(tag, map[], [])]
    ensures Valid(d) ==> r.1 !in d.nodes && Valid(r.0)
  {
    (d.(nodes := d.nodes[d.next := Elem(tag, map[], [])], next := d.next + 1), d.next)
  }

  /** Assigning `nodeValue`: a text node takes the new text; on an element
      the assignment has no effect. */
  function SetText(d: Document, x: NodeId, text: string): (r: Document)
    ensures IsText(d, x) ==> r.nodes == d.nodes[x := Text(text)]
    ensures !IsText(d, x) ==> r == d
    ensures r.next == d.next && r.listeners == d.listeners
    ensures Valid(d) ==> Valid(r)
  {
    if IsText(d, x) then d.(nodes := d.nodes[x := Text(text)]) else d
  }

  /** `setAttribute(name, value)` on an element; other nodes are left alone. */
  function SetAttr(d: Document, x: NodeId, name: string, value: string): (r: Document)
    ensures IsElement(d, x) ==> r.nodes == d.nodes[x := d.nodes[x].(attrs := d.nodes[x].attrs[name := value])]
    ensures !IsElement(d, x) ==> r == d
    ensures r.next == d.next && r.listeners == d.listeners
    ensures Valid(d) ==> Valid(r)
  {
    if IsElement(d, x) then
      var n := d.nodes[x];
      var r := d.(nodes := d.nodes[x := n.(attrs := n.attrs[name := value])]);
      assert Valid(d) ==> Valid(r) by {
        if Valid(d) {
          forall p, c | p in r.nodes && c in Kids(r.nodes[p]) ensures c in r.nodes {
            if p != x { assert c in Kids(d.nodes[p]); }
          }
        }
      }
      r
    else d
  }

  /** The attribute `name` of `x`, when `x` is an element that has it. */
  function GetAttr(d: Document, x: NodeId, name: string): Option<string> {
    if IsElement(d, x) && name in d.nodes[x].attrs then Some(d.nodes[x].attrs[name]) else None
  }

  /** `addEventListener(event, ...)`, recorded. */
  function AddListener(d: Document, x: NodeId, event: string): (r: Document)
    ensures r.nodes == d.nodes && r.next == d.next
    ensures r.listeners == d.listeners + [Listener(x, event)]
  {
    d.(listeners := d.listeners + [Listener(x, event)])
  }
}

=== FILE: jsstring.dfy ===
/** The two JavaScript string primitives the engine relies on:
    `String.prototype.indexOf` and `String.prototype.replace` with a string
    pattern (which replaces the first occurrence only). */
module JsString {

  /** `t` occurs in `s` starting at index `i`. */
  predicate OccursAt(s: string, t: string, i: int) {
    0 <= i && i + |t| <= |s| && s[i..i + |t|] == t
  }

  /** `t` occurs somewhere in `s`. */
  predicate Contains(s: string, t: string) {
    exists i :: 0 <= i <= |s| && OccursAt(s, t, i)
  }

  /** The first index at or after `from` where `t` occurs in `s`, or -1. */
  function IndexFrom(s: string, t: string, from: nat): (r: int)
    decreases |s| - from
    ensures r == -1 || (from <= r && OccursAt(s, t, r))
    ensures r == -1 ==> forall j :: from <= j ==> !OccursAt(s, t, j)
    ensures r != -1 ==> forall j :: from <= j < r ==> !OccursAt(s, t, j)
  {
    if from + |t| > |s| then -1
    else if s[from..from + |t|] == t then from
    else IndexFrom(s, t, from + 1)
  }

  /** `s.indexOf(t)`: the first index where `t` occurs, -1 when it does not. */
  function IndexOf(s: string, t: string): (r: int)
    ensures r == -1 <==> !Contains(s, t)
    ensures r != -1 ==> OccursAt(s, t, r) && forall j :: 0 <= j < r ==> !OccursAt(s, t, j)
  {
    IndexFrom(s, t, 0)
  }

  /** `s.replace(pat, rep)` for a string pattern: the first occurrence of
      `pat` is replaced by `rep`; without an occurrence `s` is returned.
      Replacement patterns such as `$&` are not interpreted. */
  function ReplaceFirst(s: string, pat: string, rep: string): string
  {
    var i := IndexOf(s, pat);
    if i < 0 then s else s[..i] + rep + s[i + |pat|..]
  }

  /** Replacing a pattern that does not occur leaves the string alone. */
  lemma ReplaceAbsent(s: string, pat: string, rep: string)
    requires !Contains(s, pat)
    ensures ReplaceFirst(s, pat, rep) == s
  {
  }

  /** Replacing a pattern whose first occurrence sits right after `a`
      substitutes exactly that occurrence. */
  lemma ReplaceFirstAt(a: string, pat: string, b: string, rep: string)
    requires forall j :: 0 <= j < |a| ==> !OccursAt(a + pat + b, pat, j)
    ensures ReplaceFirst(a + pat + b, pat, rep) == a + rep + b
  {
    var s := a + pat + b;
    assert s[|a|..|a| + |pat|] == pat;
    assert OccursAt(s, pat, |a|);
    var i := IndexOf(s, pat);
    assert i == |a|;
    assert s[..i] == a;
    assert s[i + |pat|..] == b;
  }

  /** An occurrence past the end of a prefix is an occurrence in the rest. */
  lemma OccursAtShift(a: string, rest: string, t: string, j: int)
    requires j >= |a|
    ensures OccursAt(a + rest, t, j) <==> OccursAt(rest, t, j - |a|)
  {
    if 0 <= j && j + |t| <= |a + rest| {
      assert (a + rest)[j..j + |t|] == rest[j - |a|..j - |a| + |t|];
    }
  }

  /** `s` begins with `p`. */
  predicate StartsWith(s: string, p: string) {
    |p| <= |s| && s[..|p|] == p
  }
}

=== FILE: lifecycle.dfy ===
/** The component lifecycle (public/library/h12.js:8-57, 147-172, 260-273):
    `init` runs render, the `#unique` capture, the `{child}` set, `main`
    and the optional mount with `finally`, in that order, and gives up at
    the first throw; `component` creates a child component, registers it
    with its parent and initialises it. The `render`, `main` and `finally`
    hooks are supplied by the component's class and are parameters here. */
module Lifecycle {
  import opened Wrappers
  import opened Dom
  import opened Binding
  import opened Update
  import opened Unique

  /** A document every step can work on. */
  type ValidDoc = d: Document | Valid(d) witness Document(map[], 0, [])

  /** What the components share: the document and the identifier supply of
      `H12.raid()`. */
  datatype Env = Env(doc: ValidDoc, supply: nat)

  /** `args.id` ("" when absent or empty) and `args.child`. */
  datatype Args = Args(id: string, child: Value)

  /** A component's own state. Child components are held by value under
      their registration key; the parent is named by its id. */
  datatype Component = Component(
    id: string,
    root: Option<NodeId>,
    args: Args,
    parent: Option<string>,
    child: map<string, Component>,
    element: map<string, NodeId>,
    bindings: Bindings)

  /** What a hook leaves behind: the state when it returned or threw. */
  datatype Outcome = Outcome(env: Env, self: Component, threw: bool)

  /** What `render` leaves: the state, and the element it returned
      (`None` for `null`) unless it threw. */
  datatype Rendered = Rendered(env: Env, self: Component, root: Option<NodeId>, threw: bool)

  /** A component class: its `render`, `main(args)` and `finally` hooks. */
  datatype Class = Class(
    render: (Env, Component) -> Rendered,
    main: (Env, Component, Args) -> Outcome,
    fin: (Env, Component) -> Outcome)

  /** The `element` argument of `init`: no selector, a selector that
      matches nothing, or the node it matches. */
  datatype Target = NoTarget | Missing | At(node: NodeId)

  /** The steps of `init`, in the order the source runs them. */
  datatype Phase = RenderPhase | CapturePhase | SetChildPhase | MainPhase | MountPhase | FinallyPhase

  /** What `init` returns: `undefined` after a throw, else `this.root`. */
  datatype InitResult = Threw | Returned(root: Option<NodeId>)

  /** The state `init` leaves, the steps it started, in order, and its
      result. A step that throws is the last one started. */
  datatype InitOut = InitOut(env: Env, self: Component, trace: seq<Phase>, result: InitResult)

  /** The attribute `#unique` captures by. */
  const UniqueAttr: string := "id"

  /** The `{child}` placeholder `init` fills with `args.child`. */
  const ChildKey: string := "{child}"

  /** `this.#unique("id", this.element)` on the rendered root. */
  function Capture(env: Env, self: Component, root: NodeId): (r: (Env, Component))
    ensures r.1 == self.(element := r.1.element)
  {
    var p := UniquePass(Pass(env.doc, self.element, env.supply), root, UniqueAttr);
    UniquePassFrame(Pass(env.doc, self.element, env.supply), root, UniqueAttr);
    (Env(p.doc, p.supply), self.(element := p.store))
  }

  /** `render` returned without a throw and gave an element root, so the
      capture can run. */
  predicate RootRendered(rd: Rendered) {
    !rd.threw && rd.root.Some? && IsElement(rd.env.doc, rd.root.value)
  }

  /** `init(target, args)`: render, then the remaining steps. */
  function Init(env: Env, self: Component, cls: Class, target: Target, args: Args): (r: InitOut)
  {
    var rd := cls.render(env, self);
    if rd.threw then InitOut(rd.env, rd.self, [RenderPhase], Threw)
    else
      var s := rd.self.(root := rd.root);
      var rest := FromCapture(rd.env, s, cls, target, args);
      rest.(trace := [RenderPhase] + rest.trace)
  }

  /** From the capture on: a missing or non-element root makes
      `querySelectorAll` throw. */
  function FromCapture(env: Env, self: Component, cls: Class, target: Target, args: Args): InitOut
  {
    if self.root.None? || !IsElement(env.doc, self.root.value) then
      InitOut(env, self, [CapturePhase], Threw)
    else
      var (e1, s1) := Capture(env, self, self.root.value);
      var rest := FromSetChild(e1, s1, cls, target, args);
      rest.(trace := [CapturePhase] + rest.trace)
  }

  /** The state render and the capture leave when render gave an element
      root. */
  function Captured(env: Env, self: Component, cls: Class): (Env, Component)
    requires RootRendered(cls.render(env, self))
  {
    var rd := cls.render(env, self);
    Capture(rd.env, rd.self.(root := rd.root), rd.root.value)
  }

  /** `this.args.child` is an element. */
  predicate ChildIsElement(env: Env, self: Component) {
    self.args.child.ElemVal? && IsElement(env.doc, self.args.child.id)
  }

  /** `this.set("{child}", this.args.child)`. */
  function ChildSet(env: Env, self: Component): SetOutcome
    requires ChildIsElement(env, self)
  {
    Set(env.doc, self.bindings, ChildKey, self.args.child)
  }

  /** The state the `{child}` set leaves, whether or not it threw. */
  function AfterChildSet(env: Env, self: Component): (Env, Component)
    requires ChildIsElement(env, self)
  {
    var o := ChildSet(env, self);
    SetPreserves(env.doc, self.bindings, ChildKey, self.args.child);
    (Env(o.doc, env.supply), self.(bindings := o.bindings))
  }

  /** The `{child}` set, only when `this.args.child` is an element; a DOM
      exception inside `set` propagates. */
  function FromSetChild(env: Env, self: Component, cls: Class, target: Target, args: Args): InitOut
  {
    if !ChildIsElement(env, self) then FromMain(env, self, cls, target, args)
    else
      var (e1, s1) := AfterChildSet(env, self);
      if ChildSet(env, self).error.Some? then InitOut(e1, s1, [SetChildPhase], Threw)
      else
        var rest := FromMain(e1, s1, cls, target, args);
        rest.(trace := [SetChildPhase] + rest.trace)
  }

  /** `init` gets as far as `main`: render gives an element root, and the
      `{child}` set, when it runs, does not throw. */
  predicate ReachesMain(env: Env, self: Component, cls: Class) {
    && RootRendered(cls.render(env, self))
    && var (e1, s1) := Captured(env, self, cls);
      ChildIsElement(e1, s1) ==> ChildSet(e1, s1).error.None?
  }

  /** The state `main` is called in. */
  function BeforeMain(env: Env, self: Component, cls: Class): (Env, Component)
    requires RootRendered(cls.render(env, self))
  {
    var (e1, s1) := Captured(env, self, cls);
    if ChildIsElement(e1, s1) then AfterChildSet(e1, s1) else (e1, s1)
  }

  /** `this.main(args)`. */
  function FromMain(env: Env, self: Component, cls: Class, target: Target, args: Args): InitOut
  {
    var m := cls.main(env, self, args);
    if m.threw then InitOut(m.env, m.self, [MainPhase], Threw)
    else
      var rest := FromMount(m.env, m.self, cls, target);
      rest.(trace := [MainPhase] + rest.trace)
  }

  /** `querySelector(target).appendChild(this.root)` on the matched node:
      the document afterwards, or `None` when a missing root or a refused
      insertion throws. */
  function Mount(doc: ValidDoc, root: Option<NodeId>, node: NodeId): (r: Option<Document>)
    ensures r.None? <==> root.None? || root.value !in doc.nodes || InsertFails(doc, node, root.value)
    ensures r.Some? ==>
      && Valid(r.value)
      && ChildrenOf(r.value, node) == Without(ChildrenOf(doc, node), root.value) + [root.value]
  {
    if root.None? || root.value !in doc.nodes then None
    else
      match InsertChild(doc, node, root.value, false)
      case Err(_) => None
      case Ok(d1) => Some(d1)
  }

  /** With a target: the mount, then `this.finally()`; a selector matching
      nothing throws. Then `this.root` is returned. */
  function FromMount(env: Env, self: Component, cls: Class, target: Target): InitOut
  {
    match target
    case NoTarget => InitOut(env, self, [], Returned(self.root))
    case Missing => InitOut(env, self, [MountPhase], Threw)
    case At(node) =>
      match Mount(env.doc, self.root, node)
      case None => InitOut(env, self, [MountPhase], Threw)
      case Some(d1) =>
        var f := cls.fin(Env(d1, env.supply), self);
        if f.threw then InitOut(f.env, f.self, [MountPhase, FinallyPhase], Threw)
        else InitOut(f.env, f.self, [MountPhase, FinallyPhase], Returned(f.self.root))
  }

  /** The steps from the mount on: the mount and `finally` only with a
      target. */
  function MountPlan(mount: bool): seq<Phase> {
    if mount then [MountPhase, FinallyPhase] else []
  }

  /** The steps from `main` on. */
  function MainPlan(mount: bool): seq<Phase> {
    [MainPhase] + MountPlan(mount)
  }

  /** The steps from the child set on: the child set only when `args.child`
      is an element. */
  function SetChildPlan(child: bool, mount: bool): seq<Phase> {
    if child then [SetChildPhase] + MainPlan(mount) else MainPlan(mount)
  }

  /** The steps `init` starts when none throws. */
  function Planned(child: bool, mount: bool): seq<Phase> {
    [RenderPhase] + ([CapturePhase] + SetChildPlan(child, mount))
  }

  /** A step started before a prefix of a plan gives a prefix of the plan
      that starts with it. */
  lemma ConsPrefix(x: Phase, rest: seq<Phase>, plan: seq<Phase>)
    requires rest <= plan
    ensures [x] + rest <= [x] + plan
  {
    assert ([x] + rest)[1..] == rest;
  }

  /** The steps from the mount on. */
  lemma FromMountTrace(env: Env, self: Component, cls: Class, target: Target)
    ensures var r := FromMount(env, self, cls, target);
      && r.trace <= MountPlan(target != NoTarget)
      && (r.result.Returned? ==> r.trace == MountPlan(target != NoTarget) && r.result.root == r.self.root)
  {
  }

  lemma {:induction false} FromMainTrace(env: Env, self: Component, cls: Class, target: Target, args: Args)
    ensures var r := FromMain(env, self, cls, target, args);
      && r.trace <= MainPlan(target != NoTarget)
      && (r.result.Returned? ==> r.trace == MainPlan(target != NoTarget) && r.result.root == r.self.root)
  {
    var m := cls.main(env, self, args);
    if !m.threw {
      var rest := FromMount(m.env, m.self, cls, target);
      FromMountTrace(m.env, m.self, cls, target);
      ConsPrefix(MainPhase, rest.trace, MountPlan(target != NoTarget));
    }
  }

  lemma {:induction false} FromSetChildTrace(env: Env, self: Component, cls: Class, target: Target, args: Args)
    ensures var r := FromSetChild(env, self, cls, target, args);
      var plan := SetChildPlan(ChildIsElement(env, self), target != NoTarget);
      && r.trace <= plan
      && (r.result.Returned? ==> r.trace == plan && r.result.root == r.self.root)
  {
    if !ChildIsElement(env, self) {
      FromMainTrace(env, self, cls, target, args);
    } else {
      if ChildSet(env, self).error.None? {
        var (e1, s1) := AfterChildSet(env, self);
        var rest := FromMain(e1, s1, cls, target, args);
        FromMainTrace(e1, s1, cls, target, args);
        ConsPrefix(SetChildPhase, rest.trace, MainPlan(target != NoTarget));
      }
    }
  }

  /** The capture keeps every element an element and changes no argument,
      so whether `args.child` is an element is decided before it. */
  lemma CaptureKeepsChild(env: Env, self: Component, root: NodeId)
    ensures var (e1, s1) := Capture(env, self, root);
      ChildIsElement(e1, s1) <==> ChildIsElement(env, self)
  {
    UniquePassFrame(Pass(env.doc, self.element, env.supply), root, UniqueAttr);
  }

  /** `args.child` is an element once render returned an element root. */
  predicate ChildSetPlanned(rd: Rendered) {
    RootRendered(rd) && ChildIsElement(rd.env, rd.self)
  }

  /** `init` starts its steps in the fixed order render, capture, child
      set, main, mount, finally, skipping the child set when `args.child`
      is not an element and the mount and `finally` without a target; the
      steps started are a prefix of that order, and it returns `this.root`
      only after all of them. Which step ends it, and in which state, is
      stated step by step by the lemmas from `InitRenderThrows` on. */
  lemma InitTrace(env: Env, self: Component, cls: Class, target: Target, args: Args)
    ensures var r := Init(env, self, cls, target, args);
      var plan := Planned(ChildSetPlanned(cls.render(env, self)), target != NoTarget);
      && r.trace <= plan
      && (r.result.Returned? ==> r.trace == plan && r.result.root == r.self.root)
  {
    var rd := cls.render(env, self);
    var plan := SetChildPlan(ChildSetPlanned(rd), target != NoTarget);
    if rd.threw {
      ConsPrefix(RenderPhase, [], [CapturePhase] + plan);
    } else {
      var s := rd.self.(root := rd.root);
      var rest := FromCapture(rd.env, s, cls, target, args);
      if rd.root.Some? && IsElement(rd.env.doc, rd.root.value) {
        var (e1, s1) := Capture(rd.env, s, rd.root.value);
        CaptureKeepsChild(rd.env, s, rd.root.value);
        var tail := FromSetChild(e1, s1, cls, target, args);
        FromSetChildTrace(e1, s1, cls, target, args);
        ConsPrefix(CapturePhase, tail.trace, plan);
        assert rest.trace == [CapturePhase] + tail.trace;
      } else {
        ConsPrefix(CapturePhase, [], plan);
        assert rest.trace == [CapturePhase] + [];
      }
      ConsPrefix(RenderPhase, rest.trace, [CapturePhase] + plan);
    }
  }

  /** A throw in `render` ends `init` at once with `undefined`, keeping
      what render did. */
  lemma InitRenderThrows(env: Env, self: Component, cls: Class, target: Target, args: Args)
    requires cls.render(env, self).threw
    ensures var rd := cls.render(env, self);
      Init(env, self, cls, target, args) == InitOut(rd.env, rd.self, [RenderPhase], Threw)
  {
  }

  /** A render that returns `null` or a text node makes the capture throw:
      `this.root` is set, nothing else runs, and `init` returns
      `undefined`. */
  lemma InitBadRoot(env: Env, self: Component, cls: Class, target: Target, args: Args)
    requires !cls.render(env, self).threw
    requires var rd := cls.render(env, self); rd.root.None? || !IsElement(rd.env.doc, rd.root.value)
    ensures var rd := cls.render(env, self);
      Init(env, self, cls, target, args)
        == InitOut(rd.env, rd.self.(root := rd.root), [RenderPhase, CapturePhase], Threw)
  {
  }

  /** The steps started before `main`: render, the capture, and the
      `{child}` set when `args.child` is an element. */
  function ToMain(child: bool): seq<Phase> {
    [RenderPhase, CapturePhase] + (if child then [SetChildPhase] else [])
  }

  /** When render gives an element root, `init` goes on with the capture
      and the `{child}` set, and the child set throws only when it runs. */
  lemma InitAfterRender(env: Env, self: Component, cls: Class, target: Target, args: Args)
    requires RootRendered(cls.render(env, self))
    ensures var rd := cls.render(env, self);
      var (e1, s1) := Captured(env, self, cls);
      var rest := FromSetChild(e1, s1, cls, target, args);
      && (ChildIsElement(e1, s1) <==> ChildSetPlanned(rd))
      && Init(env, self, cls, target, args) == rest.(trace := [RenderPhase, CapturePhase] + rest.trace)
  {
    var rd := cls.render(env, self);
    CaptureKeepsChild(rd.env, rd.self.(root := rd.root), rd.root.value);
    var (e1, s1) := Captured(env, self, cls);
    var rest := FromSetChild(e1, s1, cls, target, args);
    assert [RenderPhase] + ([CapturePhase] + rest.trace) == [RenderPhase, CapturePhase] + rest.trace;
  }

  /** When `init` gets as far as `main`, it goes on from the state
      `BeforeMain` describes, after the steps `ToMain` lists. */
  lemma InitReachesMain(env: Env, self: Component, cls: Class, target: Target, args: Args)
    requires ReachesMain(env, self, cls)
    ensures var (e, s) := BeforeMain(env, self, cls);
      var rest := FromMain(e, s, cls, target, args);
      Init(env, self, cls, target, args)
        == rest.(trace := ToMain(ChildSetPlanned(cls.render(env, self))) + rest.trace)
  {
    InitAfterRender(env, self, cls, target, args);
    var (e1, s1) := Captured(env, self, cls);
    var (e, s) := BeforeMain(env, self, cls);
    var rest := FromMain(e, s, cls, target, args);
    if ChildIsElement(e1, s1) {
      assert [RenderPhase, CapturePhase] + ([SetChildPhase] + rest.trace)
        == ToMain(true) + rest.trace;
    } else {
      assert [RenderPhase, CapturePhase] + rest.trace == ToMain(false) + rest.trace;
    }
  }

  /** A throw in the `{child}` set ends `init` with `undefined`, keeping
      what the set did before it threw; `main` never runs. */
  lemma InitChildSetThrows(env: Env, self: Component, cls: Class, target: Target, args: Args)
    requires RootRendered(cls.render(env, self))
    requires var (e1, s1) := Captured(env, self, cls);
      ChildIsElement(e1, s1) && ChildSet(e1, s1).error.Some?
    ensures var (e1, s1) := Captured(env, self, cls);
      var (e2, s2) := AfterChildSet(e1, s1);
      Init(env, self, cls, target, args)
        == InitOut(e2, s2, [RenderPhase, CapturePhase, SetChildPhase], Threw)
  {
    InitAfterRender(env, self, cls, target, args);
  }

  /** A throw in `main` ends `init` with `undefined`, keeping what `main`
      did; nothing is mounted and `finally` never runs. */
  lemma InitMainThrows(env: Env, self: Component, cls: Class, target: Target, args: Args)
    requires ReachesMain(env, self, cls)
    requires var (e, s) := BeforeMain(env, self, cls); cls.main(e, s, args).threw
    ensures var (e, s) := BeforeMain(env, self, cls);
      var m := cls.main(e, s, args);
      Init(env, self, cls, target, args)
        == InitOut(m.env, m.self, ToMain(ChildSetPlanned(cls.render(env, self))) + [MainPhase], Threw)
  {
    InitReachesMain(env, self, cls, target, args);
  }

  /** A selector that matches nothing, a missing root or a refused
      insertion ends `init` with `undefined` after `main`; `finally` never
      runs. */
  lemma InitMountThrows(env: Env, self: Component, cls: Class, target: Target, args: Args)
    requires ReachesMain(env, self, cls)
    requires var (e, s) := BeforeMain(env, self, cls);
      var m := cls.main(e, s, args);
      && !m.threw
      && (target.Missing? || (target.At? && Mount(m.env.doc, m.self.root, target.node).None?))
    ensures var (e, s) := BeforeMain(env, self, cls);
      var m := cls.main(e, s, args);
      Init(env, self, cls, target, args)
        == InitOut(m.env, m.self, ToMain(ChildSetPlanned(cls.render(env, self))) + [MainPhase, MountPhase], Threw)
  {
    InitReachesMain(env, self, cls, target, args);
    var (e, s) := BeforeMain(env, self, cls);
    var m := cls.main(e, s, args);
    assert [MainPhase] + [MountPhase] == [MainPhase, MountPhase];
  }

  /** Once the root is mounted, `finally` runs in the mounted document;
      `init` returns `this.root` when it does not throw and `undefined`
      when it does, after every planned step. */
  lemma InitMounted(env: Env, self: Component, cls: Class, node: NodeId, args: Args)
    requires ReachesMain(env, self, cls)
    requires var (e, s) := BeforeMain(env, self, cls);
      var m := cls.main(e, s, args);
      !m.threw && Mount(m.env.doc, m.self.root, node).Some?
    ensures var (e, s) := BeforeMain(env, self, cls);
      var m := cls.main(e, s, args);
      var f := cls.fin(Env(Mount(m.env.doc, m.self.root, node).value, m.env.supply), m.self);
      Init(env, self, cls, At(node), args)
        == InitOut(f.env, f.self, Planned(ChildSetPlanned(cls.render(env, self)), true),
                   if f.threw then Threw else Returned(f.self.root))
  {
    InitReachesMain(env, self, cls, At(node), args);
    var child := ChildSetPlanned(cls.render(env, self));
    assert ToMain(child) + ([MainPhase] + [MountPhase, FinallyPhase]) == Planned(child, true);
  }

  /** Without a target, `init` returns `this.root` as `main` left it, once
      `main` returns, after every planned step. */
  lemma InitUnmounted(env: Env, self: Component, cls: Class, args: Args)
    requires ReachesMain(env, self, cls)
    requires var (e, s) := BeforeMain(env, self, cls); !cls.main(e, s, args).threw
    ensures var (e, s) := BeforeMain(env, self, cls);
      var m := cls.main(e, s, args);
      Init(env, self, cls, NoTarget, args)
        == InitOut(m.env, m.self, Planned(ChildSetPlanned(cls.render(env, self)), false), Returned(m.self.root))
  {
    InitReachesMain(env, self, cls, NoTarget, args);
    var child := ChildSetPlanned(cls.render(env, self));
    assert ToMain(child) + ([MainPhase] + []) == Planned(child, false);
  }

  /** Hooks never give back a smaller identifier supply: `Math.random`
      cannot be rewound by anything a hook does. */
  ghost predicate KeepsSupply(cls: Class) {
    && (forall e, s :: cls.render(e, s).env.supply >= e.supply)
    && (forall e, s, a :: cls.main(e, s, a).env.supply >= e.supply)
    && (forall e, s :: cls.fin(e, s).env.supply >= e.supply)
  }

  lemma FromMainSupply(env: Env, self: Component, cls: Class, target: Target, args: Args)
    requires KeepsSupply(cls)
    ensures FromMain(env, self, cls, target, args).env.supply >= env.supply
  {
    var m := cls.main(env, self, args);
    if !m.threw && target.At? {
      var d1 := Mount(m.env.doc, m.self.root, target.node);
      if d1.Some? {
        assert cls.fin(Env(d1.value, m.env.supply), m.self).env.supply >= m.env.supply;
      }
    }
  }

  /** Every step after the capture keeps or grows the supply. */
  lemma FromSetChildSupply(env: Env, self: Component, cls: Class, target: Target, args: Args)
    requires KeepsSupply(cls)
    ensures FromSetChild(env, self, cls, target, args).env.supply >= env.supply
  {
    if !ChildIsElement(env, self) {
      FromMainSupply(env, self, cls, target, args);
    } else if ChildSet(env, self).error.None? {
      var (e1, s1) := AfterChildSet(env, self);
      FromMainSupply(e1, s1, cls, target, args);
    }
  }

  /** `init` never leaves a smaller supply than it started with. */
  lemma InitSupply(env: Env, self: Component, cls: Class, target: Target, args: Args)
    requires KeepsSupply(cls)
    ensures Init(env, self, cls, target, args).env.supply >= env.supply
  {
    if RootRendered(cls.render(env, self)) {
      CaptureWithin(env, self, cls, target, args);
    }
  }

  /** The identifiers `init`'s capture writes: those of the supply values
      the capture drew. */
  function CaptureIds(env: Env, self: Component, cls: Class): set<string>
    requires RootRendered(cls.render(env, self))
  {
    Drawn(cls.render(env, self).env.supply, Captured(env, self, cls).0.supply)
  }

  /** The capture draws its identifiers after the supply `init` started
      with and before the supply `init` leaves. */
  lemma CaptureWithin(env: Env, self: Component, cls: Class, target: Target, args: Args)
    requires KeepsSupply(cls) && RootRendered(cls.render(env, self))
    ensures var rd := cls.render(env, self);
      && env.supply <= rd.env.supply <= Captured(env, self, cls).0.supply
      && Captured(env, self, cls).0.supply <= Init(env, self, cls, target, args).env.supply
  {
    var rd := cls.render(env, self);
    UniquePassFrame(Pass(rd.env.doc, rd.self.element, rd.env.supply), rd.root.value, UniqueAttr);
    InitAfterRender(env, self, cls, target, args);
    var (e1, s1) := Captured(env, self, cls);
    FromSetChildSupply(e1, s1, cls, target, args);
  }

  /** Each element the capture selects is given one of `CaptureIds`. */
  lemma CaptureWritesIds(env: Env, self: Component, cls: Class)
    requires RootRendered(cls.render(env, self))
    requires var rd := cls.render(env, self); Distinct(Select(rd.env.doc, rd.root.value, UniqueAttr))
    ensures var rd := cls.render(env, self);
      var xs := Select(rd.env.doc, rd.root.value, UniqueAttr);
      var e1 := Captured(env, self, cls).0;
      forall i :: 0 <= i < |xs| ==>
        GetAttr(e1.doc, xs[i], UniqueAttr).Some? && GetAttr(e1.doc, xs[i], UniqueAttr).value in CaptureIds(env, self, cls)
  {
    var rd := cls.render(env, self);
    UniquePassDrawn(Pass(rd.env.doc, rd.self.element, rd.env.supply), rd.root.value, UniqueAttr);
  }

  /** Two instances initialised one after the other, with hooks that keep
      the supply, never give two elements the same `id`: every `id` the
      first capture writes differs from every `id` the second writes. */
  lemma TwoMountsDistinctIds(
    env1: Env, self1: Component, cls1: Class, target1: Target, args1: Args,
    env2: Env, self2: Component, cls2: Class)
    requires KeepsSupply(cls1) && KeepsSupply(cls2)
    requires RootRendered(cls1.render(env1, self1)) && RootRendered(cls2.render(env2, self2))
    requires var rd1, rd2 := cls1.render(env1, self1), cls2.render(env2, self2);
      && Distinct(Select(rd1.env.doc, rd1.root.value, UniqueAttr))
      && Distinct(Select(rd2.env.doc, rd2.root.value, UniqueAttr))
    requires Init(env1, self1, cls1, target1, args1).env.supply <= env2.supply
    ensures CaptureIds(env1, self1, cls1) !! CaptureIds(env2, self2, cls2)
    ensures var rd1, rd2 := cls1.render(env1, self1), cls2.render(env2, self2);
      var xs1, xs2 := Select(rd1.env.doc, rd1.root.value, UniqueAttr), Select(rd2.env.doc, rd2.root.value, UniqueAttr);
      var d1, d2 := Captured(env1, self1, cls1).0.doc, Captured(env2, self2, cls2).0.doc;
      forall i, j :: 0 <= i < |xs1| && 0 <= j < |xs2| ==>
        GetAttr(d1, xs1[i], UniqueAttr) != GetAttr(d2, xs2[j], UniqueAttr)
  {
    var rd1, rd2 := cls1.render(env1, self1), cls2.render(env2, self2);
    CaptureWithin(env1, self1, cls1, target1, args1);
    CaptureWithin(env2, self2, cls2, NoTarget, args1);
    DrawnDisjoint(rd1.env.supply, Captured(env1, self1, cls1).0.supply, rd2.env.supply, Captured(env2, self2, cls2).0.supply);
    CaptureWritesIds(env1, self1, cls1);
    CaptureWritesIds(env2, self2, cls2);
  }

  /** The first child passed to `component`; `undefined` when there is
      none. */
  function FirstChild(children: seq<Value>): (v: Value)
    ensures children != [] ==> v == children[0]
    ensures children == [] ==> v == Undefined
  {
    if children == [] then Undefined else children[0]
  }

  /** What `component` returns: nothing when its class is not an object,
      else what the new component's `init` returned. */
  datatype CallResult = NotCreated | Initialised(result: InitResult)

  /** The state after `component`: the shared environment, the parent with
      its child map, and the result. */
  datatype Created = Created(env: Env, parent: Component, result: CallResult)

  /** The key the child is registered and identified under: `args.id`, or
      the identifier its constructor drew. */
  function ChildId(env: Env, args: Args): (k: string)
    ensures args.id != "" ==> k == args.id
    ensures args.id == "" ==> k == Raid(env.supply)
  {
    if args.id != "" then args.id else Raid(env.supply)
  }

  /** A component right after its constructor and the assignments in
      `component`: its id, the parent, the arguments with `child` set to
      the first child, no root and empty maps. */
  function NewChild(env: Env, parent: Component, children: seq<Value>, args: Args): (c: Component) {
    Component(ChildId(env, args), None, args.(child := FirstChild(children)), Some(parent.id), map[], map[], map[])
  }

  /** `parent.component(cls, children, args)`. The constructor draws an
      identifier whether or not `args.id` is given; `init` runs without a
      target and with the original `args`. */
  function ComponentCall(env: Env, parent: Component, cls: Option<Class>, children: seq<Value>, args: Args): Created {
    match cls
    case None => Created(env, parent, NotCreated)
    case Some(c) =>
      var e1 := Env(env.doc, env.supply + 1);
      var out := Init(e1, NewChild(env, parent, children, args), c, NoTarget, args);
      Created(out.env, parent.(child := parent.child[ChildId(env, args) := out.self]), Initialised(out.result))
  }

  /** Without a class nothing happens and `undefined` is returned. */
  lemma ComponentNotObject(env: Env, parent: Component, children: seq<Value>, args: Args)
    ensures ComponentCall(env, parent, None, children, args) == Created(env, parent, NotCreated)
  {
  }

  /** With a class, the child is constructed with id `args.id` or a fresh
      identifier, the parent's id and the first child as `args.child`; it
      is registered in the parent's child map under that id, in the state
      its `init` left, and every other entry and every other field of the
      parent is kept. */
  lemma ComponentRegisters(env: Env, parent: Component, cls: Class, children: seq<Value>, args: Args)
    ensures var r := ComponentCall(env, parent, Some(cls), children, args);
      var key := ChildId(env, args);
      var c0 := NewChild(env, parent, children, args);
      && c0.id == key && c0.parent == Some(parent.id) && c0.args.child == FirstChild(children)
      && c0.args.id == args.id && c0.root.None?
      && r.parent.child.Keys == parent.child.Keys + {key}
      && r.parent.child[key] == Init(Env(env.doc, env.supply + 1), c0, cls, NoTarget, args).self
      && (forall k :: k in parent.child && k != key ==> r.parent.child[k] == parent.child[k])
      && r.parent == parent.(child := r.parent.child)
  {
  }

  /** Creating a component draws its identifier and leaves the supply
      past it, so the instances created one after another draw from
      disjoint stretches of the supply. */
  lemma ComponentSupply(env: Env, parent: Component, cls: Class, children: seq<Value>, args: Args)
    requires KeepsSupply(cls)
    ensures ComponentCall(env, parent, Some(cls), children, args).env.supply > env.supply
  {
    InitSupply(Env(env.doc, env.supply + 1), NewChild(env, parent, children, args), cls, NoTarget, args);
  }

  /** A step in a prefix of a plan is in the plan. */
  lemma PrefixIn(x: Phase, a: seq<Phase>, b: seq<Phase>)
    requires a <= b && x in a
    ensures x in b
  {
    var i :| 0 <= i < |a| && a[i] == x;
    assert b[i] == x;
  }

  /** `component` returns what the child's `init` returned, and that `init`,
      having no target, never mounts and never runs `finally`. */
  lemma ComponentInit(env: Env, parent: Component, cls: Class, children: seq<Value>, args: Args)
    ensures var r := ComponentCall(env, parent, Some(cls), children, args);
      var out := Init(Env(env.doc, env.supply + 1), NewChild(env, parent, children, args), cls, NoTarget, args);
      && r.result == Initialised(out.result)
      && MountPhase !in out.trace && FinallyPhase !in out.trace
  {
    NoTargetNoMount(Env(env.doc, env.supply + 1), NewChild(env, parent, children, args), cls, args);
  }

  /** Without a target `init` never mounts and never runs `finally`. */
  lemma NoTargetNoMount(env: Env, self: Component, cls: Class, args: Args)
    ensures var out := Init(env, self, cls, NoTarget, args);
      MountPhase !in out.trace && FinallyPhase !in out.trace
  {
    InitTrace(env, self, cls, NoTarget, args);
    var out := Init(env, self, cls, NoTarget, args);
    var plan := Planned(ChildSetPlanned(cls.render(env, self)), false);
    assert MountPhase !in plan && FinallyPhase !in plan;
    if MountPhase in out.trace {
      PrefixIn(MountPhase, out.trace, plan);
    }
    if FinallyPhase in out.trace {
      PrefixIn(FinallyPhase, out.trace, plan);
    }
  }

}

=== FILE: marker.dfy ===
/** The accumulation marker of `set` (public/library/h12.js:317-318): the
    position of the first `++` in the key selects prepend (at index 0),
    append (anywhere later) or replace (absent), and that one `++` is removed
    to obtain the lookup key. */
module Marker {
  import opened JsString

  datatype Mode = Replace | Prepend | Append

  datatype ParsedKey = ParsedKey(mode: Mode, key: string)

  const AccumulationMarker: string := "++"

  /** The mode selected by the position of the first marker and the key with
      that marker removed. Only the first marker is removed. */
  function ParseKey(raw: string): (r: ParsedKey)
    ensures r.mode == Replace <==> !Contains(raw, AccumulationMarker)
    ensures r.mode == Replace ==> r.key == raw
    ensures r.mode == Prepend <==> StartsWith(raw, AccumulationMarker)
    ensures r.mode == Prepend ==> r.key == raw[2..]
    ensures r.mode == Append ==>
      exists i :: 0 < i && OccursAt(raw, AccumulationMarker, i)
        && (forall j :: 0 <= j < i ==> !OccursAt(raw, AccumulationMarker, j))
        && r.key == raw[..i] + raw[i + 2..]
    ensures |r.key| == if r.mode == Replace then |raw| else |raw| - 2
  {
    var index := IndexOf(raw, AccumulationMarker);
    var key := ReplaceFirst(raw, AccumulationMarker, "");
    var mode := if index < 0 then Replace else if index == 0 then Prepend else Append;
    assert index == 0 <==> OccursAt(raw, AccumulationMarker, 0);
    ParsedKey(mode, key)
  }

  /** How a caller spells a mode: `++{k}` prepends, `{k}++` appends. */
  function Mark(mode: Mode, key: string): string {
    match mode
    case Replace => key
    case Prepend => AccumulationMarker + key
    case Append => key + AccumulationMarker
  }

  /** A key without a marker, spelled with any mode, parses back to that mode
      and key; the only exception is an append marker after "" or "+", whose
      `++` then starts at index 0 and reads as prepend. */
  lemma {:induction false} ParseMark(mode: Mode, key: string)
    requires !Contains(key, AccumulationMarker)
    requires mode == Append ==> key != "" && key != "+"
    ensures ParseKey(Mark(mode, key)) == ParsedKey(mode, key)
  {
    match mode
    case Replace =>
    case Prepend =>
      var s := AccumulationMarker + key;
      assert OccursAt(s, AccumulationMarker, 0);
      assert s[2..] == key;
    case Append =>
      var s := key + AccumulationMarker;
      var i0 := if key[|key| - 1] == '+' then |key| - 1 else |key|;
      AppendMarkerFirst(key);
      assert IndexOf(s, AccumulationMarker) == i0;
      assert s[..i0] + s[i0 + 2..] == key;
  }

  /** The first `++` of `key + "++"` is the marker itself, or starts one
      character earlier when the key ends in `+`. */
  lemma AppendMarkerFirst(key: string)
    requires !Contains(key, AccumulationMarker) && key != [] && key != "+"
    ensures var s := key + AccumulationMarker;
      var i0 := if key[|key| - 1] == '+' then |key| - 1 else |key|;
      && 0 < i0 && OccursAt(s, AccumulationMarker, i0)
      && (forall j :: 0 <= j < i0 ==> !OccursAt(s, AccumulationMarker, j))
      && s[..i0] + s[i0 + 2..] == key
  {
    var s := key + AccumulationMarker;
    var endsPlus := key[|key| - 1] == '+';
    var i0 := if endsPlus then |key| - 1 else |key|;
    forall j | 0 <= j < i0
      ensures !OccursAt(s, AccumulationMarker, j)
    {
      if j + 2 <= |key| {
        assert s[j..j + 2] == key[j..j + 2];
        assert !OccursAt(key, AccumulationMarker, j);
      } else {
        assert j == |key| - 1 && s[j] == key[|key| - 1];
      }
    }
    assert s[i0..i0 + 2] == AccumulationMarker;
    if endsPlus {
      assert s[..i0] + s[i0 + 2..] == key;
    } else {
      assert s[..i0] + s[i0 + 2..] == key;
    }
  }

  /** The append marker after the empty key, or after "+", is read as a
      prepend marker: `indexOf` finds the `++` at index 0. */
  lemma AppendMarkerOnShortKeys()
    ensures ParseKey(Mark(Append, "")) == ParsedKey(Prepend, "")
    ensures ParseKey(Mark(Append, "+")) == ParsedKey(Prepend, "+")
  {
    assert OccursAt("++", AccumulationMarker, 0);
    assert OccursAt("+++", AccumulationMarker, 0);
    assert "+++"[2..] == "+";
  }

  /** Only the first marker is removed: a key marked on both sides prepends
      and keeps its trailing marker. */
  lemma OnlyFirstMarkerRemoved(key: string)
    ensures ParseKey(AccumulationMarker + key + AccumulationMarker)
         == ParsedKey(Prepend, key + AccumulationMarker)
  {
    var s := AccumulationMarker + key + AccumulationMarker;
    assert OccursAt(s, AccumulationMarker, 0);
    assert s[2..] == key + AccumulationMarker;
  }
}

=== FILE: scenarios.dfy ===
/** Whole updates of one component, as the documentation of `set`
    (public/library/h12.js:296-314) describes them: text that is replaced,
    appended to and prepended to; a text placeholder that becomes an element
    and back; elements accumulated in an anchor and dropped again; and an
    attribute template filled in. */
module Scenarios {
  import opened Wrappers
  import opened JsString
  import opened Marker
  import opened Template
  import opened Dom
  import opened Binding
  import opened Update

  /** `set` on a key with one text record and a string value: the text node
      takes the string, or gets it before or after its text, as the key's
      marker says; the bindings do not change. */
  lemma SetOnText(d: Document, b: Bindings, k: string, mode: Mode, t: NodeId, p: NodeId, s: string)
    requires Valid(d) && IsText(d, t)
    requires !Contains(k, AccumulationMarker) && (mode == Append ==> k != "" && k != "+")
    requires k in b && b[k].occs == [TextOcc(t, p)]
    ensures Set(d, b, Mark(mode, k), Str(s))
         == SetOutcome(SetText(d, t, Combine(mode, s, d.nodes[t].content)), b, None)
  {
    ParseMark(mode, k);
    var occ := TextOcc(t, p);
    SetSingle(d, b, Mark(mode, k), Str(s), occ);
    StepTextValue(d, occ, mode, k, Str(s), DataOf(b));
    assert b[k := Entry([occ], b[k].data)] == b;
  }

  /** `SetOnText` with the new text given whole: the text node then holds
      it and the document stays valid. */
  lemma SetOnTextGives(d: Document, b: Bindings, k: string, mode: Mode, t: NodeId, p: NodeId, s: string,
                       text: string)
    requires Valid(d) && IsText(d, t)
    requires !Contains(k, AccumulationMarker) && (mode == Append ==> k != "" && k != "+")
    requires k in b && b[k].occs == [TextOcc(t, p)]
    requires text == Combine(mode, s, Content(d, t))
    ensures Set(d, b, Mark(mode, k), Str(s)) == SetOutcome(SetText(d, t, text), b, None)
    ensures Valid(SetText(d, t, text)) && IsText(SetText(d, t, text), t)
    ensures Content(SetText(d, t, text), t) == text
  {
    SetOnText(d, b, k, mode, t, p, s);
  }

  /** `set(k)` without a value on a key with one text record empties the
      text node, whatever it held. */
  lemma SetWithoutValueClears(d: Document, b: Bindings, k: string, t: NodeId, p: NodeId)
    requires Valid(d) && IsText(d, t) && !Contains(k, AccumulationMarker)
    requires k in b && b[k].occs == [TextOcc(t, p)]
    ensures Set(d, b, k, Undefined) == SetOutcome(SetText(d, t, ""), b, None)
    ensures Content(Set(d, b, k, Undefined).doc, t) == ""
  {
    SetDefault(d, b, k);
    SetOnTextGives(d, b, k, Replace, t, p, "", "");
  }

  /** `set(k)` without a value on a key with one element record puts an
      empty text node in the anchor's place and drops the accumulated
      elements. */
  lemma SetWithoutValueOnAnchor(d: Document, b: Bindings, k: string, a: NodeId, p: NodeId,
                                clones: seq<NodeId>)
    requires Valid(d) && !Contains(k, AccumulationMarker)
    requires k in b && b[k].occs == [ElemOcc(a, p, clones)]
    requires OccOk(d, ElemOcc(a, p, clones)) && a in ChildrenOf(d, p)
    ensures var o := Set(d, b, k, Undefined);
      && o.error.None? && o.bindings == b[k := Entry([TextOcc(d.next, p)], b[k].data)]
      && Content(o.doc, d.next) == ""
      && d.next in ChildrenOf(o.doc, p) && a !in ChildrenOf(o.doc, p)
      && forall q, c :: q in o.doc.nodes && c in clones ==> c !in ChildrenOf(o.doc, q)
  {
    SetDefault(d, b, k);
    SetTextOnAnchor(d, b, k, a, p, clones, "");
  }

  /** The documented sequence `set("{item}", "Red")`, `set("{item}++",
      "Apple")`, `set("++{item}", "Fresh")` leaves s3 + s1 + s2, here
      "FreshRedApple": the values are joined as given, with no space added. */
  lemma ReplaceAppendPrepend(d: Document, b: Bindings, k: string, t: NodeId, p: NodeId,
                             s1: string, s2: string, s3: string)
    requires Valid(d) && IsText(d, t)
    requires !Contains(k, AccumulationMarker) && k != "" && k != "+"
    requires k in b && b[k].occs == [TextOcc(t, p)]
    ensures var d1 := SetText(d, t, s1); var d2 := SetText(d1, t, s1 + s2);
      var d3 := SetText(d2, t, s3 + (s1 + s2));
      && Set(d, b, Mark(Replace, k), Str(s1)) == SetOutcome(d1, b, None)
      && Set(d1, b, Mark(Append, k), Str(s2)) == SetOutcome(d2, b, None)
      && Set(d2, b, Mark(Prepend, k), Str(s3)) == SetOutcome(d3, b, None)
      && Content(d3, t) == s3 + s1 + s2
  {
    SetOnTextGives(d, b, k, Replace, t, p, s1, s1);
    var d1 := SetText(d, t, s1);
    SetOnTextGives(d1, b, k, Append, t, p, s2, s1 + s2);
    var d2 := SetText(d1, t, s1 + s2);
    SetOnTextGives(d2, b, k, Prepend, t, p, s3, s3 + (s1 + s2));
    assert s3 + (s1 + s2) == s3 + s1 + s2;
  }

  /** `set` with an element on a key with one text record: the element takes
      the text node's place and the record becomes an element record. */
  lemma SetElementOnText(d: Document, b: Bindings, k: string, t: NodeId, p: NodeId, e: NodeId)
    requires Valid(d) && IsElement(d, e) && !Contains(k, AccumulationMarker)
    requires k in b && b[k].occs == [TextOcc(t, p)]
    requires !ReplaceFails(d, p, e, t)
    ensures var o := Set(d, b, k, ElemVal(e));
      && o.error.None? && o.bindings == b[k := Entry([ElemOcc(e, p, [])], b[k].data)]
      && o.doc == ReplaceChild(d, p, e, t).value
      && e in ChildrenOf(o.doc, p) && (e != t ==> t !in ChildrenOf(o.doc, p))
  {
    ParseMark(Replace, k);
    var occ := TextOcc(t, p);
    SetSingle(d, b, k, ElemVal(e), occ);
    StepTextToElement(d, occ, Replace, k, ElemVal(e), DataOf(b));
  }

  /** `set` with a string on a key with one element record: a fresh text
      node takes the anchor's place, the record becomes a text record on it,
      and every accumulated element leaves the tree. */
  lemma SetTextOnAnchor(d: Document, b: Bindings, k: string, a: NodeId, p: NodeId,
                        clones: seq<NodeId>, s: string)
    requires Valid(d) && !Contains(k, AccumulationMarker)
    requires k in b && b[k].occs == [ElemOcc(a, p, clones)]
    requires OccOk(d, ElemOcc(a, p, clones)) && a in ChildrenOf(d, p)
    ensures var o := Set(d, b, k, Str(s));
      && o.error.None? && o.bindings == b[k := Entry([TextOcc(d.next, p)], b[k].data)]
      && Content(o.doc, d.next) == s
      && d.next in ChildrenOf(o.doc, p) && a !in ChildrenOf(o.doc, p)
      && forall q, c :: q in o.doc.nodes && c in clones ==> c !in ChildrenOf(o.doc, q)
  {
    ParseMark(Replace, k);
    var occ := ElemOcc(a, p, clones);
    SetSingle(d, b, k, Str(s), occ);
    StepAnchorToText(d, occ, Replace, k, Str(s), DataOf(b));
    StepDropsClones(d, occ, Replace, k, Str(s), DataOf(b));
  }

  /** `set` with an element and a marker on a key with one element record:
      the element becomes the anchor's first or last child and joins the
      accumulated ones. */
  lemma SetElementInAnchor(d: Document, b: Bindings, k: string, mode: Mode, a: NodeId, p: NodeId,
                           clones: seq<NodeId>, e: NodeId)
    requires Valid(d) && IsElement(d, e) && mode != Replace
    requires !Contains(k, AccumulationMarker) && (mode == Append ==> k != "" && k != "+")
    requires k in b && b[k].occs == [ElemOcc(a, p, clones)]
    requires !InsertFails(d, a, e)
    ensures var o := Set(d, b, Mark(mode, k), ElemVal(e));
      && o.error.None? && o.bindings == b[k := Entry([ElemOcc(a, p, clones + [e])], b[k].data)]
      && o.doc == InsertChild(d, a, e, mode == Prepend).value
      && MovedOut(d, o.doc, a, e)
      && ChildrenOf(o.doc, a) == if mode == Prepend then [e] + Without(ChildrenOf(d, a), e)
                                  else Without(ChildrenOf(d, a), e) + [e]
  {
    ParseMark(mode, k);
    var occ := ElemOcc(a, p, clones);
    SetSingle(d, b, Mark(mode, k), ElemVal(e), occ);
    StepAccumulate(d, occ, mode, k, ElemVal(e), DataOf(b));
  }

  /** A text placeholder set to an element and then to a string: the element
      takes the text's place, then a new text node takes the element's
      place, under the same parent. */
  lemma TextToElementAndBack(d: Document, b: Bindings, k: string, t: NodeId, p: NodeId,
                             e: NodeId, s: string)
    requires Valid(d) && IsText(d, t) && IsElement(d, e) && !Contains(k, AccumulationMarker)
    requires k in b && b[k].occs == [TextOcc(t, p)]
    requires IsElement(d, p) && t in ChildrenOf(d, p) && !IsInclusiveAncestor(d.nodes, e, p, |d.nodes|)
    ensures ReplaceChild(d, p, e, t).Ok?
    ensures var d1, b1 := ReplaceChild(d, p, e, t).value, b[k := Entry([ElemOcc(e, p, [])], b[k].data)];
      && Set(d, b, k, ElemVal(e)) == SetOutcome(d1, b1, None)
      && e in ChildrenOf(d1, p) && t !in ChildrenOf(d1, p) && Valid(d1)
    ensures var d1, b1 := ReplaceChild(d, p, e, t).value, b[k := Entry([ElemOcc(e, p, [])], b[k].data)];
      var o2 := Set(d1, b1, k, Str(s));
      && o2.error.None? && o2.bindings == b[k := Entry([TextOcc(d1.next, p)], b[k].data)]
      && Content(o2.doc, d1.next) == s
      && d1.next in ChildrenOf(o2.doc, p) && e !in ChildrenOf(o2.doc, p)
  {
    SetElementOnText(d, b, k, t, p, e);
    var d1, b1 := ReplaceChild(d, p, e, t).value, b[k := Entry([ElemOcc(e, p, [])], b[k].data)];
    ReplaceChildPreserves(d, p, e, t);
    SetTextOnAnchor(d1, b1, k, e, p, [], s);
    Overwrite(b, k, Entry([ElemOcc(e, p, [])], b[k].data), Entry([TextOcc(d1.next, p)], b[k].data));
  }

  /** Two childless elements accumulated in an anchor, one appended with
      `{k}++` and then one prepended with `++{k}`: the prepended one comes
      first, the appended one stays among the anchor's children, and both
      are in the record's clone list, so that a later `set` without a
      marker takes both out of the tree (`SetTextOnAnchor`). */
  lemma AppendThenPrepend(d: Document, b: Bindings, k: string, a: NodeId, p: NodeId,
                          e1: NodeId, e2: NodeId)
    requires Valid(d) && !Contains(k, AccumulationMarker) && k != "" && k != "+"
    requires k in b && b[k].occs == [ElemOcc(a, p, [])]
    requires IsElement(d, a) && IsElement(d, e1) && IsElement(d, e2) && e1 != e2 && e1 != a && e2 != a
    requires ChildrenOf(d, e1) == [] && ChildrenOf(d, e2) == []
    ensures InsertChild(d, a, e1, false).Ok?
    ensures var d1 := InsertChild(d, a, e1, false).value;
      && Set(d, b, Mark(Append, k), ElemVal(e1)) == SetOutcome(d1, b[k := Entry([ElemOcc(a, p, [e1])], b[k].data)], None)
      && Valid(d1) && InsertChild(d1, a, e2, true).Ok?
    ensures var d1 := InsertChild(d, a, e1, false).value;
      var d2 := InsertChild(d1, a, e2, true).value;
      && Set(d1, b[k := Entry([ElemOcc(a, p, [e1])], b[k].data)], Mark(Prepend, k), ElemVal(e2))
         == SetOutcome(d2, b[k := Entry([ElemOcc(a, p, [e1, e2])], b[k].data)], None)
      && ChildrenOf(d2, a)[0] == e2 && e1 in ChildrenOf(d2, a)
  {
    Pair(e1, e2);
    var d1, b1 := FirstAppend(d, b, k, a, p, e1, e2);
    SetElementInAnchor(d1, b1, k, Prepend, a, p, [e1], e2);
    var d2 := InsertChild(d1, a, e2, true).value;
    Overwrite(b, k, Entry([ElemOcc(a, p, [e1])], b[k].data), Entry([ElemOcc(a, p, [e1, e2])], b[k].data));
    assert e1 in ChildrenOf(d1, a);
    assert e1 in Without(ChildrenOf(d1, a), e2);
  }

  lemma FirstAppend(d: Document, b: Bindings, k: string, a: NodeId, p: NodeId, e1: NodeId, e2: NodeId)
      returns (d1: Document, b1: Bindings)
    requires Valid(d) && !Contains(k, AccumulationMarker) && k != "" && k != "+"
    requires k in b && b[k].occs == [ElemOcc(a, p, [])]
    requires IsElement(d, a) && IsElement(d, e1) && IsElement(d, e2) && e1 != e2 && e1 != a && e2 != a
    requires ChildrenOf(d, e1) == [] && ChildrenOf(d, e2) == []
    ensures InsertChild(d, a, e1, false).Ok? && d1 == InsertChild(d, a, e1, false).value
    ensures b1 == b[k := Entry([ElemOcc(a, p, [e1])], b[k].data)]
    ensures Set(d, b, Mark(Append, k), ElemVal(e1)) == SetOutcome(d1, b1, None)
    ensures Valid(d1) && IsElement(d1, e2) && !InsertFails(d1, a, e2)
    ensures k in b1 && b1[k].occs == [ElemOcc(a, p, [e1])] && e1 in ChildrenOf(d1, a)
  {
    LeafNotAncestor(d.nodes, e1, a, |d.nodes|);
    assert [] + [e1] == [e1];
    SetElementInAnchor(d, b, k, Append, a, p, [], e1);
    d1 := InsertChild(d, a, e1, false).value;
    b1 := b[k := Entry([ElemOcc(a, p, [e1])], b[k].data)];
    AccumulationKeepsShape(d, a, e1, false);
    assert ChildrenOf(d1, e2) == [];
    LeafNotAncestor(d1.nodes, e2, a, |d1.nodes|);
  }

  /** Setting, without a marker, an element that was accumulated in the
      anchor: `replaceChild` moves it into the anchor's place, and then the
      clean-up of the clone list removes it again, so it ends in no child
      list while the record points at it. The next `set` with text then
      throws, because the record's node is no longer a child of the parent. */
  lemma ReplaceWithOwnClone(d: Document, b: Bindings, k: string, a: NodeId, p: NodeId,
                            clones: seq<NodeId>, v: NodeId)
    requires Valid(d) && !Contains(k, AccumulationMarker)
    requires k in b && b[k].occs == [ElemOcc(a, p, clones)]
    requires OccOk(d, ElemOcc(a, p, clones)) && v in clones
    ensures var o := Set(d, b, k, ElemVal(v));
      && (o.error.None? <==> !ReplaceFails(d, p, v, a))
      && Valid(o.doc)
      && (o.error.None? ==>
            && o.bindings[k].occs == [ElemOcc(v, p, [])]
            && (forall q :: q in o.doc.nodes ==> v !in ChildrenOf(o.doc, q))
            && forall s :: Set(o.doc, o.bindings, k, Str(s)).error.Some?)
  {
    ParseMark(Replace, k);
    var occ := ElemOcc(a, p, clones);
    SetSingle(d, b, k, ElemVal(v), occ);
    StepReplaceAnchor(d, occ, k, ElemVal(v), DataOf(b));
    SetPreserves(d, b, k, ElemVal(v));
    var o := Set(d, b, k, ElemVal(v));
    if o.error.None? {
      StepDropsClones(d, occ, Replace, k, ElemVal(v), DataOf(b));
      StepPreserves(d, occ, Replace, k, ElemVal(v), DataOf(b));
      assert OccOk(o.doc, ElemOcc(v, p, []));
      DetachedAnchorThrows(o.doc, o.bindings, k, v, p);
    }
  }

  /** A key whose one element record names an anchor that is not a child of
      the record's parent: every `set` with text throws. */
  lemma DetachedAnchorThrows(d: Document, b: Bindings, k: string, v: NodeId, p: NodeId)
    requires Valid(d) && !Contains(k, AccumulationMarker)
    requires k in b && b[k].occs == [ElemOcc(v, p, [])]
    requires OccOk(d, ElemOcc(v, p, [])) && v !in ChildrenOf(d, p)
    ensures forall s :: Set(d, b, k, Str(s)).error.Some?
  {
    ParseMark(Replace, k);
    var occ := ElemOcc(v, p, []);
    forall s | true ensures Set(d, b, k, Str(s)).error.Some? {
      SetSingle(d, b, k, Str(s), occ);
      StepAnchorToText(d, occ, Replace, k, Str(s), DataOf(b));
    }
  }

  /** `set` with a string on a key with one attribute record, when neither
      the string nor any key's data holds a brace and every brace of the
      template belongs to a token: the attribute becomes the template with
      each token resolved in place, and `get` answers the string. */
  lemma SetOnAttribute(d: Document, b: Bindings, k: string, x: NodeId, n: string, template: string,
                       s: string)
    requires Valid(d) && IsElement(d, x) && !Contains(k, AccumulationMarker)
    requires k in b && b[k].occs == [AttrOcc(x, n, template)]
    requires PlainValues(s, DataOf(b)) && BracesInTokens(Segments(template))
    ensures var o := Set(d, b, k, Str(s));
      && o.error.None? && Get(o.bindings, k) == Some(s)
      && GetAttr(o.doc, x, n) == Some(Render(Segments(template), k, s, DataOf(b)))
  {
    ParseMark(Replace, k);
    SetAttributes(d, b, k, Str(s));
    assert LastNaming(b[k].occs, 0);
    ApplyTemplateInPlace(template, k, s, DataOf(b));
  }

  /** A template with the key's token between brace-free text, such as
      `bg-{color}-500`, set to a brace-free string, such as `red`, gives the
      text with the string in the token's place: `bg-red-500`. */
  lemma SetFillsTemplate(d: Document, b: Bindings, k: string, x: NodeId, n: string,
                         pre: string, post: string, s: string)
    requires Valid(d) && IsElement(d, x) && !Contains(k, AccumulationMarker) && IsToken(k)
    requires k in b && b[k].occs == [AttrOcc(x, n, pre + k + post)]
    requires BraceFree(pre) && BraceFree(post) && PlainValues(s, DataOf(b))
    ensures var o := Set(d, b, k, Str(s));
      o.error.None? && GetAttr(o.doc, x, n) == Some(pre + s + post) && Get(o.bindings, k) == Some(s)
  {
    ParseMark(Replace, k);
    SetAttributes(d, b, k, Str(s));
    assert LastNaming(b[k].occs, 0);
    OneTokenTemplate(pre, k, post, k, s, DataOf(b));
  }

  /** A successful insertion keeps every node's kind. */
  lemma AccumulationKeepsShape(d: Document, a: NodeId, e: NodeId, atStart: bool)
    requires InsertChild(d, a, e, atStart).Ok?
    ensures var r := InsertChild(d, a, e, atStart).value;
      && Extends(d, r)
      && forall x :: IsElement(d, x) ==> IsElement(r, x)
  {
    var r := InsertChild(d, a, e, atStart).value;
    forall x | x in d.nodes ensures r.nodes[x].Elem? == d.nodes[x].Elem? {
      assert Shape(d.nodes[x]) == Shape(r.nodes[x]);
    }
  }

  /** A key updated twice holds the second entry. */
  lemma Overwrite(b: Bindings, k: string, first: Entry, second: Entry)
    ensures b[k := first][k := second] == b[k := second]
  {
  }

  lemma Pair(x: NodeId, y: NodeId)
    ensures [x] + [y] == [x, y]
  {
  }
}

=== FILE: template.dfy ===
/** Attribute templates (public/library/h12.js:372-392). A template such as
    `bg-{color}-500` is scanned with the global regex `/\{[^{}\s]*\}/gm`;
    each match, in order, is then replaced with `String.prototype.replace`,
    which rewrites the first occurrence of the matched text in the string as
    rewritten so far. */
module Template {
  import opened JsString

  /** The characters matched by `\s` in a JavaScript regular expression. */
  predicate IsJsSpace(c: char) {
    || c == '\t' || c == '\n' || c == '\U{000B}' || c == '\U{000C}' || c == '\r' || c == ' '
    || c == '\U{00A0}' || c == '\U{1680}' || ('\U{2000}' <= c <= '\U{200A}')
    || c == '\U{2028}' || c == '\U{2029}' || c == '\U{202F}' || c == '\U{205F}'
    || c == '\U{3000}' || c == '\U{FEFF}'
  }

  /** The class `[^{}\s]` of characters allowed between the braces. */
  predicate IsTokenChar(c: char) {
    c != '{' && c != '}' && !IsJsSpace(c)
  }

  /** `t` is a whole match of `\{[^{}\s]*\}`. */
  predicate IsToken(t: string) {
    && |t| >= 2 && t[0] == '{' && t[|t| - 1] == '}'
    && forall i :: 0 < i < |t| - 1 ==> IsTokenChar(t[i])
  }

  /** No brace at all. */
  predicate BraceFree(s: string) {
    forall i :: 0 <= i < |s| ==> s[i] != '{' && s[i] != '}'
  }

  /** The length of the longest prefix of `s` made of token characters. */
  function BodyLength(s: string): (n: nat)
    ensures n <= |s|
    ensures forall k :: 0 <= k < n ==> IsTokenChar(s[k])
    ensures n < |s| ==> !IsTokenChar(s[n])
  {
    if s == [] || !IsTokenChar(s[0]) then 0 else 1 + BodyLength(s[1..])
  }

  /** A template cut into the regex's matches and the characters between. */
  datatype Segment = Lit(c: char) | Tok(text: string)

  function Show(seg: Segment): string {
    match seg
    case Lit(c) => [c]
    case Tok(t) => t
  }

  function Concat(segs: seq<Segment>): string {
    if segs == [] then "" else Show(segs[0]) + Concat(segs[1..])
  }

  /** The left-to-right, non-overlapping scan of the global regex: at a `{`
      whose run of token characters ends in `}` a match is taken whole;
      any other character is passed over. */
  function Segments(s: string): seq<Segment>
    decreases |s|
  {
    if s == [] then []
    else
      var n := BodyLength(s[1..]);
      if s[0] == '{' && 1 + n < |s| && s[1 + n] == '}' then [Tok(s[..n + 2])] + Segments(s[n + 2..])
      else [Lit(s[0])] + Segments(s[1..])
  }

  /** The scan takes a match at the front of `s`. */
  predicate MatchAtFront(s: string) {
    s != [] && var n := BodyLength(s[1..]); s[0] == '{' && 1 + n < |s| && s[1 + n] == '}'
  }

  lemma ConcatCons(seg: Segment, segs: seq<Segment>)
    ensures Concat([seg] + segs) == Show(seg) + Concat(segs)
  {
    assert ([seg] + segs)[1..] == segs;
  }

  lemma ScanFront(s: string)
    requires s != []
    ensures MatchAtFront(s) ==>
      var n := BodyLength(s[1..]);
      && Segments(s) == [Tok(s[..n + 2])] + Segments(s[n + 2..])
      && s == s[..n + 2] + s[n + 2..]
    ensures !MatchAtFront(s) ==> Segments(s) == [Lit(s[0])] + Segments(s[1..]) && s == [s[0]] + s[1..]
  {
    if MatchAtFront(s) {
      ScanMatch(s);
    } else {
      ScanPass(s);
    }
  }

  lemma ScanMatch(s: string)
    requires MatchAtFront(s)
    ensures var n := BodyLength(s[1..]);
      && Segments(s) == [Tok(s[..n + 2])] + Segments(s[n + 2..])
      && s == s[..n + 2] + s[n + 2..]
  {
  }

  lemma ScanPass(s: string)
    requires s != [] && !MatchAtFront(s)
    ensures Segments(s) == [Lit(s[0])] + Segments(s[1..]) && s == [s[0]] + s[1..]
  {
  }

  /** A match taken at the front is a token. */
  lemma MatchIsToken(s: string)
    requires MatchAtFront(s)
    ensures IsToken(s[..BodyLength(s[1..]) + 2])
  {
    var n := BodyLength(s[1..]);
    var t := s[..n + 2];
    forall i | 0 < i < |t| - 1 ensures IsTokenChar(t[i]) {
      assert t[i] == s[1..][i - 1];
    }
  }

  /** The scan loses nothing (its pieces spell the template) and every match
      it takes is a token. */
  lemma {:induction false} SegmentsSpell(s: string)
    ensures Concat(Segments(s)) == s
    ensures forall seg :: seg in Segments(s) && seg.Tok? ==> IsToken(seg.text)
    decreases |s|
  {
    if s != [] {
      ScanFront(s);
      var n := BodyLength(s[1..]);
      if MatchAtFront(s) {
        MatchIsToken(s);
      }
      var head, rest := if MatchAtFront(s) then Tok(s[..n + 2]) else Lit(s[0]),
                        if MatchAtFront(s) then s[n + 2..] else s[1..];
      SegmentsSpell(rest);
      assert Segments(s) == [head] + Segments(rest);
      ConcatCons(head, Segments(rest));
      assert s == Show(head) + rest;
    }
  }

  /** The matched texts, in order. */
  function TokensOf(segs: seq<Segment>): seq<string> {
    if segs == [] then []
    else if segs[0].Tok? then [segs[0].text] + TokensOf(segs[1..])
    else TokensOf(segs[1..])
  }

  /** `template.match(/\{[^{}\s]*\}/gm)`, with no match read as the empty list. */
  function Tokens(template: string): seq<string> {
    TokensOf(Segments(template))
  }

  /** Segments the scanner can produce back: every match is a token and no
      passed-over character is an opening brace. */
  predicate Canonical(segs: seq<Segment>) {
    forall seg :: seg in segs ==> (seg.Lit? ==> seg.c != '{') && (seg.Tok? ==> IsToken(seg.text))
  }

  lemma {:induction false} BodyLengthOfBody(body: string, stop: string)
    requires forall k :: 0 <= k < |body| ==> IsTokenChar(body[k])
    requires stop != [] && !IsTokenChar(stop[0])
    ensures BodyLength(body + stop) == |body|
  {
    if body != [] {
      assert (body + stop)[1..] == body[1..] + stop;
      BodyLengthOfBody(body[1..], stop);
    }
  }

  /** A passed-over character other than `{` is scanned as itself. */
  lemma ScanLit(c: char, rest: string)
    requires c != '{'
    ensures Segments([c] + rest) == [Lit(c)] + Segments(rest)
  {
    assert ([c] + rest)[1..] == rest;
  }

  /** A token at the front is scanned as one match. */
  lemma ScanTok(t: string, rest: string)
    requires IsToken(t)
    ensures Segments(t + rest) == [Tok(t)] + Segments(rest)
  {
    var s := t + rest;
    var body := t[1..|t| - 1];
    assert s[1..] == body + ("}" + rest);
    BodyLengthOfBody(body, "}" + rest);
    assert s[1 + |body|] == '}';
    assert s[..|body| + 2] == t;
    assert s[|body| + 2..] == rest;
  }

  /** Scanning the text of canonical segments recovers the segments. */
  lemma {:induction false} ScanConcat(segs: seq<Segment>)
    requires Canonical(segs)
    ensures Segments(Concat(segs)) == segs
  {
    if segs != [] {
      CanonicalTail(segs);
      ScanConcat(segs[1..]);
      ScanHead(segs[0], Concat(segs[1..]));
      assert segs == [segs[0]] + segs[1..];
    }
  }

  lemma CanonicalTail(segs: seq<Segment>)
    requires segs != [] && Canonical(segs)
    ensures Canonical(segs[1..]) && Canonical([segs[0]])
  {
    assert segs[0] in segs;
    forall seg | seg in segs[1..] ensures seg in segs { }
  }

  /** A canonical segment in front is scanned back as itself. */
  lemma ScanHead(seg: Segment, rest: string)
    requires Canonical([seg])
    ensures Segments(Show(seg) + rest) == [seg] + Segments(rest)
  {
    assert seg in [seg];
    match seg
    case Lit(c) => ScanLit(c, rest);
    case Tok(t) => ScanTok(t, rest);
  }

  /** What a token is replaced with when `key` is set to `value`: the value
      for the key itself, the last data of another bound key, and the token
      itself when its key was never bound. */
  function Resolve(tok: string, key: string, value: string, data: map<string, string>): string {
    if tok == key then value else if tok in data then data[tok] else tok
  }

  /** A token the substitution rewrites (the key itself, or a bound key). */
  predicate Resolvable(tok: string, key: string, data: map<string, string>) {
    tok == key || tok in data
  }

  /** What one segment becomes in the reference rendering. */
  function RenderSegment(seg: Segment, key: string, value: string, data: map<string, string>): string {
    match seg
    case Lit(c) => [c]
    case Tok(t) => Resolve(t, key, value, data)
  }

  /** Reference meaning of a template: every token replaced in place by its
      resolution, everything between tokens copied. */
  function Render(segs: seq<Segment>, key: string, value: string, data: map<string, string>): string {
    if segs == [] then ""
    else RenderSegment(segs[0], key, value, data) + Render(segs[1..], key, value, data)
  }

  /** The source's loop over the matches: the key's own token takes the new
      value, a bound key's token takes that key's data, an unbound token is
      skipped; each replacement hits the first occurrence in the current
      string. */
  function SubstituteTokens(current: string, found: seq<string>, key: string, value: string,
                            data: map<string, string>): string
    decreases |found|
  {
    if found == [] then current
    else
      var t := found[0];
      var next :=
        if t == key then ReplaceFirst(current, t, value)
        else if t !in data then current
        else ReplaceFirst(current, t, data[t]);
      SubstituteTokens(next, found[1..], key, value, data)
  }

  /** The attribute text produced from `template` when `key` is set to `value`. */
  function ApplyTemplate(template: string, key: string, value: string, data: map<string, string>): string {
    SubstituteTokens(template, Tokens(template), key, value, data)
  }

  /** The values the substitution inserts contain no brace. */
  predicate PlainValues(value: string, data: map<string, string>) {
    BraceFree(value) && forall k :: k in data ==> BraceFree(data[k])
  }

  /** Every brace of the segments belongs to a token. */
  predicate BracesInTokens(segs: seq<Segment>) {
    forall seg :: seg in segs ==> BraceInToken(seg)
  }

  predicate BraceInToken(seg: Segment) {
    (seg.Lit? ==> seg.c != '{' && seg.c != '}') && (seg.Tok? ==> IsToken(seg.text))
  }

  lemma {:induction false} RenderAppend(pre: seq<Segment>, seg: Segment, key: string, value: string,
                                        data: map<string, string>)
    ensures Render(pre + [seg], key, value, data)
         == Render(pre, key, value, data) + RenderSegment(seg, key, value, data)
  {
    if pre == [] {
      assert [] + [seg] == [seg];
    } else {
      assert (pre + [seg])[1..] == pre[1..] + [seg];
      RenderAppend(pre[1..], seg, key, value, data);
    }
  }

  /** Two distinct tokens never start a match at the same index. */
  lemma TokenStartClash(u: string, t: string, y: string)
    requires IsToken(u) && IsToken(t) && u != t
    ensures !OccursAt(u + y, t, 0)
  {
    var s := u + y;
    if |t| <= |s| {
      if |t| < |u| {
        assert IsTokenChar(u[|t| - 1]);
        assert s[..|t|][|t| - 1] != t[|t| - 1];
      } else if |t| == |u| {
        assert s[..|t|] == u;
      } else {
        assert IsTokenChar(t[|u| - 1]);
        assert s[..|t|][|u| - 1] != t[|u| - 1];
      }
    }
  }

  /** A segment whose rendering is inserted text carries no opening brace
      unless it is a token left in place. */
  lemma RenderedHeadHasNoBrace(seg: Segment, key: string, value: string, data: map<string, string>, j: int)
    requires (seg.Lit? ==> seg.c != '{' && seg.c != '}') && PlainValues(value, data)
    requires seg.Tok? ==> Resolvable(seg.text, key, data)
    requires 0 <= j < |RenderSegment(seg, key, value, data)|
    ensures RenderSegment(seg, key, value, data)[j] != '{'
  {
  }

  /** A rewritable token cannot be found inside the already-rendered prefix. */
  lemma {:induction false} NoEarlyOccurrence(pre: seq<Segment>, t: string, x: string, key: string,
                                             value: string, data: map<string, string>)
    requires IsToken(t) && Resolvable(t, key, data)
    requires BracesInTokens(pre) && PlainValues(value, data)
    ensures forall j :: 0 <= j < |Render(pre, key, value, data)| ==>
              !OccursAt(Render(pre, key, value, data) + t + x, t, j)
  {
    if pre != [] {
      var r0 := RenderSegment(pre[0], key, value, data);
      var rr := Render(pre[1..], key, value, data);
      assert pre[0] in pre && BraceInToken(pre[0]);
      assert BracesInTokens(pre[1..]) by {
        forall seg | seg in pre[1..] ensures seg in pre { }
      }
      NoEarlyOccurrence(pre[1..], t, x, key, value, data);
      var s := r0 + rr + t + x;
      assert s == r0 + (rr + t + x);
      forall j | 0 <= j < |r0 + rr|
        ensures !OccursAt(s, t, j)
      {
        if j >= |r0| {
          OccursAtShift(r0, rr + t + x, t, j);
        } else if pre[0].Tok? && !Resolvable(pre[0].text, key, data) && j == 0 {
          TokenStartClash(pre[0].text, t, rr + t + x);
        } else {
          if pre[0].Tok? && !Resolvable(pre[0].text, key, data) {
            assert r0 == pre[0].text;
            assert 0 < j < |r0|;
            assert r0[j] != '{';
          } else {
            RenderedHeadHasNoBrace(pre[0], key, value, data, j);
          }
          assert s[j] == r0[j] != '{';
        }
      }
    }
  }

  /** One token of the source loop, with the rendered prefix before it. */
  lemma SubstituteOneToken(rp: string, t: string, x: string, pre: seq<Segment>, key: string,
                           value: string, data: map<string, string>)
    requires rp == Render(pre, key, value, data)
    requires IsToken(t) && BracesInTokens(pre) && PlainValues(value, data)
    ensures
      (if t == key then ReplaceFirst(rp + t + x, t, value)
       else if t !in data then rp + t + x
       else ReplaceFirst(rp + t + x, t, data[t]))
      == rp + Resolve(t, key, value, data) + x
  {
    if Resolvable(t, key, data) {
      NoEarlyOccurrence(pre, t, x, key, value, data);
      ReplaceFirstAt(rp, t, x, Resolve(t, key, value, data));
    }
  }

  lemma {:induction false} SubstituteRest(pre: seq<Segment>, rest: seq<Segment>, key: string, value: string,
                                          data: map<string, string>)
    requires BracesInTokens(pre) && BracesInTokens(rest) && PlainValues(value, data)
    ensures SubstituteTokens(Render(pre, key, value, data) + Concat(rest), TokensOf(rest), key, value, data)
         == Render(pre, key, value, data) + Render(rest, key, value, data)
    decreases |rest|
  {
    var rp := Render(pre, key, value, data);
    if rest == [] {
      assert rp + Concat(rest) == rp;
    } else {
      var seg := rest[0];
      var rest' := rest[1..];
      BracesInTokensShift(pre, rest);
      RenderAppend(pre, seg, key, value, data);
      assert rest == [seg] + rest';
      var head := RenderSegment(seg, key, value, data);
      var rp' := Render(pre + [seg], key, value, data);
      assert rp' == rp + head;
      SubstituteStep(rp, seg, rest', pre, key, value, data);
      SubstituteRest(pre + [seg], rest', key, value, data);
      calc {
        SubstituteTokens(rp + Concat(rest), TokensOf(rest), key, value, data);
        SubstituteTokens(rp' + Concat(rest'), TokensOf(rest'), key, value, data);
        rp' + Render(rest', key, value, data);
        { ConcatAssoc(rp, head, Render(rest', key, value, data)); }
        rp + (head + Render(rest', key, value, data));
        rp + Render(rest, key, value, data);
      }
    }
  }

  lemma ConcatAssoc(a: string, b: string, c: string)
    ensures (a + b) + c == a + (b + c)
  {
  }

  /** Moving the first remaining segment onto the rendered prefix keeps the
      brace discipline on both sides. */
  lemma BracesInTokensShift(pre: seq<Segment>, rest: seq<Segment>)
    requires rest != [] && BracesInTokens(pre) && BracesInTokens(rest)
    ensures BracesInTokens(pre + [rest[0]]) && BracesInTokens(rest[1..]) && BraceInToken(rest[0])
  {
    assert rest[0] in rest;
    forall s' | s' in rest[1..] ensures s' in rest { }
    forall s' | s' in pre + [rest[0]] ensures s' in pre || s' == rest[0] { }
  }

  lemma RenderCons(seg: Segment, rest': seq<Segment>, key: string, value: string, data: map<string, string>)
    ensures Render([seg] + rest', key, value, data)
         == RenderSegment(seg, key, value, data) + Render(rest', key, value, data)
  {
    assert ([seg] + rest')[1..] == rest';
  }

  /** A passed-over character: the matches are those of the rest. */
  lemma SubstituteStepLit(rp: string, c: char, rest': seq<Segment>, key: string, value: string,
                          data: map<string, string>)
    ensures SubstituteTokens(rp + Concat([Lit(c)] + rest'), TokensOf([Lit(c)] + rest'), key, value, data)
         == SubstituteTokens(rp + [c] + Concat(rest'), TokensOf(rest'), key, value, data)
  {
    var rest := [Lit(c)] + rest';
    assert rest[1..] == rest';
    ConcatCons(Lit(c), rest');
    assert rp + Concat(rest) == rp + [c] + Concat(rest');
  }

  /** A match: its replacement lands on the token itself. */
  lemma SubstituteStepTok(rp: string, t: string, rest': seq<Segment>, pre: seq<Segment>, key: string,
                          value: string, data: map<string, string>)
    requires rp == Render(pre, key, value, data)
    requires BracesInTokens(pre) && IsToken(t) && PlainValues(value, data)
    ensures SubstituteTokens(rp + Concat([Tok(t)] + rest'), TokensOf([Tok(t)] + rest'), key, value, data)
         == SubstituteTokens(rp + Resolve(t, key, value, data) + Concat(rest'), TokensOf(rest'),
                             key, value, data)
  {
    var rest := [Tok(t)] + rest';
    assert rest[1..] == rest';
    ConcatCons(Tok(t), rest');
    assert TokensOf(rest) == [t] + TokensOf(rest');
    assert rp + Concat(rest) == rp + t + Concat(rest');
    SubstituteOneToken(rp, t, Concat(rest'), pre, key, value, data);
  }

  /** One segment of the source loop: the rendered prefix grows by the
      segment's rendering and the remaining matches are those of the rest. */
  lemma SubstituteStep(rp: string, seg: Segment, rest': seq<Segment>, pre: seq<Segment>, key: string,
                       value: string, data: map<string, string>)
    requires rp == Render(pre, key, value, data)
    requires BracesInTokens(pre) && BraceInToken(seg) && PlainValues(value, data)
    ensures SubstituteTokens(rp + Concat([seg] + rest'), TokensOf([seg] + rest'), key, value, data)
         == SubstituteTokens(rp + RenderSegment(seg, key, value, data) + Concat(rest'), TokensOf(rest'),
                             key, value, data)
    ensures Render([seg] + rest', key, value, data)
         == RenderSegment(seg, key, value, data) + Render(rest', key, value, data)
  {
    RenderCons(seg, rest', key, value, data);
    match seg
    case Lit(c) =>
      SubstituteStepLit(rp, c, rest', key, value, data);
    case Tok(t) =>
      SubstituteStepTok(rp, t, rest', pre, key, value, data);
  }

  /** When the substituted values contain no brace and every brace of the
      template belongs to a token, the source's sequence of first-occurrence
      replacements equals the in-place rendering of the template. */
  lemma ApplyTemplateInPlace(template: string, key: string, value: string, data: map<string, string>)
    requires PlainValues(value, data)
    requires BracesInTokens(Segments(template))
    ensures ApplyTemplate(template, key, value, data) == Render(Segments(template), key, value, data)
  {
    var segs := Segments(template);
    SegmentsSpell(template);
    assert Render([], key, value, data) == "";
    assert "" + template == template;
    SubstituteRest([], segs, key, value, data);
  }

  /** A `{` whose run of token characters is cut by another `{` (or a
      space) is passed over as a single character. */
  lemma ScanUnclosed(body: string, c: char, rest: string)
    requires forall k :: 0 <= k < |body| ==> IsTokenChar(body[k])
    requires c != '}' && !IsTokenChar(c)
    ensures Segments("{" + body + [c] + rest) == [Lit('{')] + Segments(body + [c] + rest)
  {
    var s := "{" + body + [c] + rest;
    assert s[1..] == body + ([c] + rest);
    BodyLengthOfBody(body, [c] + rest);
    assert s[1 + |body|] == c;
    assert s[1..] == body + [c] + rest;
  }

  /** For canonical segments whose braces all belong to tokens, the
      source's substitution of their text is their in-place rendering. */
  lemma ApplyTemplateOfSegments(segs: seq<Segment>, key: string, value: string, data: map<string, string>)
    requires BracesInTokens(segs) && PlainValues(value, data)
    ensures ApplyTemplate(Concat(segs), key, value, data) == Render(segs, key, value, data)
  {
    ScanConcat(segs);
    ApplyTemplateInPlace(Concat(segs), key, value, data);
  }

  /** Brace-free text as passed-over characters. */
  function Chars(s: string): seq<Segment> {
    if s == [] then [] else [Lit(s[0])] + Chars(s[1..])
  }

  lemma {:induction false} CharsFacts(s: string, key: string, value: string, data: map<string, string>)
    ensures BraceFree(s) ==> BracesInTokens(Chars(s))
    ensures Concat(Chars(s)) == s
    ensures Render(Chars(s), key, value, data) == s
  {
    if s != [] {
      CharsFacts(s[1..], key, value, data);
      assert Chars(s) == [Lit(s[0])] + Chars(s[1..]);
      assert Chars(s)[1..] == Chars(s[1..]);
      if BraceFree(s) {
        assert BraceFree(s[1..]);
        forall seg | seg in Chars(s) ensures BraceInToken(seg) {
          if seg != Lit(s[0]) { assert seg in Chars(s[1..]); }
        }
      }
    }
  }

  lemma {:induction false} RenderConcat(a: seq<Segment>, b: seq<Segment>, key: string, value: string,
                                        data: map<string, string>)
    ensures Render(a + b, key, value, data) == Render(a, key, value, data) + Render(b, key, value, data)
    ensures Concat(a + b) == Concat(a) + Concat(b)
  {
    if a == [] {
      assert a + b == b;
    } else {
      assert (a + b)[0] == a[0];
      assert (a + b)[1..] == a[1..] + b;
      RenderConcat(a[1..], b, key, value, data);
      var r0, c0 := RenderSegment(a[0], key, value, data), Show(a[0]);
      ConcatAssoc(r0, Render(a[1..], key, value, data), Render(b, key, value, data));
      ConcatAssoc(c0, Concat(a[1..]), Concat(b));
    }
  }

  /** A template with two tokens in brace-free text: each token is replaced
      by its resolution and the text around them is kept. */
  lemma TwoTokenTemplate(pre: string, t1: string, mid: string, t2: string, post: string,
                         key: string, value: string, data: map<string, string>)
    requires BraceFree(pre) && BraceFree(mid) && BraceFree(post) && IsToken(t1) && IsToken(t2)
    requires PlainValues(value, data)
    ensures ApplyTemplate(pre + t1 + mid + t2 + post, key, value, data)
         == pre + Resolve(t1, key, value, data) + mid + Resolve(t2, key, value, data) + post
  {
    var a, b, c := Chars(pre), Chars(mid), Chars(post);
    var segs := a + [Tok(t1)] + b + [Tok(t2)] + c;
    CharsFacts(pre, key, value, data);
    CharsFacts(mid, key, value, data);
    CharsFacts(post, key, value, data);
    assert BracesInTokens(segs) by {
      forall seg | seg in segs ensures BraceInToken(seg) {
        if seg in a {} else if seg in b {} else if seg in c {}
      }
    }
    RenderConcat(a + [Tok(t1)] + b + [Tok(t2)], c, key, value, data);
    RenderConcat(a + [Tok(t1)] + b, [Tok(t2)], key, value, data);
    RenderConcat(a + [Tok(t1)], b, key, value, data);
    RenderConcat(a, [Tok(t1)], key, value, data);
    assert Render([Tok(t1)], key, value, data) == Resolve(t1, key, value, data);
    assert Render([Tok(t2)], key, value, data) == Resolve(t2, key, value, data);
    assert Concat([Tok(t1)]) == t1 && Concat([Tok(t2)]) == t2;
    ApplyTemplateOfSegments(segs, key, value, data);
  }

  /** A template with one token in brace-free text. */
  lemma OneTokenTemplate(pre: string, t: string, post: string, key: string, value: string,
                         data: map<string, string>)
    requires BraceFree(pre) && BraceFree(post) && IsToken(t) && PlainValues(value, data)
    ensures ApplyTemplate(pre + t + post, key, value, data) == pre + Resolve(t, key, value, data) + post
  {
    var a, c := Chars(pre), Chars(post);
    var segs := a + [Tok(t)] + c;
    CharsFacts(pre, key, value, data);
    CharsFacts(post, key, value, data);
    assert BracesInTokens(segs) by {
      forall seg | seg in segs ensures BraceInToken(seg) {
        if seg in a {} else if seg in c {}
      }
    }
    RenderConcat(a + [Tok(t)], c, key, value, data);
    RenderConcat(a, [Tok(t)], key, value, data);
    assert Render([Tok(t)], key, value, data) == Resolve(t, key, value, data);
    assert Concat([Tok(t)]) == t;
    ApplyTemplateOfSegments(segs, key, value, data);
  }

  /** The pieces of the two examples below: brace-free text and tokens. */
  lemma ExamplePieces()
    ensures BraceFree("bg-") && BraceFree("-500") && BraceFree("-") && BraceFree("")
    ensures BraceFree("red") && BraceFree("blue")
    ensures IsToken("{color}") && IsToken("{size}")
  {
  }

  /** `OneTokenTemplate` for a template and a result given whole. */
  lemma OneTokenResult(template: string, pre: string, t: string, post: string, key: string, value: string,
                       data: map<string, string>, expected: string)
    requires template == pre + t + post && expected == pre + Resolve(t, key, value, data) + post
    requires BraceFree(pre) && BraceFree(post) && IsToken(t) && PlainValues(value, data)
    ensures ApplyTemplate(template, key, value, data) == expected
  {
    OneTokenTemplate(pre, t, post, key, value, data);
  }

  /** `TwoTokenTemplate` for a template and a result given whole. */
  lemma TwoTokenResult(template: string, pre: string, t1: string, mid: string, t2: string, post: string,
                       key: string, value: string, data: map<string, string>, expected: string)
    requires template == pre + t1 + mid + t2 + post
    requires expected == pre + Resolve(t1, key, value, data) + mid + Resolve(t2, key, value, data) + post
    requires BraceFree(pre) && BraceFree(mid) && BraceFree(post) && IsToken(t1) && IsToken(t2)
    requires PlainValues(value, data)
    ensures ApplyTemplate(template, key, value, data) == expected
  {
    TwoTokenTemplate(pre, t1, mid, t2, post, key, value, data);
  }

  /** `bg-{color}-500` with `{color}` set to `red` gives `bg-red-500`. */
  lemma ColorTemplateExample(template: string, key: string, data: map<string, string>)
    requires template == "bg-{color}-500" && key == "{color}" && data == map[key := "blue"]
    ensures ApplyTemplate(template, key, "red", data) == "bg-red-500"
  {
    ExamplePieces();
    assert PlainValues("red", data);
    OneTokenResult(template, "bg-", "{color}", "-500", key, "red", data, "bg-red-500");
  }

  /** An unbound `{size}` next to the set `{color}` stays as written. */
  lemma UnboundTokenExample(template: string, key: string, data: map<string, string>)
    requires template == "{size}-{color}" && key == "{color}" && data == map[key := "blue"]
    ensures ApplyTemplate(template, key, "red", data) == "{size}-red"
  {
    ExamplePieces();
    assert PlainValues("red", data);
    TwoTokenResult(template, "", "{size}", "-", "{color}", "", key, "red", data, "{size}-red");
  }

  /** A template `{p` + key + `q}-` + tok, where the key and tok are
      tokens and p, q token characters: its first `{` is not closed before
      the key's `{`, so it is passed over like the `}` after q. */
  function QuirkTemplate(p: char, key: string, q: char, tok: string): string {
    ['{', p] + key + [q, '}', '-'] + tok
  }

  function QuirkSegs(p: char, key: string, q: char, tok: string): seq<Segment> {
    [Lit('{'), Lit(p), Tok(key), Lit(q), Lit('}'), Lit('-'), Tok(tok)]
  }

  lemma QuirkSegments(p: char, key: string, q: char, tok: string)
    requires IsTokenChar(p) && IsTokenChar(q) && IsToken(key) && IsToken(tok)
    ensures Segments(QuirkTemplate(p, key, q, tok)) == QuirkSegs(p, key, q, tok)
  {
    var tail := QuirkSegs(p, key, q, tok)[1..];
    QuirkTail(p, key, q, tok);
    var rest := key[1..] + [q, '}', '-'] + tok;
    QuirkRegroup(p, key, q, tok);
    ScanUnclosed([p], '{', rest);
    assert QuirkSegs(p, key, q, tok) == [Lit('{')] + tail;
  }

  lemma QuirkRegroup(p: char, key: string, q: char, tok: string)
    requires key != [] && key[0] == '{'
    ensures "{" + [p] + ['{'] + (key[1..] + [q, '}', '-'] + tok) == QuirkTemplate(p, key, q, tok)
    ensures [p] + ['{'] + (key[1..] + [q, '}', '-'] + tok) == [p] + key + [q, '}', '-'] + tok
  {
    assert key == ['{'] + key[1..];
  }

  lemma QuirkTail(p: char, key: string, q: char, tok: string)
    requires IsTokenChar(p) && IsTokenChar(q) && IsToken(key) && IsToken(tok)
    ensures var tail := QuirkSegs(p, key, q, tok)[1..];
      Concat(tail) == [p] + key + [q, '}', '-'] + tok && Segments(Concat(tail)) == tail
  {
    var tail := QuirkSegs(p, key, q, tok)[1..];
    assert Canonical(tail) by {
      forall seg | seg in tail ensures (seg.Lit? ==> seg.c != '{') && (seg.Tok? ==> IsToken(seg.text)) {
      }
    }
    ScanConcat(tail);
    QuirkTailText(p, key, q, tok);
  }

  lemma QuirkTailText(p: char, key: string, q: char, tok: string)
    ensures Concat(QuirkSegs(p, key, q, tok)[1..]) == [p] + key + [q, '}', '-'] + tok
  {
    var tail := QuirkSegs(p, key, q, tok)[1..];
    assert Concat(tail[5..]) == tok by { assert tail[5..][1..] == []; }
    assert Concat(tail[4..]) == ['-'] + tok by { assert tail[4..][1..] == tail[5..]; }
    assert Concat(tail[3..]) == ['}', '-'] + tok by { assert tail[3..][1..] == tail[4..]; }
    assert Concat(tail[2..]) == [q, '}', '-'] + tok by { assert tail[2..][1..] == tail[3..]; }
    assert Concat(tail[1..]) == key + [q, '}', '-'] + tok by { assert tail[1..][1..] == tail[2..]; }
    assert Concat(tail) == [p] + (key + [q, '}', '-'] + tok);
  }

  /** The tokens of the quirk template, in order. */
  lemma QuirkTokens(p: char, key: string, q: char, tok: string)
    requires IsTokenChar(p) && IsTokenChar(q) && IsToken(key) && IsToken(tok)
    ensures Tokens(QuirkTemplate(p, key, q, tok)) == [key, tok]
  {
    QuirkSegments(p, key, q, tok);
    var segs := QuirkSegs(p, key, q, tok);
    assert TokensOf(segs[6..]) == [tok] by { assert segs[6..][1..] == []; }
    assert TokensOf(segs[5..]) == [tok] by { assert segs[5..][1..] == segs[6..]; }
    assert TokensOf(segs[4..]) == [tok] by { assert segs[4..][1..] == segs[5..]; }
    assert TokensOf(segs[3..]) == [tok] by { assert segs[3..][1..] == segs[4..]; }
    assert TokensOf(segs[2..]) == [key, tok] by { assert segs[2..][1..] == segs[3..]; }
    assert TokensOf(segs[1..]) == [key, tok] by { assert segs[1..][1..] == segs[2..]; }
  }

  /** The replacements work on the string as rewritten so far, so a value
      can complete a brace pair around it and the next replacement then
      hits that new, earlier copy of a token: in `{p{k}q}-{pvq}`, setting
      `{k}` to `v` while `{pvq}` holds `d` yields `d-{pvq}`, where the
      in-place rendering of the segments is `{pvq}-d`. The template's
      stray braces are what the precondition of `ApplyTemplateInPlace`
      excludes. */
  lemma ReplacementHitsEarlierCopy(p: char, key: string, q: char, value: string, data: map<string, string>)
    requires IsTokenChar(p) && IsTokenChar(q) && IsToken(key)
    requires var tok := ['{', p] + value + [q, '}']; IsToken(tok) && tok != key && tok in data
    ensures var tok := ['{', p] + value + [q, '}'];
      ApplyTemplate(QuirkTemplate(p, key, q, tok), key, value, data) == data[tok] + ['-'] + tok
    ensures var tok := ['{', p] + value + [q, '}'];
      Render(Segments(QuirkTemplate(p, key, q, tok)), key, value, data) == tok + ['-'] + data[tok]
  {
    var tok := ['{', p] + value + [q, '}'];
    QuirkTokens(p, key, q, tok);
    QuirkReplacements(p, key, q, value, data);
    QuirkSegments(p, key, q, tok);
    QuirkRender(p, key, q, value, data);
  }

  lemma QuirkReplacements(p: char, key: string, q: char, value: string, data: map<string, string>)
    requires IsTokenChar(p) && IsToken(key)
    requires var tok := ['{', p] + value + [q, '}']; tok != key && tok in data
    ensures var tok := ['{', p] + value + [q, '}'];
      SubstituteTokens(QuirkTemplate(p, key, q, tok), [key, tok], key, value, data) == data[tok] + ['-'] + tok
  {
    var tok := ['{', p] + value + [q, '}'];
    QuirkFirstReplacement(p, key, q, value);
    QuirkSecondReplacement(tok, data[tok]);
    var found := [key, tok];
    var template := QuirkTemplate(p, key, q, tok);
    var mid := tok + ['-'] + tok;
    assert found[1..] == [tok] && found[1..][1..] == [];
    assert SubstituteTokens(mid, [tok], key, value, data) == SubstituteTokens(data[tok] + ['-'] + tok, [], key, value, data);
    assert SubstituteTokens(template, found, key, value, data) == SubstituteTokens(mid, [tok], key, value, data);
  }

  /** Replacing the key puts `{pvq}` in front of the template's own copy. */
  lemma QuirkFirstReplacement(p: char, key: string, q: char, value: string)
    requires IsTokenChar(p) && IsToken(key)
    ensures var tok := ['{', p] + value + [q, '}'];
      ReplaceFirst(QuirkTemplate(p, key, q, tok), key, value) == tok + ['-'] + tok
  {
    var tok := ['{', p] + value + [q, '}'];
    var post := [q, '}', '-'] + tok;
    var template := QuirkTemplate(p, key, q, tok);
    assert template == ['{', p] + key + post;
    forall j | 0 <= j < 2 ensures !OccursAt(template, key, j) {
      if j == 1 {
        assert template[1] == p;
      } else if |key| == 2 {
        assert template[1] == p && key[1] == '}';
      } else {
        assert template[2] == '{' && (IsTokenChar(key[2]) || key[2] == '}');
      }
    }
    ReplaceFirstAt(['{', p], key, post, value);
    assert ['{', p] + value + post == tok + ['-'] + tok;
  }

  /** The second replacement finds the new copy first. */
  lemma QuirkSecondReplacement(tok: string, d: string)
    ensures ReplaceFirst(tok + ['-'] + tok, tok, d) == d + ['-'] + tok
  {
    ReplaceFirstAt([], tok, ['-'] + tok, d);
    assert [] + tok + (['-'] + tok) == tok + ['-'] + tok;
    assert [] + d + (['-'] + tok) == d + ['-'] + tok;
  }

  lemma QuirkRender(p: char, key: string, q: char, value: string, data: map<string, string>)
    requires var tok := ['{', p] + value + [q, '}']; tok != key && tok in data
    ensures var tok := ['{', p] + value + [q, '}'];
      Render(QuirkSegs(p, key, q, tok), key, value, data) == tok + ['-'] + data[tok]
  {
    var tok := ['{', p] + value + [q, '}'];
    var segs, d := QuirkSegs(p, key, q, tok), data[tok];
    assert Render(segs[6..], key, value, data) == d by { assert segs[6..][1..] == []; }
    assert Render(segs[5..], key, value, data) == ['-'] + d by { assert segs[5..][1..] == segs[6..]; }
    assert Render(segs[4..], key, value, data) == ['}', '-'] + d by { assert segs[4..][1..] == segs[5..]; }
    assert Render(segs[3..], key, value, data) == [q, '}', '-'] + d by { assert segs[3..][1..] == segs[4..]; }
    assert Render(segs[2..], key, value, data) == value + [q, '}', '-'] + d by { assert segs[2..][1..] == segs[3..]; }
    assert Render(segs[1..], key, value, data) == [p] + value + [q, '}', '-'] + d by { assert segs[1..][1..] == segs[2..]; }
    assert ['{'] + ([p] + value + [q, '}', '-'] + d) == tok + ['-'] + d;
  }
}

=== FILE: unique.dfy ===
/** Fresh identifiers and the `#unique` pass (public/library/h12.js:422-435):
    every element under the root that carries the unique attribute is
    recorded in a store under the attribute's value, and the attribute is
    rewritten to "x" followed by a fresh identifier. */
module Unique {
  import opened Wrappers
  import opened Dom

  /** The base-36 digit of `k`: 0-9 then a-z, as `Number.toString(36)`
      writes them. */
  function DigitChar(k: nat): (c: char)
    requires k < 36
    ensures DigitValue(c) == k
  {
    if k < 10 then ('0' as int + k) as char else ('a' as int + k - 10) as char
  }

  /** The value of a base-36 digit; -1 for any other character. */
  function DigitValue(c: char): int {
    if '0' <= c <= '9' then c as int - '0' as int
    else if 'a' <= c <= 'z' then c as int - 'a' as int + 10
    else -1
  }

  /** `n` written in base 36, most significant digit first, without leading
      zeros. */
  function Base36(n: nat): (r: string)
    ensures |r| >= 1 && forall i :: 0 <= i < |r| ==> 0 <= DigitValue(r[i]) < 36
    ensures n >= 36 <==> |r| >= 2
  {
    if n < 36 then [DigitChar(n)] else Base36(n / 36) + [DigitChar(n % 36)]
  }

  /** The number a string of base-36 digits denotes. */
  function Decode36(s: string): int {
    if s == [] then 0 else Decode36(s[..|s| - 1]) * 36 + DigitValue(s[|s| - 1])
  }

  /** Reading back a base-36 numeral gives the number written. */
  lemma {:induction false} Base36RoundTrip(n: nat)
    ensures Decode36(Base36(n)) == n
  {
    var r := Base36(n);
    if n < 36 {
      assert r[..0] == [];
    } else {
      Base36RoundTrip(n / 36);
      assert r[..|r| - 1] == Base36(n / 36);
    }
  }

  /** `H12.raid()`: the n-th identifier of the supply. The source draws it
      from `Math.random`; here the supply is a counter written in base 36,
      so that distinct draws give distinct identifiers. */
  function Raid(n: nat): string {
    Base36(n)
  }

  /** Two draws give the same identifier exactly when they are the same
      draw. */
  lemma RaidInjective(m: nat, n: nat)
    ensures Raid(m) == Raid(n) <==> m == n
  {
    if Raid(m) == Raid(n) {
      Base36RoundTrip(m);
      Base36RoundTrip(n);
    }
  }

  /** The value the pass writes into the unique attribute. */
  function FreshId(n: nat): string {
    "x" + Raid(n)
  }

  lemma FreshIdInjective(m: nat, n: nat)
    ensures FreshId(m) == FreshId(n) <==> m == n
  {
    if FreshId(m) == FreshId(n) {
      assert FreshId(m)[1..] == Raid(m);
      assert FreshId(n)[1..] == Raid(n);
      RaidInjective(m, n);
    }
  }

  /** The nodes strictly below `x` in document order (pre-order), with the
      depth bounded by `fuel`. */
  function Below(d: Document, x: NodeId, fuel: nat): seq<NodeId>
    decreases fuel, 0
  {
    if fuel == 0 then [] else BelowAll(d, ChildrenOf(d, x), fuel - 1)
  }

  /** Each node of `xs` followed by the nodes below it, in order. */
  function BelowAll(d: Document, xs: seq<NodeId>, fuel: nat): seq<NodeId>
    decreases fuel, 1, |xs|
  {
    if xs == [] then [] else [xs[0]] + Below(d, xs[0], fuel) + BelowAll(d, xs[1..], fuel)
  }

  /** `x` is an element carrying the attribute `name`. */
  predicate HasAttr(d: Document, x: NodeId, name: string) {
    IsElement(d, x) && name in d.nodes[x].attrs
  }

  /** The nodes of `xs` that carry the attribute, in order. */
  function Carrying(d: Document, xs: seq<NodeId>, name: string): (r: seq<NodeId>)
    ensures forall x :: x in r <==> x in xs && HasAttr(d, x, name)
  {
    if xs == [] then []
    else (if HasAttr(d, xs[0], name) then [xs[0]] else []) + Carrying(d, xs[1..], name)
  }

  /** `root.querySelectorAll("[name]")`: the elements below the root that
      carry the attribute, in document order. A tree is never deeper than
      its number of nodes, so that bound is the depth. */
  function Select(d: Document, root: NodeId, name: string): (r: seq<NodeId>)
    ensures forall x :: x in r <==> x in Below(d, root, |d.nodes|) && HasAttr(d, x, name)
  {
    Carrying(d, Below(d, root, |d.nodes|), name)
  }

  /** The state the pass works on: the document, the store of unique
      elements and the identifier supply. */
  datatype Pass = Pass(doc: Document, store: map<string, NodeId>, supply: nat)

  /** The loop of `#unique` over the selected elements: each is stored
      under its current attribute value, then the attribute is rewritten. */
  function Rewrite(p: Pass, xs: seq<NodeId>, name: string): Pass
    requires forall i :: 0 <= i < |xs| ==> HasAttr(p.doc, xs[i], name)
    decreases |xs|
  {
    if xs == [] then p
    else
      assert HasAttr(p.doc, xs[0], name);
      RewriteStep(p, xs, name);
      Rewrite(Next(p, xs[0], name), xs[1..], name)
  }

  /** One pass of the loop: `x` is stored under its current value, its
      attribute takes the next fresh identifier. */
  function Next(p: Pass, x: NodeId, name: string): Pass
    requires HasAttr(p.doc, x, name)
  {
    Pass(SetAttr(p.doc, x, name, FreshId(p.supply)), p.store[p.doc.nodes[x].attrs[name] := x], p.supply + 1)
  }

  /** `#unique(name, store)` on the tree under `root`. */
  function UniquePass(p: Pass, root: NodeId, name: string): Pass {
    var xs := Select(p.doc, root, name);
    Rewrite(p, xs, name)
  }

  /** The attribute values the selected elements had before the pass. */
  function Originals(d: Document, xs: seq<NodeId>, name: string): (r: seq<string>)
    requires forall i :: 0 <= i < |xs| ==> HasAttr(d, xs[i], name)
    ensures |r| == |xs|
    ensures forall i :: 0 <= i < |xs| ==> HasAttr(d, xs[i], name) && r[i] == d.nodes[xs[i]].attrs[name]
  {
    seq(|xs|, i requires 0 <= i < |xs| && HasAttr(d, xs[i], name) => d.nodes[xs[i]].attrs[name])
  }

  predicate Distinct(xs: seq<NodeId>) {
    forall i, j :: 0 <= i < j < |xs| ==> xs[i] != xs[j]
  }

  /** Rewriting one selected element changes nothing but that element's
      attribute, and every other selected element still carries it. */
  lemma RewriteStep(p: Pass, xs: seq<NodeId>, name: string)
    requires xs != [] && forall i :: 0 <= i < |xs| ==> HasAttr(p.doc, xs[i], name)
    ensures var d1 := SetAttr(p.doc, xs[0], name, FreshId(p.supply));
      && d1.nodes.Keys == p.doc.nodes.Keys && d1.next == p.doc.next && d1.listeners == p.doc.listeners
      && (forall y :: y in p.doc.nodes && y != xs[0] ==> d1.nodes[y] == p.doc.nodes[y])
      && (forall y :: y in p.doc.nodes ==> Shape(d1.nodes[y]).Elem? == p.doc.nodes[y].Elem?)
      && (forall y :: y in p.doc.nodes ==> Kids(d1.nodes[y]) == Kids(p.doc.nodes[y]))
      && (forall n :: n != name ==> GetAttr(d1, xs[0], n) == GetAttr(p.doc, xs[0], n))
      && GetAttr(d1, xs[0], name) == Some(FreshId(p.supply))
      && (forall i :: 0 <= i < |xs[1..]| ==> HasAttr(d1, xs[1..][i], name))
  {
    var d1 := SetAttr(p.doc, xs[0], name, FreshId(p.supply));
    forall i | 0 <= i < |xs[1..]| ensures HasAttr(d1, xs[1..][i], name) {
      assert xs[1..][i] == xs[i + 1];
    }
  }

  /** The pass keeps the document valid, keeps every node's kind and
      children, touches no node outside the selection, keeps every
      attribute other than `name`, and draws one identifier per element. */
  lemma {:induction false} RewriteFrame(p: Pass, xs: seq<NodeId>, name: string)
    requires forall i :: 0 <= i < |xs| ==> HasAttr(p.doc, xs[i], name)
    ensures var r := Rewrite(p, xs, name);
      && r.supply == p.supply + |xs|
      && r.doc.nodes.Keys == p.doc.nodes.Keys && r.doc.next == p.doc.next
      && r.doc.listeners == p.doc.listeners
      && (Valid(p.doc) ==> Valid(r.doc))
      && (forall y :: y in p.doc.nodes && y !in xs ==> r.doc.nodes[y] == p.doc.nodes[y])
      && (forall y :: y in p.doc.nodes ==> Kids(r.doc.nodes[y]) == Kids(p.doc.nodes[y]))
      && (forall y :: y in p.doc.nodes ==> r.doc.nodes[y].Elem? == p.doc.nodes[y].Elem?)
      && (forall y, n :: n != name ==> GetAttr(r.doc, y, n) == GetAttr(p.doc, y, n))
    decreases |xs|
  {
    if xs != [] {
      RewriteStep(p, xs, name);
      var x := xs[0];
      var p1 := Next(p, x, name);
      var d1 := p1.doc;
      RewriteFrame(p1, xs[1..], name);
      var r := Rewrite(p, xs, name);
      assert r == Rewrite(p1, xs[1..], name);
      forall y | y in p.doc.nodes && y !in xs ensures r.doc.nodes[y] == p.doc.nodes[y] {
        assert y != x && y !in xs[1..];
      }
      forall y, n | n != name ensures GetAttr(r.doc, y, n) == GetAttr(p.doc, y, n) {
        if y != x {
          assert GetAttr(d1, y, n) == GetAttr(p.doc, y, n);
        }
      }
    }
  }

  /** With no element selected twice, the i-th selected element ends up
      carrying the i-th fresh identifier. */
  lemma {:induction false} RewriteIds(p: Pass, xs: seq<NodeId>, name: string, i: nat)
    requires forall k :: 0 <= k < |xs| ==> HasAttr(p.doc, xs[k], name)
    requires Distinct(xs) && i < |xs|
    ensures GetAttr(Rewrite(p, xs, name).doc, xs[i], name) == Some(FreshId(p.supply + i))
    decreases |xs|
  {
    RewriteStep(p, xs, name);
    var x := xs[0];
    var p1 := Next(p, x, name);
    var d1 := p1.doc;
    assert Rewrite(p, xs, name) == Rewrite(p1, xs[1..], name);
    if i == 0 {
      RewriteFrame(p1, xs[1..], name);
      assert x !in xs[1..] by {
        forall k | 0 <= k < |xs[1..]| ensures xs[1..][k] != x {
          assert xs[1..][k] == xs[k + 1];
        }
      }
      assert Rewrite(p1, xs[1..], name).doc.nodes[x] == d1.nodes[x];
    } else {
      assert xs[1..][i - 1] == xs[i];
      forall a, b | 0 <= a < b < |xs[1..]| ensures xs[1..][a] != xs[1..][b] {
        assert xs[1..][a] == xs[a + 1] && xs[1..][b] == xs[b + 1];
      }
      RewriteIds(p1, xs[1..], name, i - 1);
    }
  }

  /** The i-th selected element is the last one whose original value is
      `k`. */
  predicate LastWith(orig: seq<string>, i: int, k: string) {
    0 <= i < |orig| && orig[i] == k && forall j :: i < j < |orig| ==> orig[j] != k
  }

  /** The first pass of the loop, seen from the store: the rest of the
      loop starts from `Next`, and the remaining values are those the rest
      of the selection carried before. */
  lemma StoreStep(p: Pass, xs: seq<NodeId>, name: string)
    requires xs != [] && Distinct(xs) && forall i :: 0 <= i < |xs| ==> HasAttr(p.doc, xs[i], name)
    ensures var p1 := Next(p, xs[0], name);
      && (forall i :: 0 <= i < |xs[1..]| ==> HasAttr(p1.doc, xs[1..][i], name))
      && Distinct(xs[1..])
      && p1.store == p.store[p.doc.nodes[xs[0]].attrs[name] := xs[0]]
      && Rewrite(p, xs, name) == Rewrite(p1, xs[1..], name)
      && Originals(p.doc, xs, name) == [p.doc.nodes[xs[0]].attrs[name]] + Originals(p1.doc, xs[1..], name)
  {
    OriginalsStep(p.doc, xs, name, FreshId(p.supply));
    DistinctTail(xs);
  }

  lemma DistinctTail(xs: seq<NodeId>)
    requires xs != [] && Distinct(xs)
    ensures Distinct(xs[1..])
  {
    forall a, b | 0 <= a < b < |xs[1..]| ensures xs[1..][a] != xs[1..][b] {
      assert xs[1..][a] == xs[a + 1] && xs[1..][b] == xs[b + 1];
    }
  }

  /** After the pass the store holds its old keys and every value the
      selected elements carried. */
  lemma {:induction false} RewriteStoreKeys(p: Pass, xs: seq<NodeId>, name: string)
    requires forall i :: 0 <= i < |xs| ==> HasAttr(p.doc, xs[i], name)
    requires Distinct(xs)
    ensures Rewrite(p, xs, name).store.Keys == p.store.Keys + (set k | k in Originals(p.doc, xs, name))
    decreases |xs|
  {
    if xs != [] {
      StoreStep(p, xs, name);
      var p1 := Next(p, xs[0], name);
      RewriteStoreKeys(p1, xs[1..], name);
      var orig1 := Originals(p1.doc, xs[1..], name);
      SetOfCons(p.doc.nodes[xs[0]].attrs[name], orig1);
    }
  }

  lemma SetOfCons(k0: string, s: seq<string>)
    ensures (set k | k in [k0] + s) == {k0} + (set k | k in s)
  {
  }

  /** Every value the selected elements carried maps to the last element
      that carried it. */
  lemma {:induction false} RewriteStoreLast(p: Pass, xs: seq<NodeId>, name: string)
    requires forall i :: 0 <= i < |xs| ==> HasAttr(p.doc, xs[i], name)
    requires Distinct(xs)
    ensures var orig := Originals(p.doc, xs, name);
      forall i :: 0 <= i < |orig| && LastWith(orig, i, orig[i]) ==>
        orig[i] in Rewrite(p, xs, name).store && Rewrite(p, xs, name).store[orig[i]] == xs[i]
    decreases |xs|
  {
    if xs != [] {
      StoreStep(p, xs, name);
      var p1 := Next(p, xs[0], name);
      RewriteStoreLast(p1, xs[1..], name);
      var r := Rewrite(p, xs, name);
      var orig := Originals(p.doc, xs, name);
      var orig1 := Originals(p1.doc, xs[1..], name);
      var k0 := orig[0];
      forall i | 0 <= i < |orig| && LastWith(orig, i, orig[i]) ensures orig[i] in r.store && r.store[orig[i]] == xs[i] {
        if i == 0 {
          LastHead(k0, orig1);
          RewriteStoreKeeps(p1, xs[1..], name, k0);
        } else {
          LastTail(k0, orig1, i);
          assert xs[1..][i - 1] == xs[i];
        }
      }
    }
  }

  lemma LastHead(k0: string, s: seq<string>)
    requires LastWith([k0] + s, 0, k0)
    ensures k0 !in s
  {
    forall j | 0 <= j < |s| ensures s[j] != k0 {
      assert ([k0] + s)[j + 1] == s[j];
    }
  }

  lemma LastTail(k0: string, s: seq<string>, i: int)
    requires 0 < i <= |s| && LastWith([k0] + s, i, ([k0] + s)[i])
    ensures ([k0] + s)[i] == s[i - 1] && LastWith(s, i - 1, s[i - 1])
  {
    forall j | i - 1 < j < |s| ensures s[j] != s[i - 1] {
      assert ([k0] + s)[j + 1] == s[j];
    }
  }

  /** A store entry whose key no selected element carried is kept. */
  lemma {:induction false} RewriteStoreKeeps(p: Pass, xs: seq<NodeId>, name: string, k: string)
    requires forall i :: 0 <= i < |xs| ==> HasAttr(p.doc, xs[i], name)
    requires Distinct(xs) && k in p.store && k !in Originals(p.doc, xs, name)
    ensures k in Rewrite(p, xs, name).store && Rewrite(p, xs, name).store[k] == p.store[k]
    decreases |xs|
  {
    if xs != [] {
      StoreStep(p, xs, name);
      var p1 := Next(p, xs[0], name);
      var orig := Originals(p.doc, xs, name);
      assert k != orig[0];
      RewriteStoreKeeps(p1, xs[1..], name, k);
    }
  }

  /** Rewriting the first element of a selection without repeats leaves
      the values the other elements carry as they were. */
  lemma OriginalsStep(d: Document, xs: seq<NodeId>, name: string, v: string)
    requires xs != [] && Distinct(xs) && forall i :: 0 <= i < |xs| ==> HasAttr(d, xs[i], name)
    ensures var d1 := SetAttr(d, xs[0], name, v);
      && (forall i :: 0 <= i < |xs[1..]| ==> HasAttr(d1, xs[1..][i], name))
      && Originals(d1, xs[1..], name) == Originals(d, xs, name)[1..]
  {
    var d1 := SetAttr(d, xs[0], name, v);
    forall i | 0 <= i < |xs[1..]| ensures HasAttr(d1, xs[1..][i], name) && d1.nodes[xs[1..][i]] == d.nodes[xs[1..][i]] {
      assert xs[1..][i] == xs[i + 1] && xs[i + 1] != xs[0];
    }
  }

  /** Every selected element carries the attribute. */
  lemma SelectCarries(d: Document, root: NodeId, name: string)
    ensures var xs := Select(d, root, name);
      forall i :: 0 <= i < |xs| ==> HasAttr(d, xs[i], name)
  {
    var xs := Select(d, root, name);
    forall i | 0 <= i < |xs| ensures HasAttr(d, xs[i], name) {
      assert xs[i] in xs;
    }
  }

  /** `#unique` leaves every node outside the selection, every child list
      and every other attribute alone, and keeps the document valid. */
  lemma UniquePassFrame(p: Pass, root: NodeId, name: string)
    ensures var xs := Select(p.doc, root, name);
      var r := UniquePass(p, root, name);
      && r.supply == p.supply + |xs|
      && r.doc.nodes.Keys == p.doc.nodes.Keys && r.doc.next == p.doc.next && r.doc.listeners == p.doc.listeners
      && (forall y :: y in p.doc.nodes && y !in xs ==> r.doc.nodes[y] == p.doc.nodes[y])
      && (forall y :: y in p.doc.nodes ==> Kids(r.doc.nodes[y]) == Kids(p.doc.nodes[y]))
      && (forall y :: y in p.doc.nodes ==> r.doc.nodes[y].Elem? == p.doc.nodes[y].Elem?)
      && (forall y, n :: n != name ==> GetAttr(r.doc, y, n) == GetAttr(p.doc, y, n))
      && (Valid(p.doc) ==> Valid(r.doc))
  {
    SelectCarries(p.doc, root, name);
    RewriteFrame(p, Select(p.doc, root, name), name);
  }

  /** `#unique` gives the selected elements, in document order, the next
      fresh identifiers, so no two of them share one afterwards. Selected
      elements are distinct, as in a tree. */
  lemma UniquePassIds(p: Pass, root: NodeId, name: string)
    requires Distinct(Select(p.doc, root, name))
    ensures var xs := Select(p.doc, root, name);
      var r := UniquePass(p, root, name);
      forall i :: 0 <= i < |xs| ==> GetAttr(r.doc, xs[i], name) == Some(FreshId(p.supply + i))
  {
    var xs := Select(p.doc, root, name);
    SelectCarries(p.doc, root, name);
    forall i | 0 <= i < |xs| ensures GetAttr(UniquePass(p, root, name).doc, xs[i], name) == Some(FreshId(p.supply + i)) {
      RewriteIds(p, xs, name, i);
    }
  }

  /** The values the draws from `lo` up to `hi` give. */
  function Drawn(lo: nat, hi: nat): set<string> {
    set k: nat | lo <= k < hi :: FreshId(k)
  }

  /** Draws from disjoint stretches of the supply give disjoint values. */
  lemma DrawnDisjoint(lo1: nat, hi1: nat, lo2: nat, hi2: nat)
    requires hi1 <= lo2
    ensures Drawn(lo1, hi1) !! Drawn(lo2, hi2)
  {
    forall v | v in Drawn(lo1, hi1) ensures v !in Drawn(lo2, hi2) {
      var k: nat :| lo1 <= k < hi1 && v == FreshId(k);
      if v in Drawn(lo2, hi2) {
        var j: nat :| lo2 <= j < hi2 && v == FreshId(j);
        FreshIdInjective(k, j);
      }
    }
  }

  /** Every value `#unique` writes is drawn from the stretch of the supply
      the pass consumed. */
  lemma UniquePassDrawn(p: Pass, root: NodeId, name: string)
    requires Distinct(Select(p.doc, root, name))
    ensures var xs := Select(p.doc, root, name);
      var r := UniquePass(p, root, name);
      forall i :: 0 <= i < |xs| ==>
        GetAttr(r.doc, xs[i], name).Some? && GetAttr(r.doc, xs[i], name).value in Drawn(p.supply, r.supply)
  {
    var xs := Select(p.doc, root, name);
    var r := UniquePass(p, root, name);
    UniquePassIds(p, root, name);
    UniquePassFrame(p, root, name);
    forall i | 0 <= i < |xs|
      ensures GetAttr(r.doc, xs[i], name).Some? && GetAttr(r.doc, xs[i], name).value in Drawn(p.supply, r.supply)
    {
      var k: nat := p.supply + i;
      assert FreshId(k) in Drawn(p.supply, r.supply);
    }
  }

  /** No two selected elements end up with the same value. */
  lemma UniquePassDistinct(p: Pass, root: NodeId, name: string)
    requires Distinct(Select(p.doc, root, name))
    ensures var xs := Select(p.doc, root, name);
      var r := UniquePass(p, root, name);
      forall i, j :: 0 <= i < j < |xs| ==> GetAttr(r.doc, xs[i], name) != GetAttr(r.doc, xs[j], name)
  {
    var xs := Select(p.doc, root, name);
    UniquePassIds(p, root, name);
    forall i, j | 0 <= i < j < |xs|
      ensures GetAttr(UniquePass(p, root, name).doc, xs[i], name) != GetAttr(UniquePass(p, root, name).doc, xs[j], name)
    {
      FreshIdInjective(p.supply + i, p.supply + j);
    }
  }

  /** After `#unique` the store maps each value a selected element carried
      to the last selected element carrying it, and keeps its other
      entries. */
  lemma UniquePassStore(p: Pass, root: NodeId, name: string)
    requires Distinct(Select(p.doc, root, name))
    ensures var xs := Select(p.doc, root, name);
      var r := UniquePass(p, root, name);
      var orig := Originals(p.doc, xs, name);
      && r.store.Keys == p.store.Keys + (set k | k in orig)
      && (forall i :: 0 <= i < |orig| && LastWith(orig, i, orig[i]) ==> r.store[orig[i]] == xs[i])
      && (forall k :: k in p.store && k !in orig ==> r.store[k] == p.store[k])
  {
    var xs := Select(p.doc, root, name);
    SelectCarries(p.doc, root, name);
    RewriteStoreKeys(p, xs, name);
    RewriteStoreLast(p, xs, name);
    var orig := Originals(p.doc, xs, name);
    forall k | k in p.store && k !in orig ensures UniquePass(p, root, name).store[k] == p.store[k] {
      RewriteStoreKeeps(p, xs, name, k);
    }
  }
}

=== FILE: update.dfy ===
/** The update engine: `set(key, value)` (public/library/h12.js:315-397)
    rewrites every place the key occurs in, according to the kind of the
    occurrence, the kind of the value and the accumulation marker. */
module Update {
  import opened Wrappers
  import opened Marker
  import opened Template
  import opened Dom
  import opened Binding

  /** A value passed to `set`, by its JavaScript type. A number keeps the
      text `String(n)` gives it; a callable keeps the text of what it
      returns when called with no arguments. */
  datatype Value =
    | Str(s: string)
    | Num(repr: string)
    | Bool(b: bool)
    | Func(result: string)
    | ElemVal(id: NodeId)
    | Undefined
    | Obj

  /** `typeof value`; an element, an array, `null` and plain objects are all
      "object". */
  function TypeOf(v: Value): string {
    match v
    case Str(_) => "string"
    case Num(_) => "number"
    case Bool(_) => "boolean"
    case Func(_) => "function"
    case Undefined => "undefined"
    case _ => "object"
  }

  const ValidTypes: seq<string> := ["string", "number", "boolean", "function"]

  /** `#isValidType`: the value can be written as text. */
  function IsValidType(v: Value): (r: bool)
    ensures r <==> v.Str? || v.Num? || v.Bool? || v.Func?
  {
    TypeOf(v) in ValidTypes
  }

  /** The text a valid value is written as (`fValue` converted to a string). */
  function TextOf(v: Value): string {
    match v
    case Str(s) => s
    case Num(repr) => repr
    case Bool(b) => if b then "true" else "false"
    case Func(result) => result
    case _ => ""
  }

  /** The text of a text node after an update in the given mode. */
  function Combine(mode: Mode, value: string, current: string): string {
    match mode
    case Replace => value
    case Prepend => value + current
    case Append => current + value
  }

  /** The text of `x` (its `nodeValue`), "" for anything but a text node. */
  function Content(d: Document, x: NodeId): string {
    if IsText(d, x) then d.nodes[x].content else ""
  }

  /** An element value names an element of the store. */
  predicate ValueOk(d: Document, value: Value) {
    value.ElemVal? ==> IsElement(d, value.id)
  }

  /** An occurrence refers to nodes of the right kinds: a text node or an
      element anchor under an element, or an element carrying the
      attribute; accumulated clones are elements. */
  predicate OccOk(d: Document, occ: Occurrence) {
    match occ
    case TextOcc(node, parent) => IsText(d, node) && IsElement(d, parent)
    case ElemOcc(node, parent, clones) =>
      IsElement(d, node) && IsElement(d, parent) && forall c :: c in clones ==> IsElement(d, c)
    case AttrOcc(node, _, _) => IsElement(d, node)
  }

  datatype StepOut = StepOut(doc: Document, occ: Occurrence)

  /** One iteration of the loop of `set` (public/library/h12.js:330-393) for
      the occurrence `occ` of `key`. `data` is the data of every bound key.
      An exception of the DOM ends the step with nothing changed. The
      effect of each case is stated by the lemmas that follow. */
  function Step(d: Document, occ: Occurrence, mode: Mode, key: string, value: Value,
                data: map<string, string>): (r: Result<StepOut, DomError>)
    requires ValueOk(d, value)
  {
    match occ
    case TextOcc(node, parent) =>
      if value.ElemVal? then TextToElement(d, node, parent, value.id)
      else if IsValidType(value) then
        Ok(StepOut(SetText(d, node, Combine(mode, TextOf(value), Content(d, node))), occ))
      else Ok(StepOut(d, occ))
    case ElemOcc(node, parent, clones) =>
      if value.ElemVal? && mode != Replace then Accumulate(d, occ, value.id, mode == Prepend)
      else if value.ElemVal? then ReplaceAnchor(d, occ, value.id)
      else if IsValidType(value) then AnchorToText(d, occ, TextOf(value))
      else Ok(StepOut(RemoveAll(d, clones), occ.(clones := [])))
    case AttrOcc(node, name, template) =>
      if IsValidType(value) then
        Ok(StepOut(SetAttr(d, node, name, ApplyTemplate(template, key, TextOf(value), data)), occ))
      else Ok(StepOut(d, occ))
  }

  /** `parent.replaceChild(value, node)` on a text occurrence (lines 334-338). */
  function TextToElement(d: Document, node: NodeId, parent: NodeId, v: NodeId): Result<StepOut, DomError> {
    match ReplaceChild(d, parent, v, node)
    case Err(e) => Err(e)
    case Ok(d1) => Ok(StepOut(d1, ElemOcc(v, parent, [])))
  }

  /** `node.insertAdjacentElement(position, value)` and the clone push
      (lines 350-354). */
  function Accumulate(d: Document, occ: Occurrence, v: NodeId, atStart: bool): Result<StepOut, DomError>
    requires occ.ElemOcc?
  {
    match InsertChild(d, occ.node, v, atStart)
    case Err(e) => Err(e)
    case Ok(d1) => Ok(StepOut(d1, occ.(clones := occ.clones + [v])))
  }

  /** `parent.replaceChild(value, node)` on an element occurrence, then the
      clones removed (lines 357-358, 367-370). */
  function ReplaceAnchor(d: Document, occ: Occurrence, v: NodeId): Result<StepOut, DomError>
    requires occ.ElemOcc?
  {
    match ReplaceChild(d, occ.parent, v, occ.node)
    case Err(e) => Err(e)
    case Ok(d1) => Ok(StepOut(RemoveAll(d1, occ.clones), ElemOcc(v, occ.parent, [])))
  }

  /** A fresh text node replacing the anchor, then the clones removed
      (lines 362-370). */
  function AnchorToText(d: Document, occ: Occurrence, text: string): Result<StepOut, DomError>
    requires occ.ElemOcc?
  {
    var (d1, t) := CreateText(d, text);
    match ReplaceChild(d1, occ.parent, t, occ.node)
    case Err(e) => Err(e)
    case Ok(d2) => Ok(StepOut(RemoveAll(d2, occ.clones), TextOcc(t, occ.parent)))
  }

  /** What every step keeps: the store only grows and stays valid, the
      occurrence keeps its kind of target (attribute or node), its parent
      and the right kinds of nodes, and only DOM moves throw. */
  lemma StepPreserves(d: Document, occ: Occurrence, mode: Mode, key: string, value: Value,
                      data: map<string, string>)
    requires ValueOk(d, value)
    ensures var r := Step(d, occ, mode, key, value, data);
      && (r.Ok? && Valid(d) ==> Extends(d, r.value.doc) && Valid(r.value.doc))
      && (r.Ok? && Valid(d) && OccOk(d, occ) ==> OccOk(r.value.doc, r.value.occ))
      && (r.Ok? ==> SameTarget(occ, r.value.occ))
      && (r.Err? ==> !occ.AttrOcc? && (value.ElemVal? || (occ.ElemOcc? && IsValidType(value))))
  {
    match occ
    case TextOcc(_, _) => StepPreservesText(d, occ, mode, key, value, data);
    case ElemOcc(_, _, _) => StepPreservesElem(d, occ, mode, key, value, data);
    case AttrOcc(_, _, _) => StepPreservesAttr(d, occ, mode, key, value, data);
  }

  lemma StepPreservesText(d: Document, occ: Occurrence, mode: Mode, key: string, value: Value,
                          data: map<string, string>)
    requires ValueOk(d, value) && occ.TextOcc?
    ensures var r := Step(d, occ, mode, key, value, data);
      && (r.Ok? && Valid(d) ==> Extends(d, r.value.doc) && Valid(r.value.doc))
      && (r.Ok? && Valid(d) && OccOk(d, occ) ==> OccOk(r.value.doc, r.value.occ))
      && (r.Ok? ==> SameTarget(occ, r.value.occ))
      && (r.Err? ==> !occ.AttrOcc? && (value.ElemVal? || (occ.ElemOcc? && IsValidType(value))))
  {
    if value.ElemVal? {
      var d1 := ReplaceChild(d, occ.parent, value.id, occ.node);
      if d1.Ok? { ReplaceChildPreserves(d, occ.parent, value.id, occ.node); }
    }
  }

  lemma StepPreservesAttr(d: Document, occ: Occurrence, mode: Mode, key: string, value: Value,
                          data: map<string, string>)
    requires ValueOk(d, value) && occ.AttrOcc?
    ensures var r := Step(d, occ, mode, key, value, data);
      && r.Ok? && r.value.occ == occ
      && (Valid(d) ==> Extends(d, r.value.doc) && Valid(r.value.doc))
      && (OccOk(d, occ) ==> OccOk(r.value.doc, occ))
  {
  }

  lemma StepPreservesElem(d: Document, occ: Occurrence, mode: Mode, key: string, value: Value,
                          data: map<string, string>)
    requires ValueOk(d, value) && occ.ElemOcc?
    ensures var r := Step(d, occ, mode, key, value, data);
      && (r.Ok? && Valid(d) ==> Extends(d, r.value.doc) && Valid(r.value.doc))
      && (r.Ok? && Valid(d) && OccOk(d, occ) ==> OccOk(r.value.doc, r.value.occ))
      && (r.Ok? ==> SameTarget(occ, r.value.occ))
      && (r.Err? ==> !occ.AttrOcc? && (value.ElemVal? || (occ.ElemOcc? && IsValidType(value))))
  {
    if value.ElemVal? && mode != Replace {
      AccumulatePreserves(d, occ, value.id, mode == Prepend);
    } else if value.ElemVal? {
      ReplaceAnchorPreserves(d, occ, value.id);
    } else if IsValidType(value) {
      if Valid(d) { AnchorToTextPreserves(d, occ, TextOf(value)); }
    } else {
      RemoveAllPreserves(d, occ.clones);
    }
  }

  lemma AccumulatePreserves(d: Document, occ: Occurrence, v: NodeId, atStart: bool)
    requires occ.ElemOcc? && IsElement(d, v)
    ensures var r := Accumulate(d, occ, v, atStart);
      && (r.Ok? ==> Extends(d, r.value.doc) && (Valid(d) ==> Valid(r.value.doc)))
      && (r.Ok? && OccOk(d, occ) ==> OccOk(r.value.doc, r.value.occ))
      && (r.Ok? ==> r.value.occ.ElemOcc? && r.value.occ.parent == occ.parent)
  {
    var d1 := InsertChild(d, occ.node, v, atStart);
    if d1.Ok? {
      forall x | x in d.nodes ensures d1.value.nodes[x].Elem? == d.nodes[x].Elem? {
        assert Shape(d.nodes[x]) == Shape(d1.value.nodes[x]);
      }
    }
  }

  /** Taking nodes out of the tree keeps the store, its validity and every
      node's kind. */
  lemma RemoveAllPreserves(d: Document, xs: seq<NodeId>)
    ensures Extends(d, RemoveAll(d, xs))
    ensures forall x :: IsElement(d, x) ==> IsElement(RemoveAll(d, xs), x)
    ensures forall x :: IsText(d, x) ==> IsText(RemoveAll(d, xs), x)
  {
    var r := RemoveAll(d, xs);
    forall x | x in d.nodes ensures r.nodes[x].Elem? == d.nodes[x].Elem? {
      assert Shape(d.nodes[x]) == Shape(r.nodes[x]);
    }
  }

  lemma ReplaceAnchorPreserves(d: Document, occ: Occurrence, v: NodeId)
    requires occ.ElemOcc? && IsElement(d, v)
    ensures var r := ReplaceAnchor(d, occ, v);
      && (r.Ok? ==> Extends(d, r.value.doc) && (Valid(d) ==> Valid(r.value.doc)))
      && (r.Ok? && IsElement(d, occ.parent) ==> OccOk(r.value.doc, r.value.occ))
      && (r.Ok? ==> r.value.occ.ElemOcc? && r.value.occ.parent == occ.parent)
  {
    var d1 := ReplaceChild(d, occ.parent, v, occ.node);
    if d1.Ok? {
      ReplaceChildPreserves(d, occ.parent, v, occ.node);
      RemoveAllPreserves(d1.value, occ.clones);
      ExtendsTrans(d, d1.value, RemoveAll(d1.value, occ.clones));
    }
  }

  lemma AnchorToTextPreserves(d: Document, occ: Occurrence, text: string)
    requires occ.ElemOcc? && Valid(d)
    ensures var r := AnchorToText(d, occ, text);
      && (r.Ok? ==> Extends(d, r.value.doc) && Valid(r.value.doc))
      && (r.Ok? && IsElement(d, occ.parent) ==> OccOk(r.value.doc, r.value.occ))
      && (r.Ok? ==> r.value.occ.TextOcc? && r.value.occ.parent == occ.parent)
  {
    var (d1, t) := CreateText(d, text);
    var d2 := ReplaceChild(d1, occ.parent, t, occ.node);
    if d2.Ok? {
      CreateTextExtends(d, text);
      ReplaceChildPreserves(d1, occ.parent, t, occ.node);
      assert IsText(d1, t);
      RemoveAllPreserves(d2.value, occ.clones);
      ExtendsTrans(d, d1, d2.value);
      ExtendsTrans(d, d2.value, RemoveAll(d2.value, occ.clones));
    }
  }

  /** A text occurrence given an element: the element takes the text
      node's place under the recorded parent and the occurrence becomes an
      element occurrence on it, whatever the mode. */
  lemma StepTextToElement(d: Document, occ: Occurrence, mode: Mode, key: string, value: Value,
                          data: map<string, string>)
    requires ValueOk(d, value) && occ.TextOcc? && value.ElemVal?
    ensures var r := Step(d, occ, mode, key, value, data);
      && (r.Err? <==> ReplaceFails(d, occ.parent, value.id, occ.node))
      && (r.Ok? ==> r.value.occ == ElemOcc(value.id, occ.parent, [])
                    && value.id in ChildrenOf(r.value.doc, occ.parent)
                    && (value.id != occ.node ==> occ.node !in ChildrenOf(r.value.doc, occ.parent)))
  {
  }

  /** A text occurrence given a text value: the text node's content is
      replaced, or the value is put before or after it; the occurrence stays
      on the same node. */
  lemma StepTextValue(d: Document, occ: Occurrence, mode: Mode, key: string, value: Value,
                      data: map<string, string>)
    requires ValueOk(d, value) && occ.TextOcc? && IsValidType(value) && IsText(d, occ.node)
    ensures var r := Step(d, occ, mode, key, value, data);
      var old_text, v := d.nodes[occ.node].content, TextOf(value);
      && r.Ok? && r.value.occ == occ
      && r.value.doc.nodes.Keys == d.nodes.Keys
      && r.value.doc.nodes[occ.node] == Text(match mode case Replace => v case Prepend => v + old_text case Append => old_text + v)
      && forall x :: x in d.nodes && x != occ.node ==> r.value.doc.nodes[x] == d.nodes[x]
  {
  }

  /** A text occurrence given a value that is neither an element nor text:
      nothing happens. */
  lemma StepTextIgnored(d: Document, occ: Occurrence, mode: Mode, key: string, value: Value,
                        data: map<string, string>)
    requires ValueOk(d, value) && occ.TextOcc? && !value.ElemVal? && !IsValidType(value)
    ensures Step(d, occ, mode, key, value, data) == Ok(StepOut(d, occ))
  {
  }

  /** An element occurrence given an element to accumulate: the element
      becomes the anchor's first (prepend) or last (append) child and joins
      the clone list; the anchor and the earlier clones stay. */
  lemma StepAccumulate(d: Document, occ: Occurrence, mode: Mode, key: string, value: Value,
                       data: map<string, string>)
    requires ValueOk(d, value) && occ.ElemOcc? && value.ElemVal? && mode != Replace
    ensures var r := Step(d, occ, mode, key, value, data);
      && (r.Err? <==> InsertFails(d, occ.node, value.id))
      && (r.Ok? ==> r.value.occ == occ.(clones := occ.clones + [value.id])
                    && MovedOut(d, r.value.doc, occ.node, value.id)
                    && ChildrenOf(r.value.doc, occ.node)
                       == if mode == Prepend then [value.id] + Without(ChildrenOf(d, occ.node), value.id)
                          else Without(ChildrenOf(d, occ.node), value.id) + [value.id])
  {
  }

  /** An element occurrence in every other case ends with an empty clone
      list, and every former clone is out of the tree. */
  lemma StepDropsClones(d: Document, occ: Occurrence, mode: Mode, key: string, value: Value,
                        data: map<string, string>)
    requires ValueOk(d, value) && occ.ElemOcc? && !(value.ElemVal? && mode != Replace)
    requires Step(d, occ, mode, key, value, data).Ok?
    ensures var r := Step(d, occ, mode, key, value, data).value;
      && (r.occ.ElemOcc? ==> r.occ.clones == [])
      && forall q, c :: q in r.doc.nodes && c in occ.clones ==> c !in ChildrenOf(r.doc, q)
  {
  }

  /** An element occurrence given an element to replace with: the element
      takes the anchor's place and becomes the new anchor. */
  lemma StepReplaceAnchor(d: Document, occ: Occurrence, key: string, value: Value,
                          data: map<string, string>)
    requires ValueOk(d, value) && occ.ElemOcc? && value.ElemVal?
    ensures var r := Step(d, occ, Replace, key, value, data);
      && (r.Err? <==> ReplaceFails(d, occ.parent, value.id, occ.node))
      && (r.Ok? ==> r.value.occ == ElemOcc(value.id, occ.parent, [])
                    && (value.id !in occ.clones ==> value.id in ChildrenOf(r.value.doc, occ.parent))
                    && (value.id != occ.node ==> occ.node !in ChildrenOf(r.value.doc, occ.parent)))
  {
    assert Step(d, occ, Replace, key, value, data) == ReplaceAnchor(d, occ, value.id);
    var d1 := ReplaceChild(d, occ.parent, value.id, occ.node);
    if d1.Ok? {
      assert occ.parent in d1.value.nodes;
      RemoveAllAt(d1.value, occ.clones, occ.parent, value.id);
      RemoveAllAt(d1.value, occ.clones, occ.parent, occ.node);
    }
  }

  /** An element occurrence given a text value: a fresh text node with the
      value takes the anchor's place and the occurrence becomes a text
      occurrence on it. */
  lemma StepAnchorToText(d: Document, occ: Occurrence, mode: Mode, key: string, value: Value,
                         data: map<string, string>)
    requires ValueOk(d, value) && occ.ElemOcc? && OccOk(d, occ) && IsValidType(value) && Valid(d)
    ensures var r := Step(d, occ, mode, key, value, data);
      && (r.Err? <==> !IsElement(d, occ.parent) || occ.node !in ChildrenOf(d, occ.parent))
      && (r.Ok? ==> r.value.occ == TextOcc(d.next, occ.parent)
                    && d.next !in d.nodes && IsText(r.value.doc, d.next)
                    && Content(r.value.doc, d.next) == TextOf(value)
                    && d.next in ChildrenOf(r.value.doc, occ.parent)
                    && occ.node !in ChildrenOf(r.value.doc, occ.parent))
  {
    assert Step(d, occ, mode, key, value, data) == AnchorToText(d, occ, TextOf(value));
    var (d1, text) := CreateText(d, TextOf(value));
    if IsElement(d, occ.parent) {
      LeafNotAncestor(d1.nodes, text, occ.parent, |d1.nodes|);
    }
    var d2 := ReplaceChild(d1, occ.parent, text, occ.node);
    if d2.Ok? {
      assert occ.parent in d2.value.nodes;
      assert text !in occ.clones;
      RemoveAllAt(d2.value, occ.clones, occ.parent, text);
      RemoveAllAt(d2.value, occ.clones, occ.parent, occ.node);
      assert Shape(d2.value.nodes[text]) == Shape(d1.nodes[text]);
    }
  }

  /** An element occurrence given a value that is neither an element nor
      text keeps its anchor, but its clones are still dropped. */
  lemma StepAnchorIgnored(d: Document, occ: Occurrence, mode: Mode, key: string, value: Value,
                          data: map<string, string>)
    requires ValueOk(d, value) && occ.ElemOcc? && !value.ElemVal? && !IsValidType(value)
    ensures var r := Step(d, occ, mode, key, value, data);
      r.Ok? && r.value.occ == occ.(clones := []) && r.value.doc.nodes.Keys == d.nodes.Keys
  {
  }

  /** An attribute occurrence given a text value: the attribute becomes the
      template with its tokens resolved; the template itself is kept. A
      value without text leaves everything alone. */
  lemma StepAttribute(d: Document, occ: Occurrence, mode: Mode, key: string, value: Value,
                      data: map<string, string>)
    requires ValueOk(d, value) && occ.AttrOcc?
    ensures var r := Step(d, occ, mode, key, value, data);
      && r.Ok? && r.value.occ == occ
      && (!IsValidType(value) ==> r.value.doc == d)
      && (IsValidType(value) && IsElement(d, occ.node) ==>
            && GetAttr(r.value.doc, occ.node, occ.name) == Some(ApplyTemplate(occ.template, key, TextOf(value), data))
            && r.value.doc.nodes.Keys == d.nodes.Keys
            && (forall n :: n != occ.name ==> GetAttr(r.value.doc, occ.node, n) == GetAttr(d, occ.node, n))
            && IsElement(r.value.doc, occ.node)
            && forall x :: x in d.nodes && x != occ.node ==> r.value.doc.nodes[x] == d.nodes[x])
  {
  }

  /** An occurrence that is well formed stays so while the store only grows. */
  lemma OccOkExtends(d: Document, r: Document, occ: Occurrence)
    requires Extends(d, r) && OccOk(d, occ)
    ensures OccOk(r, occ)
  {
  }

  /** Where the loop of `set` stopped: the document, the key's occurrence
      records, how many occurrences were handled, whether an attribute
      occurrence wrote the key's data, and the exception that ended the loop
      early, if any. */
  datatype Progress = Progress(doc: Document, occs: seq<Occurrence>, done: nat, wrote: bool,
                               error: Option<DomError>)

  /** The loop of `set` over the key's occurrences, in order. A step that
      throws ends the loop: the earlier steps' effects stay, and the failing
      occurrence and the later ones keep their records. */
  function Walk(d: Document, occs: seq<Occurrence>, mode: Mode, key: string, value: Value,
                data: map<string, string>): Progress
    requires Valid(d) && ValueOk(d, value)
    decreases |occs|
  {
    if occs == [] then Progress(d, [], 0, false, None)
    else
      match Step(d, occs[0], mode, key, value, data)
      case Err(e) => Progress(d, occs, 0, false, Some(e))
      case Ok(out) =>
        StepPreserves(d, occs[0], mode, key, value, data);
        var rest := Walk(out.doc, occs[1..], mode, key, value, data);
        Progress(rest.doc, [out.occ] + rest.occs, rest.done + 1,
                 (occs[0].AttrOcc? && IsValidType(value)) || rest.wrote, rest.error)
  }

  /** One successful step of the loop: the rest of the loop runs on the
      step's document and its record goes in front. */
  lemma WalkOk(d: Document, occs: seq<Occurrence>, mode: Mode, key: string, value: Value,
               data: map<string, string>, out: StepOut)
    requires Valid(d) && ValueOk(d, value)
    requires occs != [] && Step(d, occs[0], mode, key, value, data) == Ok(out)
    ensures Valid(out.doc) && ValueOk(out.doc, value)
    ensures Walk(d, occs, mode, key, value, data)
        == var rest := Walk(out.doc, occs[1..], mode, key, value, data);
           Progress(rest.doc, [out.occ] + rest.occs, rest.done + 1,
                    (occs[0].AttrOcc? && IsValidType(value)) || rest.wrote, rest.error)
  {
    StepValid(d, occs[0], mode, key, value, data, out);
  }

  /** A step that does not throw leaves a valid document in which the value
      is still usable. */
  lemma StepValid(d: Document, occ: Occurrence, mode: Mode, key: string, value: Value,
                  data: map<string, string>, out: StepOut)
    requires Valid(d) && ValueOk(d, value) && Step(d, occ, mode, key, value, data) == Ok(out)
    ensures Valid(out.doc) && ValueOk(out.doc, value)
  {
    StepPreserves(d, occ, mode, key, value, data);
  }

  /** The loop handles a prefix of the occurrences, all of them exactly
      when nothing throws. */
  lemma {:induction false} WalkStops(d: Document, occs: seq<Occurrence>, mode: Mode, key: string,
                                     value: Value, data: map<string, string>)
    requires Valid(d) && ValueOk(d, value)
    ensures var p := Walk(d, occs, mode, key, value, data);
      && p.done <= |occs| && |p.occs| == |occs|
      && (p.error.None? <==> p.done == |occs|)
    decreases |occs|
  {
    if occs != [] && Step(d, occs[0], mode, key, value, data).Ok? {
      var out := Step(d, occs[0], mode, key, value, data).value;
      WalkOk(d, occs, mode, key, value, data, out);
      WalkStops(out.doc, occs[1..], mode, key, value, data);
    }
  }

  /** The records from where the loop stopped on are unchanged. */
  lemma {:induction false} WalkKeepsRest(d: Document, occs: seq<Occurrence>, mode: Mode, key: string,
                                         value: Value, data: map<string, string>)
    requires Valid(d) && ValueOk(d, value)
    ensures var p := Walk(d, occs, mode, key, value, data);
      p.done <= |occs| && |p.occs| == |occs| && p.occs[p.done..] == occs[p.done..]
    decreases |occs|
  {
    WalkStops(d, occs, mode, key, value, data);
    if occs != [] && Step(d, occs[0], mode, key, value, data).Ok? {
      var out := Step(d, occs[0], mode, key, value, data).value;
      WalkOk(d, occs, mode, key, value, data, out);
      WalkKeepsRest(out.doc, occs[1..], mode, key, value, data);
      var rest := Walk(out.doc, occs[1..], mode, key, value, data);
      ShiftedRest([out.occ], rest.occs, occs, rest.done);
    }
  }

  /** Putting one record in front of a list whose tail from `k` on is
      `occs[1..]`'s keeps the tail from `k + 1` on equal to `occs`'s. */
  lemma ShiftedRest(head: seq<Occurrence>, tail: seq<Occurrence>, occs: seq<Occurrence>, k: nat)
    requires |head| == 1 && occs != [] && k <= |tail| && |tail| == |occs| - 1 && tail[k..] == occs[1..][k..]
    ensures (head + tail)[k + 1..] == occs[k + 1..]
  {
    assert (head + tail)[k + 1..] == tail[k..];
    assert occs[1..][k..] == occs[k + 1..];
  }

  /** The loop leaves a valid document that only grew. */
  lemma {:induction false} WalkExtends(d: Document, occs: seq<Occurrence>, mode: Mode, key: string,
                                       value: Value, data: map<string, string>)
    requires Valid(d) && ValueOk(d, value)
    ensures var p := Walk(d, occs, mode, key, value, data);
      Extends(d, p.doc) && Valid(p.doc) && ValueOk(p.doc, value)
    decreases |occs|
  {
    if occs != [] {
      var r := Step(d, occs[0], mode, key, value, data);
      if r.Ok? {
        StepPreserves(d, occs[0], mode, key, value, data);
        WalkExtends(r.value.doc, occs[1..], mode, key, value, data);
        ExtendsTrans(d, r.value.doc, Walk(r.value.doc, occs[1..], mode, key, value, data).doc);
      }
    }
  }

  /** An exception is the one the next occurrence's step throws on the
      document the handled occurrences left. */
  lemma {:induction false} WalkError(d: Document, occs: seq<Occurrence>, mode: Mode, key: string,
                                     value: Value, data: map<string, string>)
    requires Valid(d) && ValueOk(d, value)
    ensures var p := Walk(d, occs, mode, key, value, data);
      p.error.Some? ==>
        && p.done < |occs| && ValueOk(p.doc, value)
        && Step(p.doc, occs[p.done], mode, key, value, data) == Err(p.error.value)
    decreases |occs|, 1
  {
    if occs == [] {
      WalkEmpty(d, mode, key, value, data);
    } else {
      var r := Step(d, occs[0], mode, key, value, data);
      if r.Ok? {
        WalkErrorOk(d, occs, mode, key, value, data, r.value);
      } else {
        WalkErrorHead(d, occs, mode, key, value, data, r.error);
      }
    }
  }

  /** A first step that throws ends the loop at once. */
  lemma WalkErrorHead(d: Document, occs: seq<Occurrence>, mode: Mode, key: string,
                      value: Value, data: map<string, string>, e: DomError)
    requires Valid(d) && ValueOk(d, value)
    requires occs != [] && Step(d, occs[0], mode, key, value, data) == Err(e)
    ensures Walk(d, occs, mode, key, value, data) == Progress(d, occs, 0, false, Some(e))
  {
  }

  /** `WalkError` when the first step succeeds: the exception comes from the rest of the loop. */
  lemma {:induction false} WalkErrorOk(d: Document, occs: seq<Occurrence>, mode: Mode, key: string,
                                       value: Value, data: map<string, string>, out: StepOut)
    requires Valid(d) && ValueOk(d, value)
    requires occs != [] && Step(d, occs[0], mode, key, value, data) == Ok(out)
    ensures var p := Walk(d, occs, mode, key, value, data);
      p.error.Some? ==>
        && p.done < |occs| && ValueOk(p.doc, value)
        && Step(p.doc, occs[p.done], mode, key, value, data) == Err(p.error.value)
    decreases |occs|, 0
  {
    WalkOk(d, occs, mode, key, value, data, out);
    WalkError(out.doc, occs[1..], mode, key, value, data);
    WalkStops(out.doc, occs[1..], mode, key, value, data);
    var rest := Walk(out.doc, occs[1..], mode, key, value, data);
    if rest.error.Some? { assert occs[1..][rest.done] == occs[rest.done + 1]; }
  }

  /** The loop writes the key's data exactly when the value has text and an
      attribute occurrence was among the handled ones. */
  lemma {:induction false} WalkWrote(d: Document, occs: seq<Occurrence>, mode: Mode, key: string,
                                     value: Value, data: map<string, string>)
    requires Valid(d) && ValueOk(d, value)
    ensures var p := Walk(d, occs, mode, key, value, data);
      p.wrote <==> IsValidType(value) && exists i :: 0 <= i < p.done && i < |occs| && occs[i].AttrOcc?
    decreases |occs|
  {
    if occs != [] {
      var r := Step(d, occs[0], mode, key, value, data);
      if r.Ok? {
        StepPreserves(d, occs[0], mode, key, value, data);
        WalkWrote(r.value.doc, occs[1..], mode, key, value, data);
        var p := Walk(d, occs, mode, key, value, data);
        if IsValidType(value) && (exists i :: 0 <= i < p.done && i < |occs| && occs[i].AttrOcc?) {
          var i :| 0 <= i < p.done && i < |occs| && occs[i].AttrOcc?;
          if i > 0 { assert occs[1..][i - 1] == occs[i]; }
        }
        if p.wrote && !occs[0].AttrOcc? {
          var j :| 0 <= j < p.done - 1 && j < |occs| - 1 && occs[1..][j].AttrOcc?;
          assert occs[j + 1].AttrOcc?;
        }
      }
    }
  }

  /** A record after an update still denotes the same place: an attribute
      record is unchanged, a node record keeps its parent. */
  predicate SameTarget(before: Occurrence, after: Occurrence) {
    && (after.AttrOcc? <==> before.AttrOcc?)
    && (before.AttrOcc? ==> after == before)
    && (!before.AttrOcc? ==> after.parent == before.parent)
  }

  /** Every record keeps its kind of target and its parent, and an
      attribute record is kept as it was. */
  lemma {:induction false} WalkRecords(d: Document, occs: seq<Occurrence>, mode: Mode, key: string,
                                       value: Value, data: map<string, string>)
    requires Valid(d) && ValueOk(d, value)
    ensures var p := Walk(d, occs, mode, key, value, data);
      && |p.occs| == |occs|
      && forall i :: 0 <= i < |occs| ==> SameTarget(occs[i], p.occs[i])
    decreases |occs|
  {
    if occs != [] {
      var r := Step(d, occs[0], mode, key, value, data);
      if r.Ok? {
        StepPreserves(d, occs[0], mode, key, value, data);
        WalkRecords(r.value.doc, occs[1..], mode, key, value, data);
        var rest := Walk(r.value.doc, occs[1..], mode, key, value, data);
        ShiftSameTarget(occs, r.value.occ, rest.occs);
      }
    }
  }

  lemma ShiftSameTarget(occs: seq<Occurrence>, first: Occurrence, rest: seq<Occurrence>)
    requires occs != [] && |rest| == |occs| - 1 && SameTarget(occs[0], first)
    requires forall j :: 0 <= j < |rest| ==> SameTarget(occs[1..][j], rest[j])
    ensures forall i :: 0 <= i < |occs| ==> SameTarget(occs[i], ([first] + rest)[i])
  {
    forall i | 0 < i < |occs| ensures SameTarget(occs[i], rest[i - 1]) {
      assert occs[i] == occs[1..][i - 1];
    }
  }

  /** A well-formed record stays well formed. */
  lemma {:induction false} WalkKeepsOccOk(d: Document, occs: seq<Occurrence>, mode: Mode, key: string,
                                          value: Value, data: map<string, string>)
    requires Valid(d) && ValueOk(d, value)
    ensures var p := Walk(d, occs, mode, key, value, data);
      && |p.occs| == |occs|
      && forall i :: 0 <= i < |occs| && OccOk(d, occs[i]) ==> OccOk(p.doc, p.occs[i])
    decreases |occs|
  {
    if occs != [] {
      var r := Step(d, occs[0], mode, key, value, data);
      if r.Ok? {
        var p := Walk(d, occs, mode, key, value, data);
        StepPreserves(d, occs[0], mode, key, value, data);
        WalkKeepsOccOk(r.value.doc, occs[1..], mode, key, value, data);
        WalkExtends(r.value.doc, occs[1..], mode, key, value, data);
        var rest := Walk(r.value.doc, occs[1..], mode, key, value, data);
        if OccOk(d, occs[0]) { OccOkExtends(r.value.doc, rest.doc, r.value.occ); }
        ShiftOccOk(d, r.value.doc, rest.doc, occs, r.value.occ, rest.occs);
      }
    }
  }

  lemma ShiftOccOk(d: Document, d1: Document, dn: Document, occs: seq<Occurrence>,
                   first: Occurrence, rest: seq<Occurrence>)
    requires occs != [] && |rest| == |occs| - 1 && Extends(d, d1)
    requires OccOk(d, occs[0]) ==> OccOk(dn, first)
    requires forall j :: 0 <= j < |rest| && OccOk(d1, occs[1..][j]) ==> OccOk(dn, rest[j])
    ensures forall i :: 0 <= i < |occs| && OccOk(d, occs[i]) ==> OccOk(dn, ([first] + rest)[i])
  {
    forall i | 0 < i < |occs| && OccOk(d, occs[i]) ensures OccOk(dn, rest[i - 1]) {
      assert occs[i] == occs[1..][i - 1];
      OccOkExtends(d, d1, occs[i]);
    }
  }

  /** The value `set` works with: the parameter's declared default `""`
      takes the place of a missing or `undefined` value. */
  function Passed(value: Value): (v: Value)
    ensures !v.Undefined?
  {
    if value.Undefined? then Str("") else value
  }

  /** What `set` leaves: the document, the bindings, and the exception it
      threw, if any. JavaScript has no rollback, so after an exception the
      document and bindings hold the effects of the occurrences handled
      before it. */
  datatype SetOutcome = SetOutcome(doc: Document, bindings: Bindings, error: Option<DomError>)

  /** `set(key, value)`: the marker is parsed off the key; an unbound key
      changes nothing; otherwise every occurrence is updated in order, with
      the other keys' data for attribute templates, and the key's data
      becomes the value once an attribute occurrence took it. A missing
      value is the declared default `""`. */
  function Set(d: Document, b: Bindings, rawKey: string, value: Value): SetOutcome
    requires Valid(d) && ValueOk(d, value)
  {
    var pk, v := ParseKey(rawKey), Passed(value);
    if pk.key !in b then SetOutcome(d, b, None)
    else
      var p := Walk(d, b[pk.key].occs, pk.mode, pk.key, v, DataOf(b));
      var data := if p.wrote then TextOf(v) else b[pk.key].data;
      SetOutcome(p.doc, b[pk.key := Entry(p.occs, data)], p.error)
  }

  /** `set(key)` and `set(key, undefined)` behave as `set(key, "")`. */
  lemma SetDefault(d: Document, b: Bindings, rawKey: string)
    requires Valid(d)
    ensures Set(d, b, rawKey, Undefined) == Set(d, b, rawKey, Str(""))
  {
  }

  /** Every record of every key refers to nodes of the right kinds. */
  predicate WellFormed(d: Document, b: Bindings) {
    forall k, i :: k in b && 0 <= i < |b[k].occs| ==> OccOk(d, b[k].occs[i])
  }

  /** A key that is not bound (after its marker is removed) leaves
      everything as it was, and `get` still answers `null` for it. */
  lemma SetUnbound(d: Document, b: Bindings, rawKey: string, value: Value)
    requires Valid(d) && ValueOk(d, value) && ParseKey(rawKey).key !in b
    ensures Set(d, b, rawKey, value) == SetOutcome(d, b, None)
    ensures Get(Set(d, b, rawKey, value).bindings, ParseKey(rawKey).key).None?
  {
  }

  /** `set` keeps the bound keys, leaves every other key's entry alone, and
      keeps the number of the key's records and what each one denotes. */
  lemma SetKeepsBindings(d: Document, b: Bindings, rawKey: string, value: Value)
    requires Valid(d) && ValueOk(d, value)
    ensures var o, k := Set(d, b, rawKey, value), ParseKey(rawKey).key;
      && o.bindings.Keys == b.Keys
      && (forall k' :: k' in b && k' != k ==> o.bindings[k'] == b[k'])
      && (k in b ==> |o.bindings[k].occs| == |b[k].occs|
                     && forall i :: 0 <= i < |b[k].occs| ==> SameTarget(b[k].occs[i], o.bindings[k].occs[i]))
  {
    var pk := ParseKey(rawKey);
    if pk.key in b {
      WalkRecords(d, b[pk.key].occs, pk.mode, pk.key, Passed(value), DataOf(b));
    }
  }

  /** When nothing throws, `get` answers the value's text after `set` exactly
      when the value has text and the key occurs in an attribute, and the
      former data otherwise. */
  lemma SetData(d: Document, b: Bindings, rawKey: string, value: Value)
    requires Valid(d) && ValueOk(d, value) && ParseKey(rawKey).key in b
    requires Set(d, b, rawKey, value).error.None?
    ensures var k, v := ParseKey(rawKey).key, Passed(value);
      Get(Set(d, b, rawKey, value).bindings, k)
        == Some(if IsValidType(v) && exists i :: 0 <= i < |b[k].occs| && b[k].occs[i].AttrOcc?
                then TextOf(v) else b[k].data)
  {
    var pk := ParseKey(rawKey);
    WalkStops(d, b[pk.key].occs, pk.mode, pk.key, Passed(value), DataOf(b));
    WalkWrote(d, b[pk.key].occs, pk.mode, pk.key, Passed(value), DataOf(b));
  }

  /** `set` leaves a valid document that only grew, in which an element
      value is still an element, and keeps every record well formed. */
  lemma SetPreserves(d: Document, b: Bindings, rawKey: string, value: Value)
    requires Valid(d) && ValueOk(d, value)
    ensures var o := Set(d, b, rawKey, value);
      && Valid(o.doc) && Extends(d, o.doc) && ValueOk(o.doc, value)
      && (WellFormed(d, b) ==> WellFormed(o.doc, o.bindings))
  {
    var pk := ParseKey(rawKey);
    if pk.key in b {
      var occs := b[pk.key].occs;
      var o := Set(d, b, rawKey, value);
      WalkExtends(d, occs, pk.mode, pk.key, Passed(value), DataOf(b));
      WalkKeepsOccOk(d, occs, pk.mode, pk.key, Passed(value), DataOf(b));
      if WellFormed(d, b) {
        forall k, i | k in o.bindings && 0 <= i < |o.bindings[k].occs|
          ensures OccOk(o.doc, o.bindings[k].occs[i])
        {
          if k != pk.key {
            OccOkExtends(d, o.doc, b[k].occs[i]);
          }
        }
      }
    }
  }

  /** The loop over a single record is one step. */
  lemma WalkSingle(d: Document, occ: Occurrence, mode: Mode, key: string, value: Value,
                   data: map<string, string>)
    requires Valid(d) && ValueOk(d, value)
    ensures Walk(d, [occ], mode, key, value, data) ==
      match Step(d, occ, mode, key, value, data)
      case Err(e) => Progress(d, [occ], 0, false, Some(e))
      case Ok(out) => Progress(out.doc, [out.occ], 1, occ.AttrOcc? && IsValidType(value), None)
  {
    var r := Step(d, occ, mode, key, value, data);
    if r.Ok? {
      WalkSingleOk(d, occ, mode, key, value, data, r.value);
    } else {
      WalkSingleErr(d, occ, mode, key, value, data, r.error);
    }
  }

  lemma WalkSingleOk(d: Document, occ: Occurrence, mode: Mode, key: string, value: Value,
                     data: map<string, string>, out: StepOut)
    requires Valid(d) && ValueOk(d, value) && Step(d, occ, mode, key, value, data) == Ok(out)
    ensures Walk(d, [occ], mode, key, value, data)
         == Progress(out.doc, [out.occ], 1, occ.AttrOcc? && IsValidType(value), None)
  {
    assert [occ][0] == occ;
    WalkOk(d, [occ], mode, key, value, data, out);
    assert [occ][1..] == [];
    WalkEmpty(out.doc, mode, key, value, data);
    assert [out.occ] + [] == [out.occ];
  }

  lemma WalkEmpty(d: Document, mode: Mode, key: string, value: Value, data: map<string, string>)
    requires Valid(d) && ValueOk(d, value)
    ensures Walk(d, [], mode, key, value, data) == Progress(d, [], 0, false, None)
  {
  }

  lemma WalkSingleErr(d: Document, occ: Occurrence, mode: Mode, key: string, value: Value,
                      data: map<string, string>, e: DomError)
    requires Valid(d) && ValueOk(d, value) && Step(d, occ, mode, key, value, data) == Err(e)
    ensures Walk(d, [occ], mode, key, value, data) == Progress(d, [occ], 0, false, Some(e))
  {
    assert [occ][0] == occ;
  }

  /** For a key with a single record, `set` is one step: an exception leaves
      everything as it was, otherwise the record and the document are the
      step's. */
  lemma SetSingle(d: Document, b: Bindings, rawKey: string, value: Value, occ: Occurrence)
    requires Valid(d) && ValueOk(d, value)
    requires ParseKey(rawKey).key in b && b[ParseKey(rawKey).key].occs == [occ]
    ensures var pk, v := ParseKey(rawKey), Passed(value);
      Set(d, b, rawKey, value) ==
        match Step(d, occ, pk.mode, pk.key, v, DataOf(b))
        case Err(e) => SetOutcome(d, b, Some(e))
        case Ok(out) =>
          var data := if occ.AttrOcc? && IsValidType(v) then TextOf(v) else b[pk.key].data;
          SetOutcome(out.doc, b[pk.key := Entry([out.occ], data)], None)
  {
    var pk := ParseKey(rawKey);
    WalkSingle(d, occ, pk.mode, pk.key, Passed(value), DataOf(b));
    var r := Step(d, occ, pk.mode, pk.key, Passed(value), DataOf(b));
    if r.Err? {
      assert b[pk.key := Entry([occ], b[pk.key].data)] == b;
    }
  }

  /** The loop over attribute records only: nothing throws, the records stay,
      no node is added, and each attribute ends as the template of the last
      record naming it resolves to; attributes no record names are left
      alone. */
  lemma {:induction false} WalkAttributes(d: Document, occs: seq<Occurrence>, key: string, value: Value,
                                          mode: Mode, data: map<string, string>)
    requires Valid(d) && ValueOk(d, value) && IsValidType(value)
    requires forall i :: 0 <= i < |occs| ==> occs[i].AttrOcc? && IsElement(d, occs[i].node)
    ensures var p := Walk(d, occs, mode, key, value, data);
      && p.error.None? && p.occs == occs && p.doc.nodes.Keys == d.nodes.Keys
      && (forall x, n :: (forall j :: 0 <= j < |occs| ==> !Names(occs[j], x, n)) ==>
            GetAttr(p.doc, x, n) == GetAttr(d, x, n))
      && forall i :: 0 <= i < |occs| && LastNaming(occs, i) ==>
            GetAttr(p.doc, occs[i].node, occs[i].name)
              == Some(ApplyTemplate(occs[i].template, key, TextOf(value), data))
    decreases |occs|
  {
    if occs != [] {
      var occ := occs[0];
      var out := AttrStep(d, occs, key, value, mode, data);
      var d1 := out.doc;
      forall i | 0 <= i < |occs[1..]| ensures occs[1..][i].AttrOcc? && IsElement(d1, occs[1..][i].node) {
        assert occs[1..][i] == occs[i + 1];
      }
      WalkAttributes(d1, occs[1..], key, value, mode, data);
      var rest := Walk(d1, occs[1..], mode, key, value, data);
      var p := Walk(d, occs, mode, key, value, data);
      assert [occ] + occs[1..] == occs;
      forall x, n | (forall j :: 0 <= j < |occs| ==> !Names(occs[j], x, n))
        ensures GetAttr(p.doc, x, n) == GetAttr(d, x, n)
      {
        UnnamedTail(occs, x, n);
        AttrFrame(d, d1, occ, x, n);
      }
      forall i | 0 <= i < |occs| && LastNaming(occs, i)
        ensures GetAttr(p.doc, occs[i].node, occs[i].name)
                == Some(ApplyTemplate(occs[i].template, key, TextOf(value), data))
      {
        if i == 0 {
          UnnamedTail(occs, occ.node, occ.name);
        } else {
          LastNamingTail(occs, i);
        }
      }
    }
  }

  /** A name no record writes is written by none of the tail's records
      either; for the head record's own name this is its being last. */
  lemma UnnamedTail(occs: seq<Occurrence>, x: NodeId, n: string)
    requires occs != []
    requires (forall j :: 0 <= j < |occs| ==> !Names(occs[j], x, n))
             || (LastNaming(occs, 0) && x == occs[0].node && n == occs[0].name)
    ensures forall j :: 0 <= j < |occs[1..]| ==> !Names(occs[1..][j], x, n)
    ensures !LastNaming(occs, 0) ==> !Names(occs[0], x, n)
  {
    forall j | 0 <= j < |occs[1..]| ensures !Names(occs[1..][j], x, n) {
      assert occs[1..][j] == occs[j + 1];
    }
  }

  /** A record after the head that is last for its name is last in the
      tail too. */
  lemma LastNamingTail(occs: seq<Occurrence>, i: int)
    requires 0 < i < |occs| && LastNaming(occs, i)
    ensures occs[i] == occs[1..][i - 1] && LastNaming(occs[1..], i - 1)
  {
    forall j | i - 1 < j < |occs[1..]| ensures !Names(occs[1..][j], occs[i].node, occs[i].name) {
      assert occs[1..][j] == occs[j + 1];
    }
  }

  /** The first step of the loop over attribute records, with the
      document it leaves. */
  lemma AttrStep(d: Document, occs: seq<Occurrence>, key: string, value: Value, mode: Mode,
                 data: map<string, string>) returns (out: StepOut)
    requires Valid(d) && ValueOk(d, value) && IsValidType(value)
    requires occs != [] && occs[0].AttrOcc? && IsElement(d, occs[0].node)
    ensures Valid(out.doc) && ValueOk(out.doc, value) && out.occ == occs[0]
    ensures Walk(d, occs, mode, key, value, data)
         == var rest := Walk(out.doc, occs[1..], mode, key, value, data);
            Progress(rest.doc, [occs[0]] + rest.occs, rest.done + 1, true, rest.error)
    ensures GetAttr(out.doc, occs[0].node, occs[0].name)
         == Some(ApplyTemplate(occs[0].template, key, TextOf(value), data))
    ensures out.doc.nodes.Keys == d.nodes.Keys && IsElement(out.doc, occs[0].node)
    ensures forall n :: n != occs[0].name ==> GetAttr(out.doc, occs[0].node, n) == GetAttr(d, occs[0].node, n)
    ensures forall x :: x in d.nodes && x != occs[0].node ==> out.doc.nodes[x] == d.nodes[x]
  {
    StepAttribute(d, occs[0], mode, key, value, data);
    out := Step(d, occs[0], mode, key, value, data).value;
    WalkOk(d, occs, mode, key, value, data, out);
  }

  /** The record writes attribute `n` of node `x`. */
  predicate Names(occ: Occurrence, x: NodeId, n: string) {
    occ.AttrOcc? && occ.node == x && occ.name == n
  }

  /** No later record writes the attribute the `i`-th one writes. */
  predicate LastNaming(occs: seq<Occurrence>, i: int)
    requires 0 <= i < |occs|
  {
    occs[i].AttrOcc? && forall j :: i < j < |occs| ==> !Names(occs[j], occs[i].node, occs[i].name)
  }

  lemma AttrFrame(d: Document, d1: Document, occ: Occurrence, x: NodeId, n: string)
    requires occ.AttrOcc? && IsElement(d, occ.node) && !Names(occ, x, n)
    requires forall n' :: n' != occ.name ==> GetAttr(d1, occ.node, n') == GetAttr(d, occ.node, n')
    requires d1.nodes.Keys == d.nodes.Keys
    requires forall y :: y in d.nodes && y != occ.node ==> d1.nodes[y] == d.nodes[y]
    ensures GetAttr(d1, x, n) == GetAttr(d, x, n)
  {
  }

  /** A key that occurs only in attributes, set to a value with text: nothing
      throws, the key's data becomes the value's text, and every attribute
      a record writes ends as the template of its last record with the key's
      token resolved to the value and other tokens to their keys' data. */
  lemma SetAttributes(d: Document, b: Bindings, rawKey: string, value: Value)
    requires Valid(d) && ValueOk(d, value) && IsValidType(Passed(value))
    requires var k := ParseKey(rawKey).key;
      && k in b && b[k].occs != []
      && forall i :: 0 <= i < |b[k].occs| ==> b[k].occs[i].AttrOcc? && IsElement(d, b[k].occs[i].node)
    ensures var o, k, v := Set(d, b, rawKey, value), ParseKey(rawKey).key, Passed(value);
      && o.error.None?
      && o.bindings == b[k := b[k].(data := TextOf(v))]
      && forall i :: 0 <= i < |b[k].occs| && LastNaming(b[k].occs, i) ==>
           GetAttr(o.doc, b[k].occs[i].node, b[k].occs[i].name)
             == Some(ApplyTemplate(b[k].occs[i].template, k, TextOf(v), DataOf(b)))
  {
    var pk, v := ParseKey(rawKey), Passed(value);
    var occs := b[pk.key].occs;
    WalkAttributes(d, occs, pk.key, v, pk.mode, DataOf(b));
    WalkStops(d, occs, pk.mode, pk.key, v, DataOf(b));
    WalkWrote(d, occs, pk.mode, pk.key, v, DataOf(b));
    assert occs[0].AttrOcc?;
  }
}

=== FILE: wrappers.dfy ===
/** Optional values and fallible results. */
module Wrappers {

  datatype Option<T> = None | Some(value: T)

  /** The outcome of a DOM call that may throw. */
  datatype Result<T, E> = Ok(value: T) | Err(error: E)
}
